=== FILE: README.md ===
# wspotify in Dafny

A model of the core of wspotify, a Python client for the Spotify Web API. It covers three areas.

**OAuth2 flows.** There are three flows: client credentials, authorization code, and authorization code with PKCE.
- Each flow builds its authorize URL and parses the redirect that comes back.
- Each flow exchanges a code or a refresh token at the accounts service's token endpoint.
- Each flow keeps the current `AccessToken` in a field that its methods update.

**The resource base class `APIReference`.**
- It holds a flow, the API base URL and the client's `Authorization` header.
- It checks the token before every call, and the required scopes before the library calls.

**The album and artist endpoints.** Every endpoint shares the same error rule: a status other than 200 raises `ResponseError` with the body's `error` field, or `"unknown"`.
- Offset pagination: a probe page, then follow-up pages at offsets 50, 100, … fetched concurrently.
- ID batching: 20 IDs per album request, 100 per artist request, also fetched concurrently.
- Merging: the replies are combined in the order they complete.

How the model is built:

- **The HTTP transport.** A resource request is a `Request`: a verb, a path, an ordered parameter list and an optional JSON list of IDs. The transport is a function from requests to decoded `Response`s. The token endpoint is a `TokenEndpoint` object: a function from requests to replies, plus the log of the requests posted to it, which the methods append to.
- **Completion order.** The thread pool's `as_completed` order is a parameter `complete`, which gives a permutation of the submitted futures for each count. Nothing is proved about the order of merged pages beyond what the code does. The code merges in `as_completed` order and never sorts by offset, so beyond the probe page coming first, no order of the merged items is claimed.
- **Time.** The wall clock is a parameter `now`, an instant in microseconds.

Classes whose fields the source updates (the three flows, `APIReference`, `Album`, `Artist`, `TokenEndpoint`) are Dafny classes. Their methods state their full new state. Every endpoint method is specified by a function of its inputs (`...Result`), and the lemmas beside it prove what the source promises about that function.

Where verification showed the source to be wrong (see "## Findings"), the model keeps both versions. A member models the code as written and a lemma exhibits the defect. The corrected member is what the rest of the model uses: the token exchange of every flow, the token check of every endpoint, `get_album`, `check_users_saved_albums` and `get_artist_albums`. "## Left out" names, member by member, the as-written behaviour this hides.

## Model

| member | source | states |
|---|---|---|
| Tokens.ValidIffNotPastExpiry | wspotify/authorization/schemas.py:14-18 | a token is valid exactly up to and including `created_at + expires_in`, and invalid one microsecond later |
| Tokens.InvalidStaysInvalid | wspotify/authorization/schemas.py:16 | once invalid, a token stays invalid at every later instant |
| Tokens.ValidAtCreation | wspotify/authorization/schemas.py:16-18 | a token with a non-negative lifetime is valid at its own creation instant |
| Tokens.FromGrant | wspotify/authorization/schemas.py:6-12 | decoding keeps every field of the reply; a missing `created_at` takes the class-definition instant |
| Tokens.FetchedTokenAlreadyExpired | wspotify/authorization/schemas.py:10 | as written: a token fetched more than `expires_in` seconds after the class was defined is invalid the moment it is built |
| Tokens.FromGrantAt | wspotify/authorization/schemas.py:10 | corrected: a token without `created_at` is created at the fetch instant, so it is valid then and exactly until `expires_in` seconds later |
| Tokens.Valid | wspotify/authorization/schemas.py:14-18 | `valid()`: the token is valid until `created_at + expires_in` has passed; ValidIffNotPastExpiry, InvalidStaysInvalid and ValidAtCreation state this |
| AuthUtils.AlphabetAt | wspotify/authorization/utils.py:12 | every character of the alphabet is an ASCII letter or digit |
| AuthUtils.AlphabetIsAlphanumeric | wspotify/authorization/utils.py:12 | a character is an ASCII letter or digit iff it occurs in the 62-character alphabet |
| AuthUtils.GenerateRandomString | wspotify/authorization/utils.py:11-15 | the result has exactly `length` characters, each an ASCII letter or digit, whatever the random draws |
| AuthUtils.FirstValue | wspotify/authorization/utils.py:26 | a query key yields its first value exactly when it is present with at least one value |
| AuthUtils.ParseCode | wspotify/authorization/utils.py:24-30 | succeeds iff a `code` value is present, returning the first; otherwise AuthorizationFailed carrying the first `error` value or None |
| AuthUtils.ParseState | wspotify/authorization/utils.py:33-38 | succeeds iff a `state` value is present, returning the first; otherwise StateNotFound |
| AuthUtils.ParseGrantedRedirect | wspotify/authorization/utils.py:24-38 | a redirect carrying a code (and optionally a state) parses back to that code and state |
| AuthUtils.ParseDeniedRedirect | wspotify/authorization/utils.py:27-29 | a redirect carrying only an error fails with AuthorizationFailed carrying that error |
| Exceptions.MissingScopes | wspotify/exceptions.py:6 | the missing list holds exactly the expected scopes not found, and is no longer than the expected list |
| Exceptions.MissingScopesAppend | wspotify/exceptions.py:6 | the filter keeps order: the missing scopes of a concatenation are the concatenated missing scopes |
| Exceptions.MissingScopesNoneFound | wspotify/exceptions.py:6 | with nothing found, every expected scope is missing, in order |
| Exceptions.MissingScopesEmptyIff | wspotify/exceptions.py:6 | the missing list is empty iff every expected scope was found |
| Exceptions.IncompleteScopesError | wspotify/exceptions.py:4-9 | the error carries the names of the missing scopes |
| Exceptions.ResponseErrorMessage | wspotify/exceptions.py:19-21 | the message is the fixed prefix (spelling "errror" kept) followed by the error text |
| TokenTransport.BasicCredentials | wspotify/authorization/authorization_code.py:133 | the credential string is the client ID, one ':' and the client secret: the part before that ':' is the ID and the part after it the secret |
| TokenTransport.TokenEndpoint.Post | wspotify/authorization/authorization_code.py:139 | posting appends the request to the log and returns the endpoint's reply to it |
| TokenTransport.Exchange | wspotify/authorization/authorization_code.py:139-144 | a non-200 reply is AccessTokenError with the body's `error`; a 200 reply without a token body is InvalidTokenBody; a 200 token reply yields a token with every field of the reply (access token, type, scope, lifetime, refresh token, and `created_at` when the reply carries one); a reply without `created_at` is decoded with the corrected default (FromGrantAt), so the token is valid at `now` when its lifetime is non-negative |
| FlowCommon.RefreshDecision | wspotify/authorization/authorization_code.py:162-173 | no stored and no explicit token: nothing to refresh; a stored valid token: no request, even with an explicit token; otherwise send the explicit token if given, else the stored token's refresh token |
| FlowCommon.ValidTokenNeverRefreshed | wspotify/authorization/authorization_code.py:162-165 | a stored token that is valid at some instant is left alone, with no request, at every earlier instant, even when an explicit refresh token is given |
| FlowCommon.OptionalAuthorizeParams | wspotify/authorization/authorization_code.py:76-79 | `state` is added iff it is truthy; `scope` is added iff the list is non-empty, as the values joined by single spaces |
| FlowCommon.ScopeParamRoundTrip | wspotify/authorization/authorization_code.py:78-79 | the `scope` parameter splits at spaces back into the scope values in list order |
| AuthorizationCodeFlow.AuthorizeHead | wspotify/authorization/authorization_code.py:70-75 | the fixed head has exactly `client_id`, `response_type=code`, `redirect_uri` and `show_dialog` |
| AuthorizationCodeFlow.AuthorizationCode.constructor | wspotify/authorization/authorization_code.py:39-54 | stores the arguments; no token yet, and the fixed token URL (wspotify/authorization/base.py:17-20) |
| AuthorizationCodeFlow.AuthorizationCode.GetAuthorizationUrl | wspotify/authorization/authorization_code.py:56-85 | no URL iff the browser is opened; otherwise the authorize URL with the head parameters, `state` iff set, `scope` iff any, and no other key |
| AuthorizationCodeFlow.AuthorizationCode.ParseRedirectUri | wspotify/authorization/authorization_code.py:106-113 | a missing code propagates AuthorizationFailed; InvalidState iff a state is present and differs from the flow's (also when the flow has none); a missing state is tolerated |
| AuthorizationCodeFlow.AuthorizationCode.AccessTokenRequest | wspotify/authorization/authorization_code.py:128-137 | the exchange posts `grant_type=authorization_code`, the code and the redirect URI, with Basic credentials |
| AuthorizationCodeFlow.AuthorizationCode.RefreshRequest | wspotify/authorization/authorization_code.py:166-178 | the refresh posts `grant_type=refresh_token` and the chosen refresh token, with Basic credentials |
| AuthorizationCodeFlow.AuthorizationCode.RefreshPlan | wspotify/authorization/authorization_code.py:162-178 | AccessTokenNotFound iff no stored and no explicit token; no request iff the stored token is valid; otherwise the refresh request for the token RefreshDecision picks |
| AuthorizationCodeFlow.AuthorizationCode.GetAccessToken | wspotify/authorization/authorization_code.py:115-144 | exactly one request is posted; on success the decoded token replaces the stored one, on failure the error is raised and the token is unchanged |
| AuthorizationCodeFlow.AuthorizationCode.RefreshAccessToken | wspotify/authorization/authorization_code.py:146-185 | nothing posted and nothing changed on AccessTokenNotFound or a valid token; otherwise one refresh request, after which the token is replaced on success and unchanged on failure |
| AuthorizationCodeFlow.AuthorizationCode.RedirectRoundTrip | wspotify/authorization/authorization_code.py:76-113 | a redirect echoing the URL's own state parses back to the granted code |
| AuthorizationCodeFlow.AuthorizationCode.ForgedStateRefused | wspotify/authorization/authorization_code.py:108-110 | a redirect whose state differs from the flow's is refused with InvalidState |
| PkceFlow.CodeChallenge | wspotify/authorization/authorization_code_pkce.py:62-73 | the challenge has no '=' and otherwise the same characters as the encoded digest (section 4.2 of RFC 7636); ChallengeIsUnpaddedDigest pins it down exactly |
| PkceFlow.ChallengeIsUnpaddedDigest | wspotify/authorization/authorization_code_pkce.py:70-73 | when the encoded digest is '='-free text followed by padding, the challenge is exactly that text, characters in order |
| PkceFlow.AuthorizeHead | wspotify/authorization/authorization_code_pkce.py:89-95 | the fixed head has exactly `client_id`, `response_type=code`, `redirect_uri`, `code_challenge_method=S256` and `code_challenge` |
| PkceFlow.AuthorizationCodePkce.constructor | wspotify/authorization/authorization_code_pkce.py:45-60 | the verifier is a 64-character random string and the challenge is derived from it, which establishes Consistent; no token yet |
| PkceFlow.AuthorizationCodePkce.GetAuthorizationUrl | wspotify/authorization/authorization_code_pkce.py:75-105 | no URL iff the browser is opened; otherwise the head parameters, `state`/`scope` as in the code flow, and no `show_dialog` |
| PkceFlow.AuthorizationCodePkce.ParseRedirectUri | wspotify/authorization/authorization_code_pkce.py:126-133 | same rule as the code flow: missing code propagates, mismatched state is InvalidState, missing state tolerated |
| PkceFlow.AuthorizationCodePkce.AccessTokenRequest | wspotify/authorization/authorization_code_pkce.py:148-155 | the exchange posts the code, redirect URI, `client_id` and `code_verifier`, with no Basic credentials (section 4.5 of RFC 7636) |
| PkceFlow.AuthorizationCodePkce.RefreshRequest | wspotify/authorization/authorization_code_pkce.py:184-193 | the refresh posts `grant_type=refresh_token`, the chosen refresh token and `client_id`, with no Basic credentials |
| PkceFlow.AuthorizationCodePkce.RefreshPlan | wspotify/authorization/authorization_code_pkce.py:180-193 | the same NotFound / still-valid / send decision as the code flow |
| PkceFlow.AuthorizationCodePkce.GetAccessToken | wspotify/authorization/authorization_code_pkce.py:135-162 | one request; token replaced on success, unchanged on failure |
| PkceFlow.AuthorizationCodePkce.RefreshAccessToken | wspotify/authorization/authorization_code_pkce.py:164-200 | nothing posted on NotFound or a valid token; otherwise one refresh, token replaced on success and unchanged on failure |
| PkceFlow.AuthorizationCodePkce.VerifierMatchesChallenge | wspotify/authorization/authorization_code_pkce.py:57-73 | on every constructed flow (Consistent), the verifier the exchange sends is the one the URL's challenge was derived from, and is 43 to 128 letters and digits (section 4.1 of RFC 7636) |
| PkceFlow.AuthorizationCodePkce.RedirectRoundTrip | wspotify/authorization/authorization_code_pkce.py:96-133 | a redirect echoing the URL's own state parses back to the granted code |
| ClientCredentialsFlow.ClientCredentials.constructor | wspotify/authorization/client_credentials.py:22-24 | stores the credentials; no token yet |
| ClientCredentialsFlow.ClientCredentials.AccessTokenRequest | wspotify/authorization/client_credentials.py:34-39 | the form is exactly `grant_type=client_credentials`, with Basic credentials |
| ClientCredentialsFlow.ClientCredentials.GetAccessToken | wspotify/authorization/client_credentials.py:26-46 | one request; token replaced on success, unchanged on AccessTokenError |
| ClientCredentialsFlow.ClientCredentials.RefreshAccessToken | wspotify/authorization/client_credentials.py:48-52 | always one fresh fetch, with no validity check and no refresh token |
| Base.Bearer | wspotify/base.py:13 | the header is "Bearer " followed by the token |
| Base.FlowRef.RefreshPlan | wspotify/base.py:22 | client credentials always request a new token; the code flows send a refresh for an expired stored token and nothing for a valid one |
| Base.Refresh | wspotify/base.py:22 | dispatches to the flow's own refresh, with that flow's request log and token outcome |
| Base.SetToken | wspotify/base.py:22 | the flow's stored token becomes the given value |
| Base.APIReference.constructor | wspotify/base.py:9-14 | holds the flow and base URL; the header carries the current token |
| Base.APIReference.Create | wspotify/base.py:9-14 | construction fails with AttributeError exactly when the flow has no token yet |
| Base.APIReference.CheckAccessTokenOutcome | wspotify/base.py:16-25 | as written: passes iff the token exists and is valid; a missing token is the bare-`raise` error |
| Base.APIReference.CheckAccessToken | wspotify/base.py:16-25 | as written: no token fails before any request; a valid token changes nothing; an expired one is refreshed once, then either the refresh error is raised or the token becomes None and AttributeError is raised |
| Base.APIReference.EnsureValidOutcome | wspotify/base.py:16-25 | corrected: a missing token is AccessTokenNotFound and a usable token passes |
| Base.APIReference.CheckAccessTokenDefect | wspotify/base.py:19-25 | the two checks agree on usable tokens and refresh errors; they differ on a missing token and on an expired token whose refresh succeeds |
| Base.APIReference.EnsureValidToken | wspotify/base.py:16-25 | corrected: the outcome is EnsureValidOutcome; a missing or usable token sends nothing and changes nothing; an expired token sends exactly its refresh request, and a successful refresh stores the new token and rebuilds the header from it while a failed one changes neither; a pass always leaves a token |
| Base.APIReference.TokenChecked | wspotify/base.py:16-25 | corrected: the new state after the token check: a missing or valid token leaves token, header and request log unchanged; an expired one adds exactly its refresh request, and a successful exchange stores the new token and the header built from it, a failed one keeps both |
| Base.APIReference.ScopeCheck | wspotify/base.py:27-34 | a flow without scopes fails with InvalidAuthorizationFlow; otherwise passes iff every required scope is granted, else IncompleteScopes naming the missing ones |
| Base.APIReference.CheckScopes | wspotify/base.py:27-34 | the loop ends with ScopeCheck's outcome, changes nothing, and raises only with a non-empty missing list |
| Http.Lookup | wspotify/album.py:261-266 | a key looks something up iff it is one of the list's keys |
| Http.SetParam | wspotify/album.py:282 | assigning a key sets its value, leaves every other key as it was, and adds the key if new |
| Http.SetParamTwice | wspotify/album.py:282 | a second assignment to the same key overrides the first |
| Http.ErrorDetail | wspotify/album.py:272 | the body's `error` field, or "unknown" |
| Http.Fetch | wspotify/artist.py:48-54 | a single call succeeds iff its status is 200, returning its body; otherwise ResponseError with the error detail |
| Http.OptionalParam | wspotify/album.py:265-266 | the parameter is present iff the value is truthy, and holds it |
| FanIn.PermutationFacts | wspotify/album.py:288 | a completion order lists every submitted future exactly once |
| FanIn.FirstFailure | wspotify/album.py:150-155 | the error of the first non-200 reply in completion order, or none; FirstFailureIff and FirstFailureIsEarliest state this |
| FanIn.AwaitAll | wspotify/album.py:330-335 | the awaited batches pass iff every reply is 200; otherwise the first failure in completion order is raised |
| FanIn.Gather | wspotify/album.py:149-160 | the gather loop ends with Gathered's result |
| FanIn.Gathered | wspotify/album.py:149-160 | the all-or-nothing merge of a list-valued fan-out, pages in completion order; GatheredContents, GatheredSingle and GatheredEmpty state its contents |
| FanIn.FirstFailureIff | wspotify/album.py:150-155 | no failure is met iff every reply is 200 |
| FanIn.FirstFailureIsEarliest | wspotify/album.py:150-155 | the raised error is that of the first non-200 reply in completion order |
| FanIn.GatheredContents | wspotify/album.py:149-160 | on success the result holds every reply's items, each with its multiplicity, and no others |
| FanIn.GatheredSingle | wspotify/artist.py:89-100 | with one batch the result is that reply's items in their own order, or its error |
| FanIn.GatheredEmpty | wspotify/artist.py:83-100 | no batches give an empty result |
| Pagination.PageRangeShape | wspotify/album.py:42 | `range(start, stop, 50)` has ceil((stop-start)/50) elements, the i-th being start + 50i |
| Pagination.PageRangeMembers | wspotify/album.py:42 | x is in the range iff start <= x < stop and x - start is a multiple of 50 |
| Pagination.ProbeLimit | wspotify/album.py:202-205 | the probe limit is 50 for None and min(limit, 50) otherwise, so never above 50 |
| Pagination.ProbeParams | wspotify/album.py:261-264 | the probe parameters are exactly `limit` (the probe limit) and `offset` |
| Pagination.ProbeParamsThen | wspotify/album.py:261-267 | further parameters after the probe head keep `limit` and `offset` from the head and every other key from themselves |
| Pagination.FollowUpOffsetsExact | wspotify/album.py:42 | follow-up offsets are exactly 50, 100, … strictly below the bound: none when bound <= 50, else ceil((bound-50)/50) |
| Pagination.AtOffset | wspotify/album.py:43 | a follow-up request is the base request with only `offset` replaced |
| Pagination.FollowUps | wspotify/album.py:25-58 | the follow-up pages at offsets 50, 100, … below the bound, merged all-or-nothing in completion order; PagedWithFollowUps states the contents |
| Pagination.SubmitOffsets | wspotify/album.py:41-45 | the submit loop issues exactly the follow-up requests, one per offset, in offset order |
| Pagination.FetchFollowUps | wspotify/album.py:25-58 | the follow-up fan-out ends with FollowUps' result |
| Pagination.FollowUpBound | wspotify/artist.py:161 | the bound is the caller's numeric limit for artist albums, and the total otherwise |
| Pagination.Paged | wspotify/album.py:210-223 | the probe, then the follow-ups iff the limit asks for more than one page; PagedProbeFailure, PagedProbeOnly and PagedWithFollowUps state the three cases |
| Pagination.FetchPaged | wspotify/album.py:210-223 | the probe-and-follow-ups sequence ends with Paged's result |
| Pagination.PagedProbeFailure | wspotify/album.py:212-214 | a failed probe fails the call with its error detail |
| Pagination.PagedProbeOnly | wspotify/album.py:216-223 | without follow-ups the result is exactly the probe's items |
| Pagination.PagedWithFollowUps | wspotify/album.py:216-223 | with follow-ups the call succeeds iff every follow-up is 200; the probe's items come first, and the rest are all follow-up items with the summed length |
| Batching.Chunks | wspotify/album.py:143-144 | chunks are non-empty, at most `size` long, all but the last exactly `size`; none iff the list is empty |
| Batching.ChunksConcat | wspotify/album.py:143-144 | the chunks concatenate back to the ID list |
| Batching.ChunkAt | wspotify/album.py:144 | chunk k is the slice `ids[k*size : k*size+size]` |
| Batching.ChunksDisjoint | wspotify/album.py:406-407 | for distinct IDs each chunk is distinct and no ID is in two chunks |
| Batching.ChunkRequest | wspotify/album.py:144-145 | a query batch carries the comma-joined chunk in `ids` and the shape's other parameters; a body batch carries the chunk as JSON |
| Batching.IdsParamRoundTrip | wspotify/album.py:144 | the joined `ids` parameter splits back into exactly the chunk, when no ID holds a comma |
| Batching.SubmitChunks | wspotify/album.py:142-147 | the submit loop issues exactly one request per chunk, in chunk order |
| Batching.ZipInto | wspotify/album.py:420-421 | zipping adds exactly the first min(keys, flags) keys to the map's keys, as `zip` stops at the shorter list |
| Batching.ZipIntoDistinct | wspotify/album.py:420-421 | with distinct keys and as many flags, each key maps to its own flag and every other entry is kept |
| Batching.ZipAllFailure | wspotify/album.py:413-418 | the merge fails iff some reply is not 200, with the first such error in completion order |
| Batching.ZipAll | wspotify/album.py:412-421 | the nested merge loop as a function of the replies, the completion order and the keys paired with each reply; ZipAllFailure and ZipAllPerChunk state its outcome |
| Batching.MergeZipped | wspotify/album.py:412-421 | the nested merge loop ends with ZipAll's result |
| Batching.ZipAllPerChunk | wspotify/album.py:420-421 | with disjoint chunks and one flag per ID, every chunk ID maps to its own reply's flag and other keys are untouched |
| AlbumApi.AlbumUrl | wspotify/album.py:85-87 | as written: the album path, followed by `&market=` and the market iff it is truthy |
| AlbumApi.AlbumRequest | wspotify/album.py:85-89 | as written: a GET of the AlbumUrl path with no query parameters; AlbumMarketGluedToPath states the defect |
| AlbumApi.AlbumMarketGluedToPath | wspotify/album.py:85-87 | as written: with a market, the album request's path is not the album's and carries no market parameter |
| AlbumApi.AlbumRequestIntended | wspotify/album.py:85-89 | corrected: the album path with the market as a parameter iff it is truthy |
| AlbumApi.Album.constructor | wspotify/base.py:9-14 | the endpoints act on the given APIReference |
| AlbumApi.AllTracksBase | wspotify/album.py:40 | the track follow-ups start from exactly `limit=50` |
| AlbumApi.AllTracksRequests | wspotify/album.py:40-45 | every track follow-up goes to the given URL with exactly `limit=50` and offset 50(i+1) |
| AlbumApi.AllTracks | wspotify/album.py:25-58 | `_get_all_tracks`: FollowUps from `limit=50` on the given URL up to the total; AllTracksRequests states the requests |
| AlbumApi.Album.GetAllTracks | wspotify/album.py:25-58 | the follow-up pages after the first 50 tracks, as FollowUps merges them |
| AlbumApi.GetAlbumResult | wspotify/album.py:60-104 | as written: a non-200 album reply (at the `&market=` path) is ResponseError; a track list instead of a page is AttributeError; with more than 50 tracks the rest is AllTracks paged from that same album URL, and its failure fails the call; with at most 50 the page's tracks are kept; only the tracks change |
| AlbumApi.GetAlbumFollowUpsMissTracksPath | wspotify/album.py:100 | as written: every track follow-up goes to the album URL, never to the album's tracks URL |
| AlbumApi.GetAlbumIntended | wspotify/album.py:60-104 | corrected: the same error cases; the tracks become the page's tracks followed by the follow-ups fetched from the tracks URL, or the page's tracks alone for at most 50 |
| AlbumApi.GetAlbumIntendedComplete | tests/test_album.py:4-10 | with full pages the album ends up with exactly `total_tracks` tracks, all follow-ups going to the tracks URL |
| AlbumApi.Album.FetchAlbum | wspotify/album.py:85-104 | the part of `get_album` after the token check ends with the corrected GetAlbumIntended |
| AlbumApi.Album.GetAlbum | wspotify/album.py:60-104 | behind the corrected token check, ends with the corrected GetAlbumIntended. Its new state is the one the corrected token check leaves (TokenChecked): nothing sent and nothing changed for a usable token; for an expired one, exactly the refresh request sent, and on success the new token stored and the header rebuilt from it. |
| AlbumApi.SeveralAlbumsRequests | wspotify/album.py:134-147 | the batches cover the IDs exactly, 1 to 20 per request, with the market iff truthy |
| AlbumApi.SeveralAlbumsResult | wspotify/album.py:134-160 | `get_albums` after the token check: one request per 20 IDs, merged all-or-nothing; SeveralAlbumsRequests and SeveralAlbumsContents state its requests and contents |
| AlbumApi.SeveralAlbumsContents | wspotify/album.py:149-160 | `get_albums` succeeds iff every batch does, and returns every batch's albums |
| AlbumApi.SeveralAlbumsOneBatch | tests/test_album.py:13-21 | up to 20 IDs are one request whose albums keep the reply's order |
| AlbumApi.Album.GetAlbums | wspotify/album.py:106-160 | behind the corrected token check, ends with SeveralAlbumsResult. Its new state is the one the corrected token check leaves (TokenChecked): nothing sent and nothing changed for a usable token; for an expired one, exactly the refresh request sent, and on success the new token stored and the header rebuilt from it. |
| AlbumApi.TracksProbe | wspotify/album.py:202-208 | the tracks probe has the probe limit, the caller's offset and the market iff truthy, and nothing else |
| AlbumApi.AlbumTracksResult | wspotify/album.py:199-223 | `get_album_tracks` after the token check: the probe, then the follow-ups from the tracks URL up to the total; AlbumTracksPagesToTotal and AlbumOf199Tracks state them |
| AlbumApi.AlbumTracksPagesToTotal | wspotify/album.py:219-220 | a numeric limit above 50 still pages up to the total, from offset 50 whatever the caller's offset, with no market |
| AlbumApi.AlbumOf199Tracks | tests/test_album.py:24-29 | 199 tracks fetched with `limit=None` come back as 199 tracks starting with the probe's first |
| AlbumApi.Album.GetAlbumTracks | wspotify/album.py:162-223 | behind the corrected token check, ends with AlbumTracksResult. Its new state is the one the corrected token check leaves (TokenChecked): nothing sent and nothing changed for a usable token; for an expired one, exactly the refresh request sent, and on success the new token stored and the header rebuilt from it. |
| AlbumApi.SavedAlbumsProbe | wspotify/album.py:261-267 | the saved-albums query has the probe limit, the offset and the market iff truthy |
| AlbumApi.SavedAlbumsFollowUps | wspotify/album.py:278-285 | saved-albums follow-ups reuse the probe's query with `limit` 50, their own offsets and the same market |
| AlbumApi.SavedAlbumsResult | wspotify/album.py:261-298 | `get_users_saved_albums` after the checks: the probe, then follow-ups that reuse its query; SavedAlbumsFollowUps states them |
| AlbumApi.Album.GetUsersSavedAlbums | wspotify/album.py:225-298 | a missing `user-library-read` scope fails with token, header and request log unchanged; otherwise ends with SavedAlbumsResult behind the corrected token check, leaving the state TokenChecked describes |
| AlbumApi.LibraryChangeContents | wspotify/album.py:322-335 | a library change succeeds iff every batch is 200; the batches carry the IDs as JSON, 1 to 20 each, concatenating to the list |
| AlbumApi.LibraryChangeResult | wspotify/album.py:322-335 | a library change: one request per 20 IDs, the first failure to complete raised; LibraryChangeContents states it |
| AlbumApi.Album.ChangeLibrary | wspotify/album.py:322-335 | the submit-and-await part of saving or removing ends with LibraryChangeResult |
| AlbumApi.Album.SaveAlbumsForUser | wspotify/album.py:300-335 | a missing `user-library-modify` scope fails with token, header and request log unchanged; otherwise the corrected token check, leaving the state TokenChecked describes, then LibraryChangeResult with PUT |
| AlbumApi.Album.RemoveUsersSavedAlbums | wspotify/album.py:337-372 | the same as saving, with DELETE: scope failure changes nothing, otherwise the TokenChecked state and LibraryChangeResult |
| AlbumApi.SavedFlagsAsWritten | wspotify/album.py:412-421 | as written: every reply's flags zipped with the full ID list; AsWrittenKeysFromFirstChunk and AsWrittenDropsLaterIds state the defect |
| AlbumApi.SavedFlags | wspotify/album.py:412-421 | corrected: every reply's flags zipped with its own chunk of IDs; SavedFlagsCorrect states the result |
| AlbumApi.AsWrittenKeysFromFirstChunk | wspotify/album.py:420-421 | as written: the merged keys all come from the first 20 IDs |
| AlbumApi.AsWrittenDropsLaterIds | wspotify/album.py:420-421 | as written: for more than 20 distinct IDs all answered, the 21st ID is missing from the result |
| AlbumApi.AsWrittenLastBatchOverwrites | wspotify/album.py:412-421 | as written: for 21 IDs answered by batches of 20 and 1 flags, the second completing last, the first ID gets the flag the second batch returned |
| AlbumApi.AsWrittenAgreesOnOneBatch | wspotify/album.py:402-423 | for at most 20 IDs the written and the corrected merge agree |
| AlbumApi.SavedFlagsCorrect | wspotify/album.py:402-423 | corrected: the keys are exactly the IDs, each mapped to its own batch's flag |
| AlbumApi.CheckSavedResult | wspotify/album.py:402-423 | corrected: `check_users_saved_albums` after the checks: one query per 20 IDs, merged by the corrected SavedFlags |
| AlbumApi.Album.FetchSavedFlags | wspotify/album.py:402-423 | corrected: the submit-and-merge part of `check_users_saved_albums` ends with CheckSavedResult |
| AlbumApi.Album.CheckUsersSavedAlbums | wspotify/album.py:374-423 | scope failure changes nothing; otherwise the corrected token check, leaving the TokenChecked state, then the corrected per-chunk merge CheckSavedResult |
| AlbumApi.NewReleasesProbe | wspotify/album.py:452-456 | the new-releases query is exactly the probe limit and offset |
| AlbumApi.NewReleasesResult | wspotify/album.py:452-487 | `get_new_releases` after the token check: the probe, then follow-ups that reuse its query up to the total |
| AlbumApi.Album.GetNewReleases | wspotify/album.py:425-487 | behind the corrected token check, ends with NewReleasesResult. Its new state is the one the corrected token check leaves (TokenChecked): nothing sent and nothing changed for a usable token; for an expired one, exactly the refresh request sent, and on success the new token stored and the header rebuilt from it. |
| ArtistApi.Group.Value | wspotify/artist.py:13-17 | the four group values, none holding a comma |
| ArtistApi.GroupValues | wspotify/artist.py:146 | one value per group, in the given order |
| ArtistApi.IncludeGroupsAsWritten | wspotify/artist.py:145-146 | as written: absent for no groups; otherwise every group's value, whatever was selected |
| ArtistApi.IncludeGroupsIgnoresSelection | wspotify/artist.py:145-146 | as written: any selection sends all four groups; selecting singles differs from the intended parameter |
| ArtistApi.IncludeGroupsParam | wspotify/artist.py:145-146 | corrected: the selected groups' values, comma-joined, present iff any were selected |
| ArtistApi.IncludeGroupsRoundTrip | wspotify/artist.py:145-146 | corrected: the parameter splits back into exactly the selected groups' values |
| ArtistApi.Artist.constructor | wspotify/base.py:9-14 | the endpoints act on the given APIReference |
| ArtistApi.Artist.GetArtist | wspotify/artist.py:24-54 | behind the corrected token check, one fetch with the single-call error rule. Its new state is the one the corrected token check leaves (TokenChecked): nothing sent and nothing changed for a usable token; for an expired one, exactly the refresh request sent, and on success the new token stored and the header rebuilt from it. |
| ArtistApi.SeveralArtistsRequests | wspotify/artist.py:83-87 | the batches cover the IDs exactly, 1 to 100 per request, each with only `ids` |
| ArtistApi.SeveralArtistsContents | wspotify/artist.py:89-100 | `get_artists` succeeds iff every batch does, and returns every batch's artists |
| ArtistApi.SeveralArtistsResult | wspotify/artist.py:80-100 | `get_artists` after the token check: one request per 100 IDs, merged all-or-nothing; SeveralArtistsRequests, SeveralArtistsContents and OneBatchKeepsOrder state it |
| ArtistApi.OneBatchKeepsOrder | tests/test_artist.py:11-18 | up to 100 IDs are one request whose artists keep the reply's order |
| ArtistApi.Artist.GetArtists | wspotify/artist.py:56-100 | behind the corrected token check, ends with SeveralArtistsResult. Its new state is the one the corrected token check leaves (TokenChecked): nothing sent and nothing changed for a usable token; for an expired one, exactly the refresh request sent, and on success the new token stored and the header rebuilt from it. |
| ArtistApi.AlbumFilters | wspotify/artist.py:145-148 | corrected: the filters hold `include_groups` as IncludeGroupsParam builds it from the selected groups (not every `Group` value, as artist.py:146 sends) and `market` iff truthy, and no other key |
| ArtistApi.ArtistAlbumsProbe | wspotify/artist.py:141-151 | the probe has the probe limit, the offset, the corrected `include_groups` (the selected groups, present iff any were selected), and the market iff truthy |
| ArtistApi.ArtistAlbumsFollowUps | wspotify/artist.py:160-169 | follow-ups keep the probe's filters, `limit` 50 and offsets 50, 100, … below the numeric limit, or below the total for None |
| ArtistApi.ArtistAlbumsWholePages | wspotify/artist.py:160-181 | `limit=120` with full pages returns 150 albums: the limit is rounded up to whole pages |
| ArtistApi.ArtistAlbumsResult | wspotify/artist.py:141-181 | corrected: `get_artist_albums` after the token check: the corrected ArtistAlbumsProbe, then follow-ups bounded by the numeric limit (or the total for None); ArtistAlbumsFollowUps and ArtistAlbumsWholePages state them |
| ArtistApi.Artist.GetArtistAlbums | wspotify/artist.py:102-181 | behind the corrected token check, ends with ArtistAlbumsResult, whose probe carries the corrected `include_groups`. Its new state is the one the corrected token check leaves (TokenChecked): nothing sent and nothing changed for a usable token; for an expired one, exactly the refresh request sent, and on success the new token stored and the header rebuilt from it. |
| ArtistApi.TopTracksUrl | wspotify/artist.py:211-213 | `?market=` is appended iff the market is truthy |
| ArtistApi.Artist.GetArtistTopTracks | wspotify/artist.py:183-225 | behind the corrected token check, one fetch of the top-tracks URL. Its new state is the one the corrected token check leaves (TokenChecked): nothing sent and nothing changed for a usable token; for an expired one, exactly the refresh request sent, and on success the new token stored and the header rebuilt from it. |
| ArtistApi.Artist.GetArtistRelatedArtists | wspotify/artist.py:227-262 | behind the corrected token check, one fetch of the related-artists URL. Its new state is the one the corrected token check leaves (TokenChecked): nothing sent and nothing changed for a usable token; for an expired one, exactly the refresh request sent, and on success the new token stored and the header rebuilt from it. |
| Text.SplitJoin | wspotify/artist.py:84 | joining IDs with a separator none of them holds and splitting again gives the IDs back |
| Text.Remove | wspotify/authorization/authorization_code_pkce.py:72 | `replace("=", "")` leaves no '=' and keeps every other character as often as it occurred; RemoveConcat keeps their order |
| Text.RemoveConcat | wspotify/authorization/authorization_code_pkce.py:72 | removal works piece by piece: removing from a concatenation concatenates the removals, so kept characters stay in order |
| Text.RemoveAll | wspotify/authorization/authorization_code_pkce.py:72 | a run of the removed character disappears entirely |
| Text.RemovePadding | wspotify/authorization/authorization_code_pkce.py:72 | removing the pad character from pad-free text followed by padding gives the text back exactly |

## Left out

- The HTTP transport (`httpx`), the thread pool and `as_completed` are not modelled. Requests go to a function from request to decoded reply, and the completion order is a parameter. Every `as_completed` loop runs after its `with ThreadPoolExecutor()` block has closed, so every submitted request completes before any reply is merged; the model likewise takes every reply before merging.
- JSON and pydantic decoding are not modelled: replies arrive decoded, with the pydantic defaults (None for an absent `scope` or `refresh_token`) already applied. Field validation is modelled only for token replies (InvalidTokenBody). The record types of wspotify/schemas.py keep only the fields the endpoints read.
- `urlencode`, `urlparse`/`parse_qs` and URL rendering are not modelled. A URL is a base plus an ordered parameter list, and a redirect is a map from key to values. Query text that the source glues by hand (`&market=`, `?market=`) stays part of the path string.
- SHA-256 and base64url are a parameter of the PKCE constructor. `secrets.choice` is a parameter `draw`. The Basic header keeps the `client_id:client_secret` string and leaves its encoding out.
- Opening the browser in `get_authorization_url` is not modelled. Only "no URL is returned" is.
- `datetime.now()` is a parameter `now`.
- The `Authorization` header is state of `APIReference`; it is not attached to each modelled request.
- `Album` and `Artist` subclass `APIReference` in the source. Here they hold one. `__init__` failing on a flow without a token is `APIReference.Create`.
- wspotify/authorization/scopes.py is not part of this model. A scope is its name and value.
- Base.APIReference.ScopeCheck: `InvalidAuthorizationFlow.__init__` calls `super.__init__` unbound (wspotify/exceptions.py:14). Python therefore raises TypeError while building that error, and the model reports InvalidAuthorizationFlow instead.
- Base.APIReference.CheckAccessTokenOutcome: states the outcome of a refresh only through CheckAccessToken's postcondition, not in its own contract.
- Base.APIReference.EnsureValidOutcome: the outcome for an expired token (pass iff the refresh succeeds) is stated by EnsureValidToken's postcondition, not by the function's own contract.
- Order of merged pages and batches: the code merges them in `as_completed` order and never sorts by offset or ID, so PagedWithFollowUps, GatheredContents and the `...Contents` lemmas state contents and length, and beyond the probe page coming first, no order.
- TokenTransport.Exchange: a reply without `created_at` is decoded with the corrected default FromGrantAt (created at the fetch instant), not with the class-definition default of wspotify/authorization/schemas.py:10 that FromGrant models. The stored token is therefore valid where the source's token may already be expired. Every flow's GetAccessToken and RefreshAccessToken, Base.Refresh and both token checks inherit this.
- AlbumApi.Album.GetAlbum: runs the corrected EnsureValidToken instead of CheckAccessToken, so an expired token whose refresh succeeds lets the call proceed where the source raises AttributeError. It also fetches the corrected GetAlbumIntended: the market as a parameter and the follow-ups from the tracks URL, where the source glues `&market=` onto the path and pages from the album URL (GetAlbumResult).
- AlbumApi.Album.FetchAlbum: ends with the corrected GetAlbumIntended (market as a parameter, follow-ups from the tracks URL), not the `&market=` path and album-URL paging of wspotify/album.py:85-101 (GetAlbumResult).
- AlbumApi.Album.GetAlbums: runs the corrected EnsureValidToken instead of CheckAccessToken; the as-written AttributeError after a successful refresh is not reproduced.
- AlbumApi.Album.GetAlbumTracks: runs the corrected EnsureValidToken instead of CheckAccessToken; the as-written AttributeError after a successful refresh is not reproduced.
- AlbumApi.Album.GetUsersSavedAlbums: runs the corrected EnsureValidToken instead of CheckAccessToken; the as-written AttributeError after a successful refresh is not reproduced.
- AlbumApi.Album.SaveAlbumsForUser: runs the corrected EnsureValidToken instead of CheckAccessToken; the as-written AttributeError after a successful refresh is not reproduced.
- AlbumApi.Album.RemoveUsersSavedAlbums: runs the corrected EnsureValidToken instead of CheckAccessToken; the as-written AttributeError after a successful refresh is not reproduced.
- AlbumApi.Album.CheckUsersSavedAlbums: runs the corrected EnsureValidToken instead of CheckAccessToken, and merges each reply with its own chunk (SavedFlags) where wspotify/album.py:420-421 zips every reply with the full ID list (SavedFlagsAsWritten), which drops IDs after the first 20 and misassigns flags.
- AlbumApi.CheckSavedResult: merges with the corrected per-chunk SavedFlags, not the full-list zip of wspotify/album.py:420-421 (SavedFlagsAsWritten).
- AlbumApi.Album.FetchSavedFlags: ends with the corrected CheckSavedResult, so it does not reproduce the full-list zip of wspotify/album.py:420-421.
- AlbumApi.Album.GetNewReleases: runs the corrected EnsureValidToken instead of CheckAccessToken; the as-written AttributeError after a successful refresh is not reproduced.
- ArtistApi.Artist.GetArtist: runs the corrected EnsureValidToken instead of CheckAccessToken; the as-written AttributeError after a successful refresh is not reproduced.
- ArtistApi.Artist.GetArtists: runs the corrected EnsureValidToken instead of CheckAccessToken; the as-written AttributeError after a successful refresh is not reproduced.
- ArtistApi.AlbumFilters: builds `include_groups` with the corrected IncludeGroupsParam (the selected groups); wspotify/artist.py:146 sends every `Group` value for any non-empty selection (IncludeGroupsAsWritten).
- ArtistApi.ArtistAlbumsProbe: carries the corrected `include_groups` of AlbumFilters, not the every-group value the source sends.
- ArtistApi.Artist.GetArtistAlbums: runs the corrected EnsureValidToken instead of CheckAccessToken, and its requests carry the corrected `include_groups` of ArtistAlbumsProbe instead of every `Group` value.
- ArtistApi.ArtistAlbumsResult: pages from the corrected ArtistAlbumsProbe, so a selection sends the selected groups, not every `Group` value as wspotify/artist.py:146 does.
- ArtistApi.Artist.GetArtistTopTracks: runs the corrected EnsureValidToken instead of CheckAccessToken; the as-written AttributeError after a successful refresh is not reproduced.
- ArtistApi.Artist.GetArtistRelatedArtists: runs the corrected EnsureValidToken instead of CheckAccessToken; the as-written AttributeError after a successful refresh is not reproduced.

## Findings

| source | as written | input that shows it | evidently intended | confidence | as-written member | corrected member |
|---|---|---|---|---|---|---|
| wspotify/base.py:19-25 | a missing token hits a bare `raise`; an expired token is refreshed, but the refresh returns None, which overwrites the token, and rebuilding the header raises AttributeError | any flow whose stored token has expired and whose refresh succeeds | raise AccessTokenNotFound for a missing token; refresh in place and rebuild the header from the new token | not executed | Base.APIReference.CheckAccessToken | Base.APIReference.EnsureValidToken |
| wspotify/authorization/schemas.py:10 | `created_at` defaults to `datetime.now()` evaluated once, when the class is defined | a token fetched more than `expires_in` seconds after the module was imported | `created_at` defaults to the moment the token is built | not executed | Tokens.FetchedTokenAlreadyExpired | Tokens.FromGrantAt |
| wspotify/album.py:420-421 | each reply's flags are zipped with the full ID list, not with that reply's 20-ID chunk | 21 distinct IDs, both batches answered: the 21st ID never appears, and when the second batch completes last the first ID gets its flag | zip each reply with its own chunk | not executed | AlbumApi.AsWrittenDropsLaterIds | AlbumApi.SavedFlagsCorrect |
| wspotify/album.py:85-87 | a truthy market is appended as `&market=...` directly onto the album path | `get_album(id, market="US")` requests the path `/albums/{id}&market=US` | `market` as a query parameter of `/albums/{id}` | not executed | AlbumApi.AlbumMarketGluedToPath | AlbumApi.AlbumRequestIntended |
| wspotify/album.py:100 | the remaining tracks are paged from the album URL | an album of 51 or more tracks: the follow-ups request `/albums/{id}?limit=50&offset=50` | page from `/albums/{id}/tracks` | not executed | AlbumApi.GetAlbumFollowUpsMissTracksPath | AlbumApi.GetAlbumIntendedComplete |
| wspotify/artist.py:145-146 | a non-empty `include_groups` sends the values of every `Group` member | `include_groups=[Group.SINGLE]` sends `album,single,appears_on,compilation` | send the selected groups' values | not executed | ArtistApi.IncludeGroupsIgnoresSelection | ArtistApi.IncludeGroupsRoundTrip |

=== FILE: album.dfy ===
/** wspotify/album.py: the album endpoints. */
module AlbumApi {
  import opened Wrappers
  import opened Exceptions
  import opened Scopes
  import opened Tokens
  import opened Text
  import opened Http
  import opened FanIn
  import opened Pagination
  import opened Batching
  import opened Schemas
  import opened TokenTransport
  import opened Base

  function AlbumPath(id: string): string {
    BaseUrl + "/albums/" + id
  }

  function TracksPath(id: string): string {
    AlbumPath(id) + "/tracks"
  }

  /** `get_album`'s URL: a truthy market is appended as `&market=...`, straight onto the path. */
  function AlbumUrl(id: string, market: Option<string>): (u: string)
    ensures |u| >= |AlbumPath(id)| && u[..|AlbumPath(id)|] == AlbumPath(id)
    ensures Present(market) ==> u[|AlbumPath(id)|..] == "&market=" + market.value
    ensures !Present(market) ==> u == AlbumPath(id)
  {
    if Present(market) then AlbumPath(id) + "&market=" + market.value else AlbumPath(id)
  }

  /** `get_album`'s request as written: the market travels inside the path, not as a query parameter. */
  function AlbumRequest(id: string, market: Option<string>): Request {
    Request(Get, AlbumUrl(id, market), [], None)
  }

  /**
   * The defect of the written URL: with a market, the request goes to a path that is not the
   * album's (the album ID is followed by `&market=...`) and carries no `market` parameter.
   */
  lemma AlbumMarketGluedToPath(id: string, market: Option<string>)
    requires Present(market)
    ensures AlbumRequest(id, market).path != AlbumPath(id)
    ensures Lookup(AlbumRequest(id, market).params, "market").None?
  {
    assert |AlbumUrl(id, market)| > |AlbumPath(id)|;
  }

  /** The evidently intended request: the album's path with the market as a query parameter. */
  function AlbumRequestIntended(id: string, market: Option<string>): (req: Request)
    ensures req.verb == Get && req.path == AlbumPath(id) && req.jsonIds.None?
    ensures Lookup(req.params, "market").Some? <==> Present(market)
    ensures Present(market) ==> Lookup(req.params, "market") == Some(Str(market.value))
    ensures Keys(req.params) <= {"market"}
  {
    Request(Get, AlbumPath(id), OptionalParam("market", market), None)
  }

  /** The parameters `_get_all_tracks(url, total)` starts from: `{"limit": 50}`. */
  function AllTracksBase(url: string): (req: Request)
    ensures req.verb == Get && req.path == url && req.jsonIds.None?
    ensures Keys(req.params) == {"limit"} && Lookup(req.params, "limit") == Some(Int(PageLimit))
  {
    Request(Get, url, [("limit", Int(PageLimit))], None)
  }

  /**
   * Every request `_get_all_tracks(url, total)` submits goes to `url` with exactly `limit=50` and
   * its own offset, the i-th being 50 * (i + 1): a market in the caller's query is not carried over.
   */
  lemma AllTracksRequests(url: string, total: int)
    ensures var reqs := OffsetRequests(AllTracksBase(url), FollowUpOffsets(total));
      forall i :: 0 <= i < |reqs| ==>
        && reqs[i].path == url
        && Keys(reqs[i].params) == {"limit", "offset"}
        && Lookup(reqs[i].params, "limit") == Some(Int(PageLimit))
        && Lookup(reqs[i].params, "offset") == Some(Int(PageLimit * (i + 1)))
  {
    FollowUpOffsetsExact(total);
    var reqs := OffsetRequests(AllTracksBase(url), FollowUpOffsets(total));
    forall i | 0 <= i < |reqs| ensures Keys(reqs[i].params) == {"limit", "offset"} {
      assert reqs[i].params == SetParam(AllTracksBase(url).params, "offset", Int(FollowUpOffsets(total)[i]));
    }
  }

  /** `_get_all_tracks(url, total)`: the follow-up pages after the first 50 items. */
  function AllTracks(get: Request -> Response<Page<SimplifiedTrack>>, complete: nat -> seq<nat>, url: string, total: int)
    : Result<seq<SimplifiedTrack>, Error>
    requires CompletionOrders(complete)
  {
    FollowUps(get, complete, AllTracksBase(url), total)
  }

  /** The first request of `get_album_tracks`: the probe limit, the caller's offset, and a truthy market. */
  function TracksProbe(id: string, market: Option<string>, limit: Option<int>, offset: int): (req: Request)
    ensures req.verb == Get && req.path == TracksPath(id) && req.jsonIds.None?
    ensures Lookup(req.params, "limit") == Some(Int(ProbeLimit(limit))) && Lookup(req.params, "offset") == Some(Int(offset))
    ensures Lookup(req.params, "market").Some? <==> Present(market)
    ensures Present(market) ==> Lookup(req.params, "market") == Some(Str(market.value))
    ensures Keys(req.params) <= {"limit", "offset", "market"}
  {
    ProbeParamsThen(limit, offset, OptionalParam("market", market));
    Request(Get, TracksPath(id), ProbeParams(limit, offset) + OptionalParam("market", market), None)
  }

  /** `get_album_tracks`: the probe page, then, for `limit=None` or above 50, `_get_all_tracks` on the tracks URL. */
  function AlbumTracksResult(get: Request -> Response<Page<SimplifiedTrack>>, complete: nat -> seq<nat>, id: string,
                             market: Option<string>, limit: Option<int>, offset: int): Result<seq<SimplifiedTrack>, Error>
    requires CompletionOrders(complete)
  {
    Paged(get, complete, TracksProbe(id, market, limit, offset), AllTracksBase(TracksPath(id)), limit, false)
  }

  /**
   * `get_album_tracks` with a numeric limit above 50 still pages up to the total, not the limit;
   * its follow-ups start at offset 50 whatever the caller's offset, and carry no market.
   */
  lemma AlbumTracksPagesToTotal(id: string, limit: Option<int>, total: int)
    requires WantsFollowUps(limit, total)
    ensures FollowUpBound(limit, total, false) == total
    ensures var reqs := OffsetRequests(AllTracksBase(TracksPath(id)), FollowUpOffsets(total));
      && |reqs| == (total - PageLimit + 49) / PageLimit
      && forall i :: 0 <= i < |reqs| ==>
           && reqs[i].path == TracksPath(id)
           && Lookup(reqs[i].params, "offset") == Some(Int(PageLimit * (i + 1)))
           && Lookup(reqs[i].params, "market").None?
  {
    FollowUpOffsetsExact(total);
  }

  /** The three follow-up pages of a 199-track album, each served: 50, 50 and 49 tracks. */
  lemma ThreeFollowUpPages(get: Request -> Response<Page<SimplifiedTrack>>, base: Request)
    requires forall o :: o in [50, 100, 150] ==>
      get(AtOffset(base, o)).status == 200 && |get(AtOffset(base, o)).body.items| == if o == 150 then 49 else 50
    ensures var reqs := OffsetRequests(base, FollowUpOffsets(199));
      && (forall i :: 0 <= i < |reqs| ==> get(reqs[i]).status == 200)
      && |Flatten(ItemsOf(Futures(get, reqs)))| == 149
  {
    FewFollowUpOffsets(199);
    var reqs := OffsetRequests(base, FollowUpOffsets(199));
    assert reqs[0] == AtOffset(base, 50) && reqs[1] == AtOffset(base, 100) && reqs[2] == AtOffset(base, 150);
    assert 50 in [50, 100, 150] && 100 in [50, 100, 150] && 150 in [50, 100, 150];
    var pages := ItemsOf(Futures(get, reqs));
    assert |pages[0].body| == 50 && |pages[1].body| == 50 && |pages[2].body| == 49;
    FlattenLengths(pages);
  }

  /**
   * tests/test_album.py: an album of 199 tracks fetched with `limit=None` takes the probe (50 tracks)
   * and follow-ups at offsets 50, 100 and 150 (50, 50 and 49 tracks); the result has all 199 tracks
   * and starts with the probe's first track.
   */
  lemma {:induction false} AlbumOf199Tracks(get: Request -> Response<Page<SimplifiedTrack>>, complete: nat -> seq<nat>, id: string)
    requires CompletionOrders(complete)
    requires var probe := get(TracksProbe(id, None, None, 0));
      probe.status == 200 && probe.body.total == 199 && |probe.body.items| == 50
    requires forall o :: o in [50, 100, 150] ==>
      get(AtOffset(AllTracksBase(TracksPath(id)), o)).status == 200
      && |get(AtOffset(AllTracksBase(TracksPath(id)), o)).body.items| == if o == 150 then 49 else 50
    ensures var r := AlbumTracksResult(get, complete, id, None, None, 0);
      r.Success? && |r.value| == 199 && r.value[0] == get(TracksProbe(id, None, None, 0)).body.items[0]
  {
    var probe := TracksProbe(id, None, None, 0);
    var base := AllTracksBase(TracksPath(id));
    ThreeFollowUpPages(get, base);
    PagedServed(get, complete, probe, base, None, false, 199, 149);
    var r := Paged(get, complete, probe, base, None, false);
    assert r.value[0] == r.value[..50][0];
  }

  /**
   * `get_album`: one request to the album URL; when the embedded track page reports more than 50
   * tracks, `_get_all_tracks` is called on that same album URL, and the album's `tracks` becomes
   * the probe's tracks followed by the merged rest.
   */
  function GetAlbumResult(getAlbum: Request -> Response<AlbumData>, getTracks: Request -> Response<Page<SimplifiedTrack>>,
                          complete: nat -> seq<nat>, id: string, market: Option<string>): (r: Result<AlbumData, Error>)
    requires CompletionOrders(complete)
    ensures getAlbum(AlbumRequest(id, market)).status != 200 ==> r == Failure(ResponseError(ErrorDetail(getAlbum(AlbumRequest(id, market)))))
    ensures r.Success? ==> var album := getAlbum(AlbumRequest(id, market)).body;
      && album.tracks.TrackPage?
      && r.value == album.(tracks := r.value.tracks)
      && r.value.tracks.TrackList?
      && |album.tracks.page.items| <= |r.value.tracks.items|
      && r.value.tracks.items[..|album.tracks.page.items|] == album.tracks.page.items
      && (album.tracks.page.total > PageLimit ==>
            AllTracks(getTracks, complete, AlbumUrl(id, market), album.tracks.page.total).Success? &&
            r.value.tracks.items == album.tracks.page.items + AllTracks(getTracks, complete, AlbumUrl(id, market), album.tracks.page.total).value)
      && (album.tracks.page.total <= PageLimit ==> r.value.tracks.items == album.tracks.page.items)
    ensures var reply := getAlbum(AlbumRequest(id, market));
      reply.status == 200 && reply.body.tracks.TrackList? ==> r == Failure(AttributeMissing)
    ensures var reply := getAlbum(AlbumRequest(id, market));
      reply.status == 200 && reply.body.tracks.TrackPage? && reply.body.tracks.page.total > PageLimit
      && AllTracks(getTracks, complete, AlbumUrl(id, market), reply.body.tracks.page.total).Failure? ==>
        r == Failure(AllTracks(getTracks, complete, AlbumUrl(id, market), reply.body.tracks.page.total).error)
  {
    match Fetch(getAlbum, AlbumRequest(id, market))
    case Failure(e) => Failure(e)
    case Success(album) =>
      match album.tracks
      case TrackList(_) => Failure(AttributeMissing)
      case TrackPage(page) =>
        if page.total > PageLimit then
          match AllTracks(getTracks, complete, AlbumUrl(id, market), page.total)
          case Failure(e) => Failure(e)
          case Success(rest) =>
            assert (page.items + rest)[..|page.items|] == page.items;
            Success(album.(tracks := TrackList(page.items + rest)))
        else Success(album.(tracks := TrackList(page.items)))
  }

  /**
   * The track follow-ups of `get_album` all go to the album URL (with any `&market=` suffix),
   * never to the album's tracks URL that `get_album_tracks` pages through.
   */
  lemma GetAlbumFollowUpsMissTracksPath(id: string, market: Option<string>, total: int)
    requires total > PageLimit
    ensures var reqs := OffsetRequests(AllTracksBase(AlbumUrl(id, market)), FollowUpOffsets(total));
      |reqs| > 0 && forall i :: 0 <= i < |reqs| ==> reqs[i].path == AlbumUrl(id, market) && reqs[i].path != TracksPath(id)
  {
    FollowUpOffsetsExact(total);
    var u := AlbumUrl(id, market);
    var n := |AlbumPath(id)|;
    assert TracksPath(id)[n..] == "/tracks";
    if Present(market) {
      assert u[n..][0] == '&';
    }
  }

  /**
   * The evidently intended `get_album`: the album's own path with the market as a parameter, and
   * the remaining tracks paged from the album's tracks URL.
   */
  function GetAlbumIntended(getAlbum: Request -> Response<AlbumData>, getTracks: Request -> Response<Page<SimplifiedTrack>>,
                            complete: nat -> seq<nat>, id: string, market: Option<string>): (r: Result<AlbumData, Error>)
    requires CompletionOrders(complete)
    ensures r.Success? ==> var album := getAlbum(AlbumRequestIntended(id, market)).body;
      && album.tracks.TrackPage?
      && r.value == album.(tracks := r.value.tracks)
      && r.value.tracks.TrackList?
      && (album.tracks.page.total > PageLimit ==>
            AllTracks(getTracks, complete, TracksPath(id), album.tracks.page.total).Success? &&
            r.value.tracks.items == album.tracks.page.items + AllTracks(getTracks, complete, TracksPath(id), album.tracks.page.total).value)
      && (album.tracks.page.total <= PageLimit ==> r.value.tracks.items == album.tracks.page.items)
    ensures getAlbum(AlbumRequestIntended(id, market)).status != 200 ==>
      r == Failure(ResponseError(ErrorDetail(getAlbum(AlbumRequestIntended(id, market)))))
    ensures var reply := getAlbum(AlbumRequestIntended(id, market));
      reply.status == 200 && reply.body.tracks.TrackList? ==> r == Failure(AttributeMissing)
    ensures var reply := getAlbum(AlbumRequestIntended(id, market));
      reply.status == 200 && reply.body.tracks.TrackPage? && reply.body.tracks.page.total > PageLimit
      && AllTracks(getTracks, complete, TracksPath(id), reply.body.tracks.page.total).Failure? ==>
        r == Failure(AllTracks(getTracks, complete, TracksPath(id), reply.body.tracks.page.total).error)
  {
    match Fetch(getAlbum, AlbumRequestIntended(id, market))
    case Failure(e) => Failure(e)
    case Success(album) =>
      match album.tracks
      case TrackList(_) => Failure(AttributeMissing)
      case TrackPage(page) =>
        if page.total > PageLimit then
          match AllTracks(getTracks, complete, TracksPath(id), page.total)
          case Failure(e) => Failure(e)
          case Success(rest) => Success(album.(tracks := TrackList(page.items + rest)))
        else Success(album.(tracks := TrackList(page.items)))
  }

  /**
   * With the intended follow-ups, every track request goes to the album's tracks URL; and when the
   * probe page and each follow-up page are full up to the total, the album gets exactly `total`
   * tracks (tests/test_album.py expects `len(tracks) == total_tracks`).
   */
  lemma GetAlbumIntendedComplete(getAlbum: Request -> Response<AlbumData>, getTracks: Request -> Response<Page<SimplifiedTrack>>,
                                 complete: nat -> seq<nat>, id: string, market: Option<string>)
    requires CompletionOrders(complete)
    requires var a := getAlbum(AlbumRequestIntended(id, market));
      a.status == 200 && a.body.tracks.TrackPage? && |a.body.tracks.page.items| == if a.body.tracks.page.total > PageLimit then PageLimit else a.body.tracks.page.total
    requires var page := getAlbum(AlbumRequestIntended(id, market)).body.tracks.page;
      var reqs := OffsetRequests(AllTracksBase(TracksPath(id)), FollowUpOffsets(page.total));
      |Flatten(ItemsOf(Futures(getTracks, reqs)))| == page.total - PageLimit
      && forall i :: 0 <= i < |reqs| ==> getTracks(reqs[i]).status == 200
    ensures var r := GetAlbumIntended(getAlbum, getTracks, complete, id, market);
      r.Success? && |r.value.tracks.items| == getAlbum(AlbumRequestIntended(id, market)).body.tracks.page.total
    ensures forall o :: o in FollowUpOffsets(getAlbum(AlbumRequestIntended(id, market)).body.tracks.page.total) ==>
      AtOffset(AllTracksBase(TracksPath(id)), o).path == TracksPath(id)
  {
    var page := getAlbum(AlbumRequestIntended(id, market)).body.tracks.page;
    if page.total > PageLimit {
      var pages := ItemsOf(Futures(getTracks, OffsetRequests(AllTracksBase(TracksPath(id)), FollowUpOffsets(page.total))));
      var order := complete(|pages|);
      assert IsPermutation(order, |pages|);
      FirstFailureIff(pages, order);
      GatheredContents(pages, order);
    }
  }

  /** `get_albums`' batches: the `ids` parameter, after a truthy market, at most 20 IDs each. */
  function SeveralAlbumsShape(market: Option<string>): BatchShape {
    QueryIds(BaseUrl + "/albums", OptionalParam("market", market))
  }

  /** `get_albums`: one request per 20 IDs; all-or-nothing; albums in completion order. */
  function SeveralAlbumsResult(get: Request -> Response<seq<AlbumData>>, complete: nat -> seq<nat>, ids: seq<string>,
                               market: Option<string>): Result<seq<AlbumData>, Error>
    requires CompletionOrders(complete)
  {
    var futures := Futures(get, ChunkRequests(SeveralAlbumsShape(market), Chunks(ids, AlbumBatch)));
    assert IsPermutation(complete(|futures|), |futures|);
    Gathered(futures, complete(|futures|))
  }

  /**
   * The requests of `get_albums` cover the IDs exactly: each carries the market when one is given
   * and an `ids` parameter that splits back into 1 to 20 IDs, and these chunks, in submission
   * order, concatenate to the caller's list.
   */
  lemma SeveralAlbumsRequests(ids: seq<string>, market: Option<string>)
    requires forall id :: id in ids ==> ',' !in id
    ensures var chunks := Chunks(ids, AlbumBatch);
      var reqs := ChunkRequests(SeveralAlbumsShape(market), chunks);
      && Concat(chunks) == ids
      && forall i :: 0 <= i < |reqs| ==>
           && reqs[i].path == BaseUrl + "/albums"
           && 0 < |chunks[i]| <= AlbumBatch
           && Lookup(reqs[i].params, "ids").Some? && Lookup(reqs[i].params, "ids").value.Str?
           && Split(Lookup(reqs[i].params, "ids").value.s, ',') == chunks[i]
           && (Lookup(reqs[i].params, "market").Some? <==> Present(market))
  {
    var chunks := Chunks(ids, AlbumBatch);
    ChunksConcat(ids, AlbumBatch);
    forall i | 0 <= i < |chunks|
      ensures Split(Lookup(ChunkRequest(SeveralAlbumsShape(market), chunks[i]).params, "ids").value.s, ',') == chunks[i]
    {
      forall id | id in chunks[i] ensures ',' !in id {
        var p :| 0 <= p < |chunks[i]| && chunks[i][p] == id;
        InConcat(chunks, i, id);
      }
      IdsParamRoundTrip(BaseUrl + "/albums", OptionalParam("market", market), chunks[i]);
    }
  }

  /** `get_albums` succeeds exactly when every batch does, and then returns every batch's albums, each once. */
  lemma SeveralAlbumsContents(get: Request -> Response<seq<AlbumData>>, complete: nat -> seq<nat>, ids: seq<string>, market: Option<string>)
    requires CompletionOrders(complete)
    ensures var futures := Futures(get, ChunkRequests(SeveralAlbumsShape(market), Chunks(ids, AlbumBatch)));
      var r := SeveralAlbumsResult(get, complete, ids, market);
      && (r.Success? <==> forall i :: 0 <= i < |futures| ==> futures[i].status == 200)
      && (r.Success? ==> multiset(r.value) == multiset(Flatten(futures)) && |r.value| == |Flatten(futures)|)
  {
    var futures := Futures(get, ChunkRequests(SeveralAlbumsShape(market), Chunks(ids, AlbumBatch)));
    var order := complete(|futures|);
    assert IsPermutation(order, |futures|);
    FirstFailureIff(futures, order);
    GatheredContents(futures, order);
  }

  /**
   * tests/test_album.py: up to 20 IDs go out as one request, and its albums come back in the
   * reply's own order.
   */
  lemma SeveralAlbumsOneBatch(get: Request -> Response<seq<AlbumData>>, complete: nat -> seq<nat>, ids: seq<string>, market: Option<string>)
    requires CompletionOrders(complete) && 0 < |ids| <= AlbumBatch
    ensures Chunks(ids, AlbumBatch) == [ids]
    ensures SeveralAlbumsResult(get, complete, ids, market) == Fetch(get, ChunkRequest(SeveralAlbumsShape(market), ids))
  {
    GatheredOneChunk(get, complete, SeveralAlbumsShape(market), ids, AlbumBatch);
  }

  /** `save_albums_for_user` and `remove_users_saved_albums` send `{"ids": chunk}` to the library. */
  function LibraryShape(verb: Verb): BatchShape {
    BodyIds(verb, BaseUrl + "/me/albums")
  }

  /** The library change: one request per 20 IDs; the first failure to complete is raised. */
  function LibraryChangeResult(send: Request -> Response<()>, complete: nat -> seq<nat>, verb: Verb, ids: seq<string>): Outcome<Error>
    requires CompletionOrders(complete)
  {
    var futures := Futures(send, ChunkRequests(LibraryShape(verb), Chunks(ids, AlbumBatch)));
    assert IsPermutation(complete(|futures|), |futures|);
    Awaited(futures, complete(|futures|))
  }

  /**
   * A library change succeeds exactly when every batch is answered with 200; its batches carry the
   * IDs in JSON bodies of 1 to 20, which concatenate to the caller's list.
   */
  lemma LibraryChangeContents(send: Request -> Response<()>, complete: nat -> seq<nat>, verb: Verb, ids: seq<string>)
    requires CompletionOrders(complete)
    ensures var chunks := Chunks(ids, AlbumBatch);
      var reqs := ChunkRequests(LibraryShape(verb), chunks);
      && (LibraryChangeResult(send, complete, verb, ids).Pass? <==> forall i :: 0 <= i < |reqs| ==> send(reqs[i]).status == 200)
      && Concat(chunks) == ids
      && forall i :: 0 <= i < |reqs| ==> reqs[i].verb == verb && reqs[i].jsonIds == Some(chunks[i]) && 0 < |chunks[i]| <= AlbumBatch
  {
    var reqs := ChunkRequests(LibraryShape(verb), Chunks(ids, AlbumBatch));
    var futures := Futures(send, reqs);
    var order := complete(|futures|);
    assert IsPermutation(order, |futures|);
    FirstFailureIff(futures, order);
    ChunksConcat(ids, AlbumBatch);
  }

  /** `check_users_saved_albums`' batches: a fresh `{"ids": ...}` query per 20 IDs. */
  function ContainsShape(): BatchShape {
    QueryIds(BaseUrl + "/me/albums/contains", [])
  }

  /** The merge of `check_users_saved_albums` as written: every reply's flags are zipped with the FULL ID list. */
  function SavedFlagsAsWritten(replies: seq<Response<seq<bool>>>, order: seq<nat>, ids: seq<string>): Result<map<string, bool>, Error>
    requires InRange(order, |replies|)
  {
    ZipAll(map[], replies, order, seq(|replies|, _ => ids))
  }

  /** The evidently intended merge: each reply's flags are zipped with its own chunk of IDs. */
  function SavedFlags(replies: seq<Response<seq<bool>>>, order: seq<nat>, ids: seq<string>): Result<map<string, bool>, Error>
    requires InRange(order, |replies|) && |replies| == |Chunks(ids, AlbumBatch)|
  {
    ZipAll(map[], replies, order, Chunks(ids, AlbumBatch))
  }

  lemma PrefixMembership(ids: seq<string>, a: nat, b: nat, x: string)
    requires a <= b <= |ids| && x in ids[..a]
    ensures x in ids[..b]
  {
    var p :| 0 <= p < a && ids[..a][p] == x;
    assert ids[..b][p] == x;
  }

  /**
   * As written, with replies of at most 20 flags (one per ID of a chunk), the merged keys are taken
   * from the first 20 IDs only.
   */
  lemma {:induction false} AsWrittenKeysFromFirstChunk(m: map<string, bool>, replies: seq<Response<seq<bool>>>, order: seq<nat>, ids: seq<string>)
    requires InRange(order, |replies|) && |ids| >= AlbumBatch
    requires forall i :: 0 <= i < |replies| ==> |replies[i].body| <= AlbumBatch
    ensures var r := ZipAll(m, replies, order, seq(|replies|, _ => ids));
      r.Success? ==> forall k :: k in r.value ==> k in m || k in ids[..AlbumBatch]
    decreases |order|
  {
    var keys := seq(|replies|, _ => ids);
    if order != [] && replies[order[0]].status == 200 {
      var body := replies[order[0]].body;
      var m1 := ZipInto(m, ids, body);
      AsWrittenKeysFromFirstChunk(m1, replies, order[1..], ids);
      forall k | k in m1 ensures k in m || k in ids[..AlbumBatch] {
        if k !in m {
          PrefixMembership(ids, ZipLength(ids, body), AlbumBatch, k);
        }
      }
    }
  }

  /**
   * The defect: for more than 20 distinct IDs whose batches all succeed, the 21st ID never appears
   * in the result, although its batch was answered.
   */
  lemma AsWrittenDropsLaterIds(replies: seq<Response<seq<bool>>>, order: seq<nat>, ids: seq<string>)
    requires InRange(order, |replies|) && |ids| > AlbumBatch && Distinct(ids)
    requires forall i :: 0 <= i < |replies| ==> replies[i].status == 200 && |replies[i].body| <= AlbumBatch
    ensures SavedFlagsAsWritten(replies, order, ids).Success?
    ensures ids[AlbumBatch] !in SavedFlagsAsWritten(replies, order, ids).value
  {
    ZipAllFailure(map[], replies, order, seq(|replies|, _ => ids));
    FirstFailureIffAt(replies, order);
    AsWrittenKeysFromFirstChunk(map[], replies, order, ids);
    assert forall p :: 0 <= p < AlbumBatch ==> ids[..AlbumBatch][p] != ids[AlbumBatch];
  }

  /**
   * The misassignment: with 21 IDs answered by batches of 20 and 1 flags, the second batch completing
   * last, the first ID ends up with the flag the second batch returned for the 21st ID.
   */
  lemma AsWrittenLastBatchOverwrites(replies: seq<Response<seq<bool>>>, ids: seq<string>)
    requires |ids| == AlbumBatch + 1 && |replies| == 2
    requires replies[0].status == 200 && |replies[0].body| == AlbumBatch
    requires replies[1].status == 200 && |replies[1].body| == 1
    ensures SavedFlagsAsWritten(replies, [0, 1], ids).Success?
    ensures ids[0] in SavedFlagsAsWritten(replies, [0, 1], ids).value
    ensures SavedFlagsAsWritten(replies, [0, 1], ids).value[ids[0]] == replies[1].body[0]
  {
    var keys := seq(|replies|, _ => ids);
    var m1 := ZipInto(map[], ids, replies[0].body);
    assert [0, 1][1..] == [1] && [1][1..] == [];
    assert ZipAll(map[], replies, [0, 1], keys) == ZipAll(m1, replies, [1], keys);
    assert ZipAll(m1, replies, [1], keys) == Success(ZipInto(m1, ids, replies[1].body));
    assert ZipInto(m1, ids, replies[1].body) == ZipInto(m1[ids[0] := replies[1].body[0]], ids[1..], replies[1].body[1..]);
  }

  /** For at most 20 IDs (a single batch) the written merge and the intended one agree. */
  lemma AsWrittenAgreesOnOneBatch(replies: seq<Response<seq<bool>>>, order: seq<nat>, ids: seq<string>)
    requires 0 < |ids| <= AlbumBatch && |replies| == 1 && InRange(order, 1)
    ensures SavedFlagsAsWritten(replies, order, ids) == SavedFlags(replies, order, ids)
  {
    assert Chunks(ids, AlbumBatch) == [ids];
    assert seq(|replies|, _ => ids) == [ids];
  }

  /**
   * The intended merge, for distinct IDs whose batches all succeed with one flag per ID: the result
   * has exactly the caller's IDs as keys, each mapped to the flag its own batch returned for it.
   */
  lemma SavedFlagsCorrect(replies: seq<Response<seq<bool>>>, order: seq<nat>, ids: seq<string>)
    requires IsPermutation(order, |replies|) && |replies| == |Chunks(ids, AlbumBatch)| && Distinct(ids)
    requires forall i :: 0 <= i < |replies| ==> replies[i].status == 200 && |replies[i].body| == |Chunks(ids, AlbumBatch)[i]|
    ensures SavedFlags(replies, order, ids).Success?
    ensures forall k :: k in SavedFlags(replies, order, ids).value <==> k in ids
    ensures var chunks := Chunks(ids, AlbumBatch);
      forall i, p :: 0 <= i < |chunks| && 0 <= p < |chunks[i]| ==>
        chunks[i][p] in SavedFlags(replies, order, ids).value && SavedFlags(replies, order, ids).value[chunks[i][p]] == replies[i].body[p]
  {
    var chunks := Chunks(ids, AlbumBatch);
    PermutationFacts(order, |replies|);
    PermutationDistinct(order, |replies|);
    ChunksDisjoint(ids, AlbumBatch);
    ChunksConcat(ids, AlbumBatch);
    ZipAllPerChunk(map[], replies, order, chunks);
    var r := SavedFlags(replies, order, ids).value;
    forall k ensures k in r <==> k in ids {
      if k in ids {
        var i := ChunkOf(chunks, k);
        var p :| 0 <= p < |chunks[i]| && chunks[i][p] == k;
      } else if k in r {
        var i :| i in order && k in chunks[i];
        InConcat(chunks, i, k);
      }
    }
  }

  /** The index of a chunk holding `x`, for an element of the concatenation. */
  lemma ChunkOf(chunks: seq<seq<string>>, x: string) returns (i: nat)
    requires x in Concat(chunks)
    ensures i < |chunks| && x in chunks[i]
  {
    if x in chunks[0] {
      i := 0;
    } else {
      var j := ChunkOf(chunks[1..], x);
      i := j + 1;
    }
  }

  /** `check_users_saved_albums`: one query per 20 IDs, each reply zipped with its own chunk. */
  function CheckSavedResult(get: Request -> Response<seq<bool>>, complete: nat -> seq<nat>, ids: seq<string>): Result<map<string, bool>, Error>
    requires CompletionOrders(complete)
  {
    var replies := Futures(get, ChunkRequests(ContainsShape(), Chunks(ids, AlbumBatch)));
    assert IsPermutation(complete(|replies|), |replies|);
    SavedFlags(replies, complete(|replies|), ids)
  }

  /** `get_users_saved_albums`' query: the probe head and a truthy market; the follow-ups reuse it. */
  function SavedAlbumsProbe(market: Option<string>, limit: Option<int>, offset: int): (req: Request)
    ensures req.verb == Get && req.path == BaseUrl + "/me/albums" && req.jsonIds.None?
    ensures Lookup(req.params, "limit") == Some(Int(ProbeLimit(limit))) && Lookup(req.params, "offset") == Some(Int(offset))
    ensures Lookup(req.params, "market").Some? <==> Present(market)
    ensures Keys(req.params) <= {"limit", "offset", "market"}
  {
    ProbeParamsThen(limit, offset, OptionalParam("market", market));
    Request(Get, BaseUrl + "/me/albums", ProbeParams(limit, offset) + OptionalParam("market", market), None)
  }

  function SavedAlbumsResult(get: Request -> Response<Page<SavedAlbum>>, complete: nat -> seq<nat>,
                             market: Option<string>, limit: Option<int>, offset: int): Result<seq<SavedAlbum>, Error>
    requires CompletionOrders(complete)
  {
    var probe := SavedAlbumsProbe(market, limit, offset);
    Paged(get, complete, probe, probe, limit, false)
  }

  /**
   * The follow-ups of the saved-albums listing reuse the probe's query: same path, same market,
   * `limit` 50, and their own offsets in place of the caller's.
   */
  lemma SavedAlbumsFollowUps(market: Option<string>, limit: Option<int>, offset: int, total: int)
    requires WantsFollowUps(limit, total)
    ensures var probe := SavedAlbumsProbe(market, limit, offset);
      var reqs := OffsetRequests(probe, FollowUpOffsets(total));
      forall i :: 0 <= i < |reqs| ==>
        && reqs[i].path == probe.path
        && Lookup(reqs[i].params, "limit") == Some(Int(PageLimit))
        && Lookup(reqs[i].params, "offset") == Some(Int(PageLimit * (i + 1)))
        && Lookup(reqs[i].params, "market") == Lookup(probe.params, "market")
  {
    FollowUpOffsetsExact(total);
  }

  /** `get_new_releases`' query: the probe head only; the follow-ups reuse it. */
  function NewReleasesProbe(limit: Option<int>, offset: int): (req: Request)
    ensures req.verb == Get && req.path == BaseUrl + "/browse/new-releases" && req.jsonIds.None?
    ensures Keys(req.params) == {"limit", "offset"}
    ensures Lookup(req.params, "limit") == Some(Int(ProbeLimit(limit))) && Lookup(req.params, "offset") == Some(Int(offset))
  {
    Request(Get, BaseUrl + "/browse/new-releases", ProbeParams(limit, offset), None)
  }

  function NewReleasesResult(get: Request -> Response<Page<SimplifiedAlbum>>, complete: nat -> seq<nat>,
                             limit: Option<int>, offset: int): Result<seq<SimplifiedAlbum>, Error>
    requires CompletionOrders(complete)
  {
    var probe := NewReleasesProbe(limit, offset);
    Paged(get, complete, probe, probe, limit, false)
  }

  /** The album endpoints, on the APIReference they extend. */
  class Album {
    const api: APIReference

    constructor(api: APIReference)
      ensures this.api == api
    {
      this.api := api;
    }

    /** `_get_all_tracks(url, total)`. */
    method GetAllTracks(url: string, total: int, get: Request -> Response<Page<SimplifiedTrack>>, complete: nat -> seq<nat>)
      returns (r: Result<seq<SimplifiedTrack>, Error>)
      requires CompletionOrders(complete)
      ensures r == AllTracks(get, complete, url, total)
    {
      r := FetchFollowUps(get, complete, AllTracksBase(url), total);
    }

    method GetAlbum(id: string, market: Option<string>, now: Instant, tokens: TokenEndpoint,
                    getAlbum: Request -> Response<AlbumData>, getTracks: Request -> Response<Page<SimplifiedTrack>>,
                    complete: nat -> seq<nat>) returns (r: Result<AlbumData, Error>)
      requires CompletionOrders(complete)
      modifies api, api.auth.Obj(), tokens
      ensures Guarded(old(api.EnsureValidOutcome(now, tokens)), r, GetAlbumIntended(getAlbum, getTracks, complete, id, market))
      ensures api.TokenChecked(now, tokens)
    {
      var check := api.EnsureValidToken(now, tokens);
      if check.Fail? {
        return Failure(check.error);
      }
      r := FetchAlbum(id, market, getAlbum, getTracks, complete);
    }

    /** The part of `get_album` after the token check: the album fetch and its track follow-ups. */
    method FetchAlbum(id: string, market: Option<string>, getAlbum: Request -> Response<AlbumData>,
                      getTracks: Request -> Response<Page<SimplifiedTrack>>, complete: nat -> seq<nat>)
      returns (r: Result<AlbumData, Error>)
      requires CompletionOrders(complete)
      ensures r == GetAlbumIntended(getAlbum, getTracks, complete, id, market)
    {
      var response := getAlbum(AlbumRequestIntended(id, market));
      if response.status != 200 {
        return Failure(ResponseError(ErrorDetail(response)));
      }
      var album := response.body;
      if album.tracks.TrackList? {
        return Failure(AttributeMissing);
      }
      var page := album.tracks.page;
      var tracks := page.items;
      if page.total > PageLimit {
        var rest := GetAllTracks(TracksPath(id), page.total, getTracks, complete);
        if rest.Failure? {
          return Failure(rest.error);
        }
        tracks := tracks + rest.value;
      }
      return Success(album.(tracks := TrackList(tracks)));

    }

    method GetAlbums(ids: seq<string>, market: Option<string>, now: Instant, tokens: TokenEndpoint,
                     get: Request -> Response<seq<AlbumData>>, complete: nat -> seq<nat>) returns (r: Result<seq<AlbumData>, Error>)
      requires CompletionOrders(complete)
      modifies api, api.auth.Obj(), tokens
      ensures Guarded(old(api.EnsureValidOutcome(now, tokens)), r, SeveralAlbumsResult(get, complete, ids, market))
      ensures api.TokenChecked(now, tokens)
    {
      var check := api.EnsureValidToken(now, tokens);
      if check.Fail? {
        return Failure(check.error);
      }
      var futures := SubmitChunks(get, SeveralAlbumsShape(market), ids, AlbumBatch);
      assert IsPermutation(complete(|futures|), |futures|);
      r := Gather(futures, complete(|futures|));
    }

    method GetAlbumTracks(id: string, market: Option<string>, limit: Option<int>, offset: int, now: Instant, tokens: TokenEndpoint,
                          get: Request -> Response<Page<SimplifiedTrack>>, complete: nat -> seq<nat>)
      returns (r: Result<seq<SimplifiedTrack>, Error>)
      requires CompletionOrders(complete)
      modifies api, api.auth.Obj(), tokens
      ensures Guarded(old(api.EnsureValidOutcome(now, tokens)), r, AlbumTracksResult(get, complete, id, market, limit, offset))
      ensures api.TokenChecked(now, tokens)
    {
      var check := api.EnsureValidToken(now, tokens);
      if check.Fail? {
        return Failure(check.error);
      }
      r := FetchPaged(get, complete, TracksProbe(id, market, limit, offset), AllTracksBase(TracksPath(id)), limit, false);
    }

    method GetUsersSavedAlbums(market: Option<string>, limit: Option<int>, offset: int, now: Instant, tokens: TokenEndpoint,
                               get: Request -> Response<Page<SavedAlbum>>, complete: nat -> seq<nat>)
      returns (r: Result<seq<SavedAlbum>, Error>)
      requires CompletionOrders(complete)
      modifies api, api.auth.Obj(), tokens
      ensures api.ScopeCheck([UserLibraryRead]).Fail? ==>
        r == Failure(api.ScopeCheck([UserLibraryRead]).error) && tokens.sent == old(tokens.sent) && api.auth.Token() == old(api.auth.Token())
        && api.authorization == old(api.authorization)
      ensures api.ScopeCheck([UserLibraryRead]).Pass? ==> api.TokenChecked(now, tokens)
      ensures api.ScopeCheck([UserLibraryRead]).Pass? ==>
        Guarded(old(api.EnsureValidOutcome(now, tokens)), r, SavedAlbumsResult(get, complete, market, limit, offset))
    {
      var scoped := api.CheckScopes([UserLibraryRead]);
      if scoped.Fail? {
        return Failure(scoped.error);
      }
      var check := api.EnsureValidToken(now, tokens);
      if check.Fail? {
        return Failure(check.error);
      }
      var probe := SavedAlbumsProbe(market, limit, offset);
      r := FetchPaged(get, complete, probe, probe, limit, false);
    }

    method SaveAlbumsForUser(ids: seq<string>, now: Instant, tokens: TokenEndpoint, put: Request -> Response<()>, complete: nat -> seq<nat>)
      returns (r: Outcome<Error>)
      requires CompletionOrders(complete)
      modifies api, api.auth.Obj(), tokens
      ensures api.ScopeCheck([UserLibraryModify]).Fail? ==>
        r == api.ScopeCheck([UserLibraryModify]) && tokens.sent == old(tokens.sent) && api.auth.Token() == old(api.auth.Token())
        && api.authorization == old(api.authorization)
      ensures api.ScopeCheck([UserLibraryModify]).Pass? ==> api.TokenChecked(now, tokens)
      ensures api.ScopeCheck([UserLibraryModify]).Pass? ==>
        r == if old(api.EnsureValidOutcome(now, tokens)).Fail? then old(api.EnsureValidOutcome(now, tokens))
             else LibraryChangeResult(put, complete, Put, ids)
    {
      var scoped := api.CheckScopes([UserLibraryModify]);
      if scoped.Fail? {
        return scoped;
      }
      var check := api.EnsureValidToken(now, tokens);
      if check.Fail? {
        return check;
      }
      r := ChangeLibrary(Put, ids, put, complete);
    }

    method RemoveUsersSavedAlbums(ids: seq<string>, now: Instant, tokens: TokenEndpoint, delete: Request -> Response<()>, complete: nat -> seq<nat>)
      returns (r: Outcome<Error>)
      requires CompletionOrders(complete)
      modifies api, api.auth.Obj(), tokens
      ensures api.ScopeCheck([UserLibraryModify]).Fail? ==>
        r == api.ScopeCheck([UserLibraryModify]) && tokens.sent == old(tokens.sent) && api.auth.Token() == old(api.auth.Token())
        && api.authorization == old(api.authorization)
      ensures api.ScopeCheck([UserLibraryModify]).Pass? ==> api.TokenChecked(now, tokens)
      ensures api.ScopeCheck([UserLibraryModify]).Pass? ==>
        r == if old(api.EnsureValidOutcome(now, tokens)).Fail? then old(api.EnsureValidOutcome(now, tokens))
             else LibraryChangeResult(delete, complete, Delete, ids)
    {
      var scoped := api.CheckScopes([UserLibraryModify]);
      if scoped.Fail? {
        return scoped;
      }
      var check := api.EnsureValidToken(now, tokens);
      if check.Fail? {
        return check;
      }
      r := ChangeLibrary(Delete, ids, delete, complete);
    }

    /** The part of the library changes after the checks: one request per 20 IDs, all awaited. */
    method ChangeLibrary(verb: Verb, ids: seq<string>, send: Request -> Response<()>, complete: nat -> seq<nat>)
      returns (r: Outcome<Error>)
      requires CompletionOrders(complete)
      ensures r == LibraryChangeResult(send, complete, verb, ids)
    {
      var futures := SubmitChunks(send, LibraryShape(verb), ids, AlbumBatch);
      assert IsPermutation(complete(|futures|), |futures|);
      r := AwaitAll(futures, complete(|futures|));
    }

    method CheckUsersSavedAlbums(ids: seq<string>, now: Instant, tokens: TokenEndpoint, get: Request -> Response<seq<bool>>, complete: nat -> seq<nat>)
      returns (r: Result<map<string, bool>, Error>)
      requires CompletionOrders(complete)
      modifies api, api.auth.Obj(), tokens
      ensures api.ScopeCheck([UserLibraryRead]).Fail? ==>
        r == Failure(api.ScopeCheck([UserLibraryRead]).error) && tokens.sent == old(tokens.sent) && api.auth.Token() == old(api.auth.Token())
        && api.authorization == old(api.authorization)
      ensures api.ScopeCheck([UserLibraryRead]).Pass? ==> api.TokenChecked(now, tokens)
      ensures api.ScopeCheck([UserLibraryRead]).Pass? ==>
        Guarded(old(api.EnsureValidOutcome(now, tokens)), r, CheckSavedResult(get, complete, ids))
    {
      var scoped := api.CheckScopes([UserLibraryRead]);
      if scoped.Fail? {
        return Failure(scoped.error);
      }
      var check := api.EnsureValidToken(now, tokens);
      if check.Fail? {
        return Failure(check.error);
      }
      r := FetchSavedFlags(ids, get, complete);
    }

    /** The part of `check_users_saved_albums` after the checks: one request per 20 IDs, merged per chunk. */
    method FetchSavedFlags(ids: seq<string>, get: Request -> Response<seq<bool>>, complete: nat -> seq<nat>)
      returns (r: Result<map<string, bool>, Error>)
      requires CompletionOrders(complete)
      ensures r == CheckSavedResult(get, complete, ids)
    {
      var replies := SubmitChunks(get, ContainsShape(), ids, AlbumBatch);
      assert IsPermutation(complete(|replies|), |replies|);
      r := MergeZipped(replies, complete(|replies|), Chunks(ids, AlbumBatch));

    }

    method GetNewReleases(limit: Option<int>, offset: int, now: Instant, tokens: TokenEndpoint,
                          get: Request -> Response<Page<SimplifiedAlbum>>, complete: nat -> seq<nat>)
      returns (r: Result<seq<SimplifiedAlbum>, Error>)
      requires CompletionOrders(complete)
      modifies api, api.auth.Obj(), tokens
      ensures Guarded(old(api.EnsureValidOutcome(now, tokens)), r, NewReleasesResult(get, complete, limit, offset))
      ensures api.TokenChecked(now, tokens)
    {
      var check := api.EnsureValidToken(now, tokens);
      if check.Fail? {
        return Failure(check.error);
      }
      var probe := NewReleasesProbe(limit, offset);
      r := FetchPaged(get, complete, probe, probe, limit, false);
    }
  }
}

=== FILE: artist.dfy ===
/** wspotify/artist.py: the artist endpoints. */
module ArtistApi {
  import opened Wrappers
  import opened Exceptions
  import opened Tokens
  import opened Text
  import opened Http
  import opened FanIn
  import opened Pagination
  import opened Batching
  import opened Schemas
  import opened TokenTransport
  import opened Base

  /** The album groups an artist's albums can be filtered by. */
  datatype Group = AlbumGroup | Single | AppearsOn | Compilation
  {
    /** The enumeration value sent to the API. */
    function Value(): (v: string)
      ensures ',' !in v
    {
      match this
      case AlbumGroup => "album"
      case Single => "single"
      case AppearsOn => "appears_on"
      case Compilation => "compilation"
    }
  }

  /** The members of `Group` in the order iterating the enumeration yields them. */
  const AllGroups: seq<Group> := [AlbumGroup, Single, AppearsOn, Compilation]

  function GroupValues(groups: seq<Group>): (vs: seq<string>)
    ensures |vs| == |groups| && forall k :: 0 <= k < |vs| ==> vs[k] == groups[k].Value()
  {
    seq(|groups|, k requires 0 <= k < |groups| => groups[k].Value())
  }

  /** `",".join(group.value for group in Group)`. */
  const EveryGroup: string := Join(GroupValues(AllGroups), ',')

  /**
   * The `include_groups` parameter as written: for any non-empty selection, the values of every
   * member of `Group`, whatever was selected.
   */
  function IncludeGroupsAsWritten(groups: seq<Group>): (ps: Params)
    ensures groups == [] ==> ps == []
    ensures groups != [] ==> Lookup(ps, "include_groups") == Some(Str(EveryGroup)) && Keys(ps) == {"include_groups"}
  {
    if groups != [] then [("include_groups", Str(EveryGroup))] else []
  }

  /** The evidently intended parameter: the values of the selected groups, in the caller's order. */
  function IncludeGroupsParam(groups: seq<Group>): (ps: Params)
    ensures groups == [] ==> ps == []
    ensures groups != [] ==> Keys(ps) == {"include_groups"} && Lookup(ps, "include_groups") == Some(Str(Join(GroupValues(groups), ',')))
  {
    if groups != [] then [("include_groups", Str(Join(GroupValues(groups), ',')))] else []
  }

  /** The intended parameter splits back into exactly the selected groups' values. */
  lemma IncludeGroupsRoundTrip(groups: seq<Group>)
    requires groups != []
    ensures Split(Lookup(IncludeGroupsParam(groups), "include_groups").value.s, ',') == GroupValues(groups)
  {
    var vs := GroupValues(groups);
    forall v | v in vs ensures ',' !in v {
      var k :| 0 <= k < |vs| && vs[k] == v;
    }
    SplitJoin(vs, ',');
  }

  /**
   * The defect of the written parameter: any non-empty selection sends the values of all four
   * groups, so asking for singles only does not filter; the written and the intended parameter
   * agree only on the full selection in enumeration order.
   */
  lemma IncludeGroupsIgnoresSelection(groups: seq<Group>)
    requires groups != []
    ensures Split(Lookup(IncludeGroupsAsWritten(groups), "include_groups").value.s, ',') == GroupValues(AllGroups)
    ensures IncludeGroupsAsWritten(groups) == IncludeGroupsParam(AllGroups)
    ensures IncludeGroupsAsWritten([Single]) != IncludeGroupsParam([Single])
  {
    IncludeGroupsRoundTrip(AllGroups);
    IncludeGroupsRoundTrip([Single]);
    assert |GroupValues([Single])| != |GroupValues(AllGroups)|;
  }

  function ArtistPath(id: string): string {
    BaseUrl + "/artists/" + id
  }

  /** `get_artist`'s only request. */
  function ArtistRequest(id: string): Request {
    Request(Get, ArtistPath(id), [], None)
  }

  /** `get_artists`' batches: a fresh `{"ids": ...}` query per 100 IDs. */
  function SeveralArtistsShape(): BatchShape {
    QueryIds(BaseUrl + "/artists", [])
  }

  /** `get_artists`: one request per 100 IDs; all-or-nothing; artists in completion order. */
  function SeveralArtistsResult(get: Request -> Response<seq<ArtistData>>, complete: nat -> seq<nat>, ids: seq<string>)
    : Result<seq<ArtistData>, Error>
    requires CompletionOrders(complete)
  {
    var futures := Futures(get, ChunkRequests(SeveralArtistsShape(), Chunks(ids, ArtistBatch)));
    assert IsPermutation(complete(|futures|), |futures|);
    Gathered(futures, complete(|futures|))
  }

  /**
   * The requests of `get_artists` cover the IDs exactly: each carries only an `ids` parameter that
   * splits back into 1 to 100 IDs, and these chunks, in submission order, concatenate to the list.
   */
  lemma SeveralArtistsRequests(ids: seq<string>)
    requires forall id :: id in ids ==> ',' !in id
    ensures var chunks := Chunks(ids, ArtistBatch);
      var reqs := ChunkRequests(SeveralArtistsShape(), chunks);
      && Concat(chunks) == ids
      && forall i :: 0 <= i < |reqs| ==>
           && reqs[i].path == BaseUrl + "/artists"
           && 0 < |chunks[i]| <= ArtistBatch
           && Keys(reqs[i].params) == {"ids"}
           && Split(Lookup(reqs[i].params, "ids").value.s, ',') == chunks[i]
  {
    var chunks := Chunks(ids, ArtistBatch);
    ChunksConcat(ids, ArtistBatch);
    forall i | 0 <= i < |chunks|
      ensures Split(Lookup(ChunkRequest(SeveralArtistsShape(), chunks[i]).params, "ids").value.s, ',') == chunks[i]
      ensures Keys(ChunkRequest(SeveralArtistsShape(), chunks[i]).params) == {"ids"}
    {
      forall id | id in chunks[i] ensures ',' !in id {
        InConcat(chunks, i, id);
      }
      IdsParamRoundTrip(BaseUrl + "/artists", [], chunks[i]);
    }
  }

  /** `get_artists` succeeds exactly when every batch does, and then returns every batch's artists, each once. */
  lemma SeveralArtistsContents(get: Request -> Response<seq<ArtistData>>, complete: nat -> seq<nat>, ids: seq<string>)
    requires CompletionOrders(complete)
    ensures var futures := Futures(get, ChunkRequests(SeveralArtistsShape(), Chunks(ids, ArtistBatch)));
      var r := SeveralArtistsResult(get, complete, ids);
      && (r.Success? <==> forall i :: 0 <= i < |futures| ==> futures[i].status == 200)
      && (r.Success? ==> multiset(r.value) == multiset(Flatten(futures)) && |r.value| == |Flatten(futures)|)
  {
    var futures := Futures(get, ChunkRequests(SeveralArtistsShape(), Chunks(ids, ArtistBatch)));
    var order := complete(|futures|);
    assert IsPermutation(order, |futures|);
    FirstFailureIff(futures, order);
    GatheredContents(futures, order);
  }

  /**
   * tests/test_artist.py: up to 100 IDs go out as one request, and its artists come back in the
   * reply's own order.
   */
  lemma OneBatchKeepsOrder(get: Request -> Response<seq<ArtistData>>, complete: nat -> seq<nat>, ids: seq<string>)
    requires CompletionOrders(complete) && 0 < |ids| <= ArtistBatch
    ensures Chunks(ids, ArtistBatch) == [ids]
    ensures SeveralArtistsResult(get, complete, ids) == Fetch(get, ChunkRequest(SeveralArtistsShape(), ids))
  {
    GatheredOneChunk(get, complete, SeveralArtistsShape(), ids, ArtistBatch);
  }

  function ArtistAlbumsPath(id: string): string {
    ArtistPath(id) + "/albums"
  }

  /** The filters of `get_artist_albums` after limit and offset: the groups, then a truthy market. */
  function AlbumFilters(groups: seq<Group>, market: Option<string>): (ps: Params)
    ensures Lookup(ps, "include_groups") == Lookup(IncludeGroupsParam(groups), "include_groups")
    ensures Lookup(ps, "market") == Lookup(OptionalParam("market", market), "market")
    ensures Keys(ps) <= {"include_groups", "market"}
  {
    LookupAppend(IncludeGroupsParam(groups), OptionalParam("market", market), "include_groups");
    LookupAppend(IncludeGroupsParam(groups), OptionalParam("market", market), "market");
    IncludeGroupsParam(groups) + OptionalParam("market", market)
  }

  /** The first request of `get_artist_albums`; its follow-ups reuse the same query. */
  function ArtistAlbumsProbe(id: string, groups: seq<Group>, market: Option<string>, limit: Option<int>, offset: int): (req: Request)
    ensures req.verb == Get && req.path == ArtistAlbumsPath(id) && req.jsonIds.None?
    ensures Lookup(req.params, "limit") == Some(Int(ProbeLimit(limit))) && Lookup(req.params, "offset") == Some(Int(offset))
    ensures Lookup(req.params, "include_groups").Some? <==> groups != []
    ensures groups != [] ==> Lookup(req.params, "include_groups") == Some(Str(Join(GroupValues(groups), ',')))
    ensures Lookup(req.params, "market").Some? <==> Present(market)
    ensures Present(market) ==> Lookup(req.params, "market") == Some(Str(market.value))
    ensures Keys(req.params) <= {"limit", "offset", "include_groups", "market"}
  {
    ProbeParamsThen(limit, offset, AlbumFilters(groups, market));
    Request(Get, ArtistAlbumsPath(id), ProbeParams(limit, offset) + AlbumFilters(groups, market), None)
  }

  /** `get_artist_albums`: the probe, then pages up to the caller's limit, or up to the total for `limit=None`. */
  function ArtistAlbumsResult(get: Request -> Response<Page<SimplifiedAlbum>>, complete: nat -> seq<nat>, id: string,
                              groups: seq<Group>, market: Option<string>, limit: Option<int>, offset: int): Result<seq<SimplifiedAlbum>, Error>
    requires CompletionOrders(complete)
  {
    var probe := ArtistAlbumsProbe(id, groups, market, limit, offset);
    Paged(get, complete, probe, probe, limit, true)
  }

  /**
   * The follow-ups of `get_artist_albums` carry the probe's filters and `limit` 50, at offsets
   * 50, 100, ... below the caller's limit (or below the total for `limit=None`), ignoring the
   * caller's offset.
   */
  lemma ArtistAlbumsFollowUps(id: string, groups: seq<Group>, market: Option<string>, limit: Option<int>, offset: int, total: int)
    requires WantsFollowUps(limit, total)
    ensures var probe := ArtistAlbumsProbe(id, groups, market, limit, offset);
      var bound := if limit.Some? then limit.value else total;
      var reqs := OffsetRequests(probe, FollowUpOffsets(FollowUpBound(limit, total, true)));
      && (forall o :: o in FollowUpOffsets(FollowUpBound(limit, total, true)) <==> PageLimit <= o < bound && o % PageLimit == 0)
      && forall i :: 0 <= i < |reqs| ==>
           && reqs[i].path == ArtistAlbumsPath(id)
           && Lookup(reqs[i].params, "limit") == Some(Int(PageLimit))
           && Lookup(reqs[i].params, "offset") == Some(Int(PageLimit * (i + 1)))
           && Lookup(reqs[i].params, "include_groups") == Lookup(probe.params, "include_groups")
           && Lookup(reqs[i].params, "market") == Lookup(probe.params, "market")
  {
    FollowUpOffsetsExact(FollowUpBound(limit, total, true));
  }

  /** The two follow-up pages below a limit of 120, each served full: 100 albums. */
  lemma TwoFullFollowUpPages(get: Request -> Response<Page<SimplifiedAlbum>>, probe: Request)
    requires forall o :: o in [50, 100] ==> get(AtOffset(probe, o)).status == 200 && |get(AtOffset(probe, o)).body.items| == PageLimit
    ensures var reqs := OffsetRequests(probe, FollowUpOffsets(120));
      && (forall i :: 0 <= i < |reqs| ==> get(reqs[i]).status == 200)
      && |Flatten(ItemsOf(Futures(get, reqs)))| == 100
  {
    FewFollowUpOffsets(120);
    var reqs := OffsetRequests(probe, [50, 100]);
    assert reqs[0] == AtOffset(probe, 50) && reqs[1] == AtOffset(probe, 100);
    assert 50 in [50, 100] && 100 in [50, 100];
    var pages := ItemsOf(Futures(get, reqs));
    assert |pages[0].body| == PageLimit && |pages[1].body| == PageLimit;
    FlattenLengths(pages);
  }

  /**
   * A limit above 50 is rounded up to whole pages: with `limit=120` and at least 150 albums
   * available, the probe and the follow-ups at offsets 50 and 100 return 150 albums.
   */
  lemma ArtistAlbumsWholePages(get: Request -> Response<Page<SimplifiedAlbum>>, complete: nat -> seq<nat>, id: string,
                               groups: seq<Group>, market: Option<string>)
    requires CompletionOrders(complete)
    requires var probe := get(ArtistAlbumsProbe(id, groups, market, Some(120), 0));
      probe.status == 200 && probe.body.total >= 150 && |probe.body.items| == PageLimit
    requires forall o :: o in [50, 100] ==>
      get(AtOffset(ArtistAlbumsProbe(id, groups, market, Some(120), 0), o)).status == 200
      && |get(AtOffset(ArtistAlbumsProbe(id, groups, market, Some(120), 0), o)).body.items| == PageLimit
    ensures var r := ArtistAlbumsResult(get, complete, id, groups, market, Some(120), 0);
      r.Success? && |r.value| == 150
  {
    var probe := ArtistAlbumsProbe(id, groups, market, Some(120), 0);
    assert FollowUpBound(Some(120), get(probe).body.total, true) == 120;
    TwoFullFollowUpPages(get, probe);
    PagedServed(get, complete, probe, probe, Some(120), true, 120, 100);
  }

  /** `get_artist_top_tracks`' URL: a truthy market is appended as the query `?market=...`. */
  function TopTracksUrl(id: string, market: Option<string>): (u: string)
    ensures var base := ArtistPath(id) + "/top-tracks";
      && |u| >= |base| && u[..|base|] == base
      && (Present(market) ==> u[|base|..] == "?market=" + market.value)
      && (!Present(market) ==> u == base)
  {
    var base := ArtistPath(id) + "/top-tracks";
    if Present(market) then base + "?market=" + market.value else base
  }

  function TopTracksRequest(id: string, market: Option<string>): Request {
    Request(Get, TopTracksUrl(id, market), [], None)
  }

  function RelatedArtistsRequest(id: string): Request {
    Request(Get, ArtistPath(id) + "/related-artists", [], None)
  }

  /** The artist endpoints, on the APIReference they extend. */
  class Artist {
    const api: APIReference

    constructor(api: APIReference)
      ensures this.api == api
    {
      this.api := api;
    }

    method GetArtist(id: string, now: Instant, tokens: TokenEndpoint, get: Request -> Response<ArtistData>)
      returns (r: Result<ArtistData, Error>)
      modifies api, api.auth.Obj(), tokens
      ensures Guarded(old(api.EnsureValidOutcome(now, tokens)), r, Fetch(get, ArtistRequest(id)))
      ensures api.TokenChecked(now, tokens)
    {
      var check := api.EnsureValidToken(now, tokens);
      if check.Fail? {
        return Failure(check.error);
      }
      var response := get(ArtistRequest(id));
      if response.status != 200 {
        return Failure(ResponseError(ErrorDetail(response)));
      }
      return Success(response.body);
    }

    method GetArtists(ids: seq<string>, now: Instant, tokens: TokenEndpoint, get: Request -> Response<seq<ArtistData>>,
                      complete: nat -> seq<nat>) returns (r: Result<seq<ArtistData>, Error>)
      requires CompletionOrders(complete)
      modifies api, api.auth.Obj(), tokens
      ensures Guarded(old(api.EnsureValidOutcome(now, tokens)), r, SeveralArtistsResult(get, complete, ids))
      ensures api.TokenChecked(now, tokens)
    {
      var check := api.EnsureValidToken(now, tokens);
      if check.Fail? {
        return Failure(check.error);
      }
      var futures := SubmitChunks(get, SeveralArtistsShape(), ids, ArtistBatch);
      assert IsPermutation(complete(|futures|), |futures|);
      r := Gather(futures, complete(|futures|));
    }

    method GetArtistAlbums(id: string, groups: seq<Group>, market: Option<string>, limit: Option<int>, offset: int,
                           now: Instant, tokens: TokenEndpoint, get: Request -> Response<Page<SimplifiedAlbum>>,
                           complete: nat -> seq<nat>) returns (r: Result<seq<SimplifiedAlbum>, Error>)
      requires CompletionOrders(complete)
      modifies api, api.auth.Obj(), tokens
      ensures Guarded(old(api.EnsureValidOutcome(now, tokens)), r, ArtistAlbumsResult(get, complete, id, groups, market, limit, offset))
      ensures api.TokenChecked(now, tokens)
    {
      var check := api.EnsureValidToken(now, tokens);
      if check.Fail? {
        return Failure(check.error);
      }
      var probe := ArtistAlbumsProbe(id, groups, market, limit, offset);
      r := FetchPaged(get, complete, probe, probe, limit, true);
    }

    method GetArtistTopTracks(id: string, market: Option<string>, now: Instant, tokens: TokenEndpoint,
                              get: Request -> Response<seq<Track>>) returns (r: Result<seq<Track>, Error>)
      modifies api, api.auth.Obj(), tokens
      ensures Guarded(old(api.EnsureValidOutcome(now, tokens)), r, Fetch(get, TopTracksRequest(id, market)))
      ensures api.TokenChecked(now, tokens)
    {
      var check := api.EnsureValidToken(now, tokens);
      if check.Fail? {
        return Failure(check.error);
      }
      var response := get(TopTracksRequest(id, market));
      if response.status != 200 {
        return Failure(ResponseError(ErrorDetail(response)));
      }
      return Success(response.body);
    }

    method GetArtistRelatedArtists(id: string, now: Instant, tokens: TokenEndpoint, get: Request -> Response<seq<ArtistData>>)
      returns (r: Result<seq<ArtistData>, Error>)
      modifies api, api.auth.Obj(), tokens
      ensures Guarded(old(api.EnsureValidOutcome(now, tokens)), r, Fetch(get, RelatedArtistsRequest(id)))
      ensures api.TokenChecked(now, tokens)
    {
      var check := api.EnsureValidToken(now, tokens);
      if check.Fail? {
        return Failure(check.error);
      }
      var response := get(RelatedArtistsRequest(id));
      if response.status != 200 {
        return Failure(ResponseError(ErrorDetail(response)));
      }
      return Success(response.body);
    }
  }
}

=== FILE: auth_utils.dfy ===
/** wspotify/authorization/utils.py: random strings and redirect-query lookups. */
module AuthUtils {
  import opened Wrappers
  import opened Exceptions

  /** A parsed query string: each key with its values in order (what `parse_qs` returns). */
  type Query = map<string, seq<string>>

  /** `string.ascii_letters + string.digits` has 62 characters. */
  const AlphabetSize: nat := 62

  /** The character at position `k` of `string.ascii_letters + string.digits` (a-z, A-Z, 0-9). */
  function AlphabetAt(k: nat): (c: char)
    requires k < AlphabetSize
    ensures IsAlphanumeric(c)
  {
    if k < 26 then (('a' as int) + k) as char
    else if k < 52 then (('A' as int) + (k - 26)) as char
    else (('0' as int) + (k - 52)) as char
  }

  /** An ASCII letter or digit. */
  predicate IsAlphanumeric(c: char) {
    ('a' <= c <= 'z') || ('A' <= c <= 'Z') || ('0' <= c <= '9')
  }

  /** Every character of the alphabet is an ASCII letter or digit, and every such character is in it. */
  lemma AlphabetIsAlphanumeric(c: char)
    ensures IsAlphanumeric(c) <==> exists k :: 0 <= k < AlphabetSize && AlphabetAt(k) == c
  {
    if IsAlphanumeric(c) {
      var k: nat :=
        if 'a' <= c <= 'z' then (c as int) - ('a' as int)
        else if 'A' <= c <= 'Z' then 26 + (c as int) - ('A' as int)
        else 52 + (c as int) - ('0' as int);
      assert AlphabetAt(k) == c;
    }
  }

  /**
   * `generate_random_string(length)`: `length` independent `secrets.choice` draws from the alphabet;
   * the randomness is the parameter `draw`, giving the position chosen by the i-th draw.
   */
  function GenerateRandomString(length: nat, draw: nat -> nat): (s: string)
    ensures |s| == length
    ensures forall i :: 0 <= i < |s| ==> IsAlphanumeric(s[i])
  {
    var s := seq(length, i requires 0 <= i < length => AlphabetAt(draw(i) % AlphabetSize));
    assert forall i :: 0 <= i < length ==> s[i] == AlphabetAt(draw(i) % AlphabetSize);
    s
  }

  /** `query_params.get(key)` when it is a non-empty list: its first value. */
  function FirstValue(q: Query, key: string): (v: Option<string>)
    ensures v.Some? <==> key in q && |q[key]| > 0
    ensures v.Some? ==> v.value == q[key][0]
  {
    if key in q && |q[key]| > 0 then Some(q[key][0]) else None
  }

  /** `parse_code`: the first `code` value, else AuthorizationFailed with the first `error` value or None. */
  function ParseCode(q: Query): (r: Result<string, Error>)
    ensures r.Success? <==> FirstValue(q, "code").Some?
    ensures r.Success? ==> r.value == q["code"][0]
    ensures r.Failure? ==> r.error == AuthorizationFailed(FirstValue(q, "error"))
  {
    match FirstValue(q, "code")
    case Some(code) => Success(code)
    case None => Failure(AuthorizationFailed(FirstValue(q, "error")))
  }

  /** `parse_state`: the first `state` value, else StateNotFound. */
  function ParseState(q: Query): (r: Result<string, Error>)
    ensures r.Success? <==> "state" in q && |q["state"]| > 0
    ensures r.Success? ==> r.value == q["state"][0]
    ensures r.Failure? ==> r.error == StateNotFound
  {
    match FirstValue(q, "state")
    case Some(state) => Success(state)
    case None => Failure(StateNotFound)
  }

  /** The query of a redirect after the user granted access: `code`, and `state` when one was sent. */
  function GrantedRedirect(code: string, state: Option<string>): (q: Query)
    ensures q.Keys == if state.Some? then {"code", "state"} else {"code"}
  {
    if state.Some? then map["code" := [code], "state" := [state.value]] else map["code" := [code]]
  }

  /** The query of a redirect after the user denied access. */
  function DeniedRedirect(error: string, state: Option<string>): (q: Query)
    ensures "code" !in q
  {
    if state.Some? then map["error" := [error], "state" := [state.value]] else map["error" := [error]]
  }

  /** Parsing a granted redirect recovers the code and the state it carries. */
  lemma ParseGrantedRedirect(code: string, state: Option<string>)
    ensures ParseCode(GrantedRedirect(code, state)) == Success(code)
    ensures ParseState(GrantedRedirect(code, state)) == if state.Some? then Success(state.value) else Failure(StateNotFound)
  {
  }

  /** Parsing a denied redirect reports the error it carries. */
  lemma ParseDeniedRedirect(error: string, state: Option<string>)
    ensures ParseCode(DeniedRedirect(error, state)) == Failure(AuthorizationFailed(Some(error)))
  {
  }
}

=== FILE: authorization_code.dfy ===
/** wspotify/authorization/authorization_code.py: the authorization code flow. */
module AuthorizationCodeFlow {
  import opened Wrappers
  import opened Tokens
  import opened Scopes
  import opened Text
  import opened Exceptions
  import opened Http
  import opened AuthUtils
  import opened TokenTransport
  import opened FlowCommon

  /** The fixed head of the authorize query, in insertion order. */
  function AuthorizeHead(clientId: string, redirectUri: string, showDialog: bool): (ps: Params)
    ensures Keys(ps) == {"client_id", "response_type", "redirect_uri", "show_dialog"}
    ensures Lookup(ps, "client_id") == Some(Str(clientId)) && Lookup(ps, "response_type") == Some(Str("code"))
    ensures Lookup(ps, "redirect_uri") == Some(Str(redirectUri)) && Lookup(ps, "show_dialog") == Some(Bool(showDialog))
  {
    var ps := [("client_id", Str(clientId)), ("response_type", Str("code")), ("redirect_uri", Str(redirectUri)), ("show_dialog", Bool(showDialog))];
    LookupAt(ps, 0);
    LookupAt(ps, 1);
    LookupAt(ps, 2);
    LookupAt(ps, 3);
    KeysAre(ps);
    ps
  }

  class AuthorizationCode {
    const clientId: string
    const clientSecret: string
    const redirectUri: string
    const state: Option<string>
    const scopes: seq<Scope>
    const showDialog: bool
    const tokenUrl: string
    var accessToken: Option<AccessToken>

    constructor(clientId: string, clientSecret: string, redirectUri: string, state: Option<string>,
                scopes: seq<Scope>, showDialog: bool)
      ensures this.clientId == clientId && this.clientSecret == clientSecret && this.redirectUri == redirectUri
      ensures this.state == state && this.scopes == scopes && this.showDialog == showDialog
      ensures tokenUrl == TokenUrl && accessToken == None
    {
      this.clientId := clientId;
      this.clientSecret := clientSecret;
      this.redirectUri := redirectUri;
      this.state := state;
      this.scopes := scopes;
      this.showDialog := showDialog;
      this.tokenUrl := TokenUrl;
      accessToken := None;
    }

    /**
     * `get_authorization_url`: with `open_in_browser` the URL is handed to the browser and nothing is
     * returned; otherwise the authorize URL carries the client ID, `response_type=code`, the redirect
     * URI and `show_dialog`, then `state` only when it is truthy and `scope` only when scopes were given.
     */
    function GetAuthorizationUrl(openInBrowser: bool): (u: Option<Url>)
      ensures u.None? <==> openInBrowser
      ensures u.Some? ==> u.value.base == AuthorizeUrl
      ensures u.Some? ==> (Lookup(u.value.params, "client_id") == Some(Str(clientId))
        && Lookup(u.value.params, "response_type") == Some(Str("code"))
        && Lookup(u.value.params, "redirect_uri") == Some(Str(redirectUri))
        && Lookup(u.value.params, "show_dialog") == Some(Bool(showDialog)))
      ensures u.Some? ==> (Lookup(u.value.params, "state").Some? <==> StateIsSet(state))
      ensures u.Some? && StateIsSet(state) ==> Lookup(u.value.params, "state") == Some(Str(state.value))
      ensures u.Some? ==> (Lookup(u.value.params, "scope").Some? <==> |scopes| > 0)
      ensures u.Some? && |scopes| > 0 ==> Lookup(u.value.params, "scope") == Some(Str(Join(Values(scopes), ' ')))
      ensures u.Some? ==> Keys(u.value.params) <= {"client_id", "response_type", "redirect_uri", "show_dialog", "state", "scope"}
    {
      if openInBrowser then None
      else
        var head := AuthorizeHead(clientId, redirectUri, showDialog);
        var tail := OptionalAuthorizeParams(state, scopes);
        LookupAppend(head, tail, "client_id");
        LookupAppend(head, tail, "response_type");
        LookupAppend(head, tail, "redirect_uri");
        LookupAppend(head, tail, "show_dialog");
        LookupAppend(head, tail, "state");
        LookupAppend(head, tail, "scope");
        Some(Url(AuthorizeUrl, head + tail))
    }

    /**
     * `parse_redirect_uri`: the code, unless the redirect carries no code (AuthorizationFailed) or
     * carries a state different from this flow's (InvalidState); a redirect without a state passes.
     */
    function ParseRedirectUri(q: Query): (r: Result<string, Error>)
      ensures ParseCode(q).Failure? ==> r == ParseCode(q)
      ensures r.Success? ==> ParseCode(q) == Success(r.value)
      ensures r == Failure(InvalidState) <==>
        ParseCode(q).Success? && ParseState(q).Success? && Some(ParseState(q).value) != state
      ensures r.Failure? ==> r.error == InvalidState || r.error.AuthorizationFailed?
    {
      match ParseCode(q)
      case Failure(e) => Failure(e)
      case Success(code) =>
        match ParseState(q)
        case Failure(_) => Success(code)
        case Success(s) => if Some(s) != state then Failure(InvalidState) else Success(code)
    }

    /** The token request exchanging an authorization code. */
    function AccessTokenRequest(code: string): (req: TokenRequest)
      ensures req.url == tokenUrl && req.basicCredentials == Some(BasicCredentials(clientId, clientSecret))
      ensures FormField(req.form, "grant_type") == Some(Some("authorization_code"))
      ensures FormField(req.form, "code") == Some(Some(code))
      ensures FormField(req.form, "redirect_uri") == Some(Some(redirectUri))
    {
      var form := [("code", Some(code)), ("redirect_uri", Some(redirectUri)), ("grant_type", Some("authorization_code"))];
      FormFieldAt(form, 0);
      FormFieldAt(form, 1);
      FormFieldAt(form, 2);
      TokenRequest(tokenUrl, Some(BasicCredentials(clientId, clientSecret)), form)
    }

    /** The token request refreshing with `refreshToken`. */
    function RefreshRequest(refreshToken: Option<string>): (req: TokenRequest)
      ensures req.url == tokenUrl && req.basicCredentials == Some(BasicCredentials(clientId, clientSecret))
      ensures FormField(req.form, "grant_type") == Some(Some("refresh_token"))
      ensures FormField(req.form, "refresh_token") == Some(refreshToken)
    {
      TokenRequest(tokenUrl, Some(BasicCredentials(clientId, clientSecret)),
        [("grant_type", Some("refresh_token")), ("refresh_token", refreshToken)])
    }

    /** What `refresh_access_token` would do at `now`: raise, return at once, or post this request. */
    function RefreshPlan(explicit: Option<string>, now: Instant): (plan: Result<Option<TokenRequest>, Error>)
      reads this
      ensures plan == Failure(AccessTokenNotFound) <==> accessToken.None? && explicit.None?
      ensures plan == Success(None) <==> accessToken.Some? && Valid(accessToken.value, now)
      ensures plan.Success? && plan.value.Some? ==> plan.value.value == RefreshRequest(RefreshDecision(accessToken, explicit, now).refreshToken)
    {
      match RefreshDecision(accessToken, explicit, now)
      case NoTokenToRefresh => Failure(AccessTokenNotFound)
      case StillValid => Success(None)
      case Send(t) => Success(Some(RefreshRequest(t)))
    }

    /** `get_access_token(code)` at `now`: one POST; the decoded reply becomes the stored token, or the error is raised. */
    method GetAccessToken(code: string, now: Instant, endpoint: TokenEndpoint) returns (r: Outcome<Error>)
      modifies this, endpoint
      ensures endpoint.sent == old(endpoint.sent) + [AccessTokenRequest(code)]
      ensures Settled(Exchange(endpoint.respond(AccessTokenRequest(code)), now), r, old(accessToken), accessToken)
    {
      var reply := endpoint.Post(AccessTokenRequest(code));
      var x := Exchange(reply, now);
      if x.Failure? {
        return Fail(x.error);
      }
      accessToken := Some(x.value);
      r := Pass;
    }

    /** `refresh_access_token(refresh_token=explicit)` at the instant `now`. */
    method RefreshAccessToken(explicit: Option<string>, now: Instant, endpoint: TokenEndpoint) returns (r: Outcome<Error>)
      modifies this, endpoint
      ensures match old(RefreshPlan(explicit, now))
        case Failure(e) => r == Fail(e) && accessToken == old(accessToken) && endpoint.sent == old(endpoint.sent)
        case Success(None) => r == Pass && accessToken == old(accessToken) && endpoint.sent == old(endpoint.sent)
        case Success(Some(req)) =>
          (endpoint.sent == old(endpoint.sent) + [req]
           && Settled(Exchange(endpoint.respond(req), now), r, old(accessToken), accessToken))
    {
      var plan := RefreshPlan(explicit, now);
      match plan
      case Failure(e) =>
        return Fail(e);
      case Success(None) =>
        return Pass;
      case Success(Some(req)) =>
        var reply := endpoint.Post(req);
        var x := Exchange(reply, now);
        if x.Failure? {
          return Fail(x.error);
        }
        accessToken := Some(x.value);
        r := Pass;
    }

    /**
     * The redirect the accounts service sends after the user grants access echoes the state the
     * authorize URL carried (none when the state is unset or empty), and parsing it yields the code.
     */
    lemma RedirectRoundTrip(code: string)
      ensures var u := GetAuthorizationUrl(false);
        var echoed := if Lookup(u.value.params, "state").Some? then state else None;
        ParseRedirectUri(GrantedRedirect(code, echoed)) == Success(code)
    {
      ParseGrantedRedirect(code, if StateIsSet(state) then state else None);
    }

    /** A redirect whose state differs from this flow's is refused, whatever code it carries. */
    lemma ForgedStateRefused(code: string, forged: string)
      requires state != Some(forged)
      ensures ParseRedirectUri(GrantedRedirect(code, Some(forged))) == Failure(InvalidState)
    {
      ParseGrantedRedirect(code, Some(forged));
    }
  }
}

=== FILE: base.dfy ===
/** wspotify/base.py: the shared state of every resource class. */
module Base {
  import opened Wrappers
  import opened Tokens
  import opened Scopes
  import opened Exceptions
  import opened TokenTransport
  import opened ClientCredentialsFlow
  import opened AuthorizationCodeFlow
  import opened PkceFlow

  const BaseUrl: string := "https://api.spotify.com/v1"

  /** The value of the client's `Authorization` header for an access token. */
  function Bearer(accessToken: string): (h: string)
    ensures |h| == 7 + |accessToken| && h[..7] == "Bearer " && h[7..] == accessToken
  {
    "Bearer " + accessToken
  }

  /** The authorization flow an APIReference holds: one of the three flow classes. */
  datatype FlowRef =
    | ClientCredentialsRef(cc: ClientCredentials)
    | AuthorizationCodeRef(ac: AuthorizationCode)
    | PkceRef(pkce: AuthorizationCodePkce)
  {
    /** The flow object itself. */
    function Obj(): object {
      match this
      case ClientCredentialsRef(f) => f
      case AuthorizationCodeRef(f) => f
      case PkceRef(f) => f
    }

    /** `auth.access_token`. */
    function Token(): Option<AccessToken>
      reads Obj()
    {
      match this
      case ClientCredentialsRef(f) => f.accessToken
      case AuthorizationCodeRef(f) => f.accessToken
      case PkceRef(f) => f.accessToken
    }

    /** `hasattr(auth, "scopes")`: every flow but client credentials has a scope list. */
    predicate HasScopes() {
      !ClientCredentialsRef?
    }

    function Scopes(): seq<Scope>
      requires HasScopes()
    {
      match this
      case AuthorizationCodeRef(f) => f.scopes
      case PkceRef(f) => f.scopes
    }

    /**
     * What `auth.refresh_access_token()` (no explicit refresh token) does at `now`: the code flows
     * decide by the stored token; client credentials always requests a new token.
     */
    function RefreshPlan(now: Instant): (plan: Result<Option<TokenRequest>, Error>)
      reads Obj()
      ensures ClientCredentialsRef? ==> plan == Success(Some(cc.AccessTokenRequest()))
      ensures !ClientCredentialsRef? && Token().Some? && !Valid(Token().value, now) ==> plan.Success? && plan.value.Some?
      ensures !ClientCredentialsRef? && Token().Some? && Valid(Token().value, now) ==> plan == Success(None)
      ensures !ClientCredentialsRef? && Token().None? ==> plan == Failure(AccessTokenNotFound)
    {
      match this
      case ClientCredentialsRef(f) => Success(Some(f.AccessTokenRequest()))
      case AuthorizationCodeRef(f) => f.RefreshPlan(None, now)
      case PkceRef(f) => f.RefreshPlan(None, now)
    }
  }

  /** `auth.refresh_access_token()` dispatched to the flow's own method. */
  method Refresh(flow: FlowRef, now: Instant, endpoint: TokenEndpoint) returns (r: Outcome<Error>)
    modifies flow.Obj(), endpoint
    ensures match old(flow.RefreshPlan(now))
      case Failure(e) => r == Fail(e) && flow.Token() == old(flow.Token()) && endpoint.sent == old(endpoint.sent)
      case Success(None) => r == Pass && flow.Token() == old(flow.Token()) && endpoint.sent == old(endpoint.sent)
      case Success(Some(req)) =>
        (endpoint.sent == old(endpoint.sent) + [req]
         && Settled(Exchange(endpoint.respond(req), now), r, old(flow.Token()), flow.Token()))
  {
    match flow
    case ClientCredentialsRef(f) =>
      r := f.RefreshAccessToken(now, endpoint);
    case AuthorizationCodeRef(f) =>
      r := f.RefreshAccessToken(None, now, endpoint);
    case PkceRef(f) =>
      r := f.RefreshAccessToken(None, now, endpoint);
  }

  /** `auth.access_token = t`. */
  method SetToken(flow: FlowRef, t: Option<AccessToken>)
    modifies flow.Obj()
    ensures flow.Token() == t
  {
    match flow
    case ClientCredentialsRef(f) =>
      f.accessToken := t;
    case AuthorizationCodeRef(f) =>
      f.accessToken := t;
    case PkceRef(f) =>
      f.accessToken := t;
  }

  class APIReference {
    const auth: FlowRef
    const baseUrl: string
    /** The `Authorization` header of the HTTP client. */
    var authorization: string

    /** `APIReference.__init__` for a flow that already holds a token. */
    constructor(auth: FlowRef)
      requires auth.Token().Some?
      ensures this.auth == auth && baseUrl == BaseUrl
      ensures authorization == Bearer(auth.Token().value.accessToken)
    {
      this.auth := auth;
      baseUrl := BaseUrl;
      authorization := Bearer(auth.Token().value.accessToken);
    }

    /**
     * `APIReference(flow)`: building the header reads `auth.access_token.access_token`, which
     * raises AttributeError when no token was fetched yet.
     */
    static method Create(auth: FlowRef) returns (r: Result<APIReference, Error>)
      ensures r.Failure? <==> auth.Token().None?
      ensures r.Failure? ==> r.error == AttributeMissing
      ensures r.Success? ==> (fresh(r.value) && r.value.auth == auth && r.value.baseUrl == BaseUrl
        && r.value.authorization == Bearer(auth.Token().value.accessToken))
    {
      if auth.Token().None? {
        return Failure(AttributeMissing);
      }
      var api := new APIReference(auth);
      return Success(api);
    }

    /** The stored token exists and has not expired at `now`: the only case `check_access_token` passes. */
    predicate TokenUsable(now: Instant)
      reads auth.Obj()
    {
      auth.Token().Some? && Valid(auth.Token().value, now)
    }

    /**
     * What `check_access_token` ends with at `now`, given how `endpoint` answers: it passes only for
     * a usable token; a refresh error propagates; a successful refresh still ends in AttributeError.
     */
    function CheckAccessTokenOutcome(now: Instant, endpoint: TokenEndpoint): (o: Outcome<Error>)
      reads auth.Obj()
      ensures o.Pass? <==> TokenUsable(now)
      ensures auth.Token().None? ==> o == Fail(NoActiveException)
      ensures o.Fail? && o.error != NoActiveException && o.error != AttributeMissing ==> o.error.AccessTokenError? || o.error == InvalidTokenBody
    {
      if auth.Token().None? then Fail(NoActiveException)
      else if Valid(auth.Token().value, now) then Pass
      else
        match auth.RefreshPlan(now)
        case Success(Some(req)) =>
          (match Exchange(endpoint.respond(req), now)
           case Failure(e) => Fail(e)
           case Success(_) => Fail(AttributeMissing))
        case _ => Fail(AttributeMissing)
    }

    /**
     * What the evidently intended `check_access_token` ends with: a missing token raises
     * AccessTokenNotFound; a usable one passes; an expired one passes exactly when its refresh does.
     */
    function EnsureValidOutcome(now: Instant, endpoint: TokenEndpoint): (o: Outcome<Error>)
      reads auth.Obj()
      ensures auth.Token().None? ==> o == Fail(AccessTokenNotFound)
      ensures TokenUsable(now) ==> o == Pass
    {
      if auth.Token().None? then Fail(AccessTokenNotFound)
      else if Valid(auth.Token().value, now) then Pass
      else
        match auth.RefreshPlan(now)
        case Success(Some(req)) =>
          (match Exchange(endpoint.respond(req), now)
           case Failure(e) => Fail(e)
           case Success(_) => Pass)
        case Success(None) => Pass
        case Failure(e) => Fail(e)
    }

    /**
     * The two checks agree on a usable token and on every refresh error; they part where the
     * written one fails: no token (a bare `raise` instead of AccessTokenNotFound) and an expired
     * token whose refresh succeeds (AttributeError instead of passing).
     */
    lemma CheckAccessTokenDefect(now: Instant, endpoint: TokenEndpoint)
      ensures TokenUsable(now) ==> CheckAccessTokenOutcome(now, endpoint) == EnsureValidOutcome(now, endpoint) == Pass
      ensures auth.Token().None? ==>
        CheckAccessTokenOutcome(now, endpoint) == Fail(NoActiveException) && EnsureValidOutcome(now, endpoint) == Fail(AccessTokenNotFound)
      ensures auth.Token().Some? && EnsureValidOutcome(now, endpoint).Fail? ==>
        CheckAccessTokenOutcome(now, endpoint) == EnsureValidOutcome(now, endpoint)
      ensures auth.Token().Some? && !Valid(auth.Token().value, now) && EnsureValidOutcome(now, endpoint).Pass? ==>
        CheckAccessTokenOutcome(now, endpoint) == Fail(AttributeMissing)
    {
    }

    /** What `check_scopes(required)` ends with. */
    function ScopeCheck(required: seq<Scope>): (o: Outcome<Error>)
      ensures !auth.HasScopes() ==> o == Fail(InvalidAuthorizationFlow)
      ensures auth.HasScopes() ==> (o == Pass <==> forall s :: s in required ==> s in auth.Scopes())
      ensures auth.HasScopes() && o.Fail? ==> o.error == IncompleteScopesError(required, auth.Scopes())
    {
      if !auth.HasScopes() then Fail(InvalidAuthorizationFlow)
      else
        MissingScopesEmptyIff(required, auth.Scopes());
        if MissingScopes(required, auth.Scopes()) == [] then Pass
        else Fail(IncompleteScopesError(required, auth.Scopes()))
    }

    /**
     * `check_access_token`, as written. A missing token reaches a bare `raise` (no active
     * exception). An expired token is refreshed, but `refresh_access_token` returns None and that
     * None is assigned over the stored token, so rebuilding the header raises AttributeError: an
     * expired token never comes back refreshed, and the flow is left without one.
     */
    method CheckAccessToken(now: Instant, endpoint: TokenEndpoint) returns (r: Outcome<Error>)
      modifies this, auth.Obj(), endpoint
      ensures r == old(CheckAccessTokenOutcome(now, endpoint))
      ensures authorization == old(authorization)
      ensures old(auth.Token()).None? ==>
        r == Fail(NoActiveException) && auth.Token() == old(auth.Token()) && endpoint.sent == old(endpoint.sent)
      ensures old(auth.Token()).Some? && Valid(old(auth.Token()).value, now) ==>
        r == Pass && auth.Token() == old(auth.Token()) && endpoint.sent == old(endpoint.sent)
      ensures old(auth.Token()).Some? && !Valid(old(auth.Token()).value, now) ==>
        && old(auth.RefreshPlan(now)).Success? && old(auth.RefreshPlan(now)).value.Some?
        && var req := old(auth.RefreshPlan(now)).value.value;
           var x := Exchange(endpoint.respond(req), now);
           && endpoint.sent == old(endpoint.sent) + [req]
           && r.Fail?
           && (x.Failure? ==> r.error == x.error && auth.Token() == old(auth.Token()))
           && (x.Success? ==> r.error == AttributeMissing && auth.Token().None?)
    {
      var token := auth.Token();
      if token.None? {
        return Fail(NoActiveException);
      }
      if Valid(token.value, now) {
        return Pass;
      }
      var refreshed := Refresh(auth, now, endpoint);
      if refreshed.Fail? {
        return refreshed;
      }
      SetToken(auth, None);
      return Fail(AttributeMissing);
    }

    /**
     * The state the evidently intended `check_access_token` leaves at `now`: a missing or usable
     * token sends nothing and changes nothing; an expired token sends exactly its refresh request,
     * and a successful refresh stores the new token and rebuilds the header from it, while a failed
     * one leaves token and header as they were.
     */
    twostate predicate TokenChecked(now: Instant, endpoint: TokenEndpoint)
      reads this, auth.Obj(), endpoint
    {
      if old(auth.Token()).None? || Valid(old(auth.Token()).value, now) then
        auth.Token() == old(auth.Token()) && authorization == old(authorization) && endpoint.sent == old(endpoint.sent)
      else
        && old(auth.RefreshPlan(now)).Success? && old(auth.RefreshPlan(now)).value.Some?
        && var req := old(auth.RefreshPlan(now)).value.value;
           var x := Exchange(endpoint.respond(req), now);
           && endpoint.sent == old(endpoint.sent) + [req]
           && (x.Failure? ==> auth.Token() == old(auth.Token()) && authorization == old(authorization))
           && (x.Success? ==> auth.Token() == Some(x.value) && authorization == Bearer(x.value.accessToken))
    }

    /**
     * The evidently intended `check_access_token`: a missing token raises AccessTokenNotFound, and an
     * expired token is refreshed in place, after which the header carries the new token.
     */
    method EnsureValidToken(now: Instant, endpoint: TokenEndpoint) returns (r: Outcome<Error>)
      modifies this, auth.Obj(), endpoint
      ensures r == old(EnsureValidOutcome(now, endpoint))
      ensures TokenChecked(now, endpoint)
      ensures old(auth.Token()).None? ==> r == Fail(AccessTokenNotFound)
      ensures old(auth.Token()).Some? && Valid(old(auth.Token()).value, now) ==> r == Pass
      ensures old(auth.Token()).Some? && !Valid(old(auth.Token()).value, now) ==>
        var x := Exchange(endpoint.respond(old(auth.RefreshPlan(now)).value.value), now);
        && (x.Failure? ==> r == Fail(x.error))
        && (x.Success? ==> r == Pass)
      ensures r.Pass? ==> auth.Token().Some?
    {
      var token := auth.Token();
      if token.None? {
        return Fail(AccessTokenNotFound);
      }
      if Valid(token.value, now) {
        return Pass;
      }
      var refreshed := Refresh(auth, now, endpoint);
      if refreshed.Fail? {
        return refreshed;
      }
      authorization := Bearer(auth.Token().value.accessToken);
      return Pass;
    }

    /**
     * `check_scopes(required)`: a flow without scopes raises InvalidAuthorizationFlow; otherwise the
     * first required scope the flow lacks raises IncompleteScopes naming every missing scope.
     */
    method CheckScopes(required: seq<Scope>) returns (r: Outcome<Error>)
      ensures r == ScopeCheck(required)
      ensures !auth.HasScopes() ==> r == Fail(InvalidAuthorizationFlow)
      ensures auth.HasScopes() ==> (r == Pass <==> forall s :: s in required ==> s in auth.Scopes())
      ensures auth.HasScopes() && r.Fail? ==>
        r.error == IncompleteScopesError(required, auth.Scopes()) && |r.error.missing| > 0
    {
      if !auth.HasScopes() {
        return Fail(InvalidAuthorizationFlow);
      }
      var granted := auth.Scopes();
      for i := 0 to |required|
        invariant forall k :: 0 <= k < i ==> required[k] in granted
      {
        if required[i] !in granted {
          MissingScopesEmptyIff(required, granted);
          return Fail(IncompleteScopesError(required, granted));
        }
      }
      return Pass;
    }
  }

  /** An endpoint's result behind `check_access_token`: its error when the check fails, else the call's own result. */
  ghost predicate Guarded<T>(check: Outcome<Error>, r: Result<T, Error>, call: Result<T, Error>) {
    match check
    case Fail(e) => r == Failure(e)
    case Pass => r == call
  }
}

=== FILE: batching.dfy ===
/**
 * ID batching of wspotify/album.py and wspotify/artist.py: the IDs are cut into chunks of at
 * most 20 (albums) or 100 (artists), one request per chunk is submitted, and the replies are
 * merged in completion order.
 */
module Batching {
  import opened Wrappers
  import opened Exceptions
  import opened Text
  import opened Http
  import opened FanIn

  const AlbumBatch: nat := 20
  const ArtistBatch: nat := 100

  /** `[ids[index : index + size] for index in range(0, len(ids), size)]`. */
  function Chunks<T>(xs: seq<T>, size: nat): (cs: seq<seq<T>>)
    requires size > 0
    ensures forall i :: 0 <= i < |cs| ==> 0 < |cs[i]| <= size
    ensures forall i :: 0 <= i < |cs| - 1 ==> |cs[i]| == size
    ensures |cs| == 0 <==> |xs| == 0
    decreases |xs|
  {
    if xs == [] then []
    else if |xs| <= size then [xs]
    else [xs[..size]] + Chunks(xs[size..], size)
  }

  function Concat<T>(cs: seq<seq<T>>): seq<T> {
    if cs == [] then [] else cs[0] + Concat(cs[1..])
  }

  /** Chunking loses and reorders nothing: the chunks concatenate back to the IDs. */
  lemma {:induction false} ChunksConcat<T>(xs: seq<T>, size: nat)
    requires size > 0
    ensures Concat(Chunks(xs, size)) == xs
    decreases |xs|
  {
    if |xs| > size {
      var cs := Chunks(xs, size);
      ChunksConcat(xs[size..], size);
      assert cs[1..] == Chunks(xs[size..], size);
      assert xs == xs[..size] + xs[size..];
    } else if xs != [] {
      assert Concat(Chunks(xs, size)) == xs + Concat<T>([]);
    }
  }

  /** One more chunk starts one chunk size further on. */
  lemma NextMultiple(k: nat, size: nat)
    ensures k * size + size == (k + 1) * size
  {
  }

  /** Chunk `k` is the slice `ids[k * size : (k + 1) * size]`, cut at the end of the IDs. */
  lemma {:induction false} ChunkAt<T>(xs: seq<T>, size: nat, k: nat)
    requires size > 0 && k < |Chunks(xs, size)|
    ensures k * size < |xs|
    ensures Chunks(xs, size)[k] == xs[k * size .. if (k + 1) * size <= |xs| then (k + 1) * size else |xs|]
    decreases |xs|
  {
    if k == 0 {
      if |xs| <= size {
        assert Chunks(xs, size) == [xs];
      } else {
        assert Chunks(xs, size)[0] == xs[..size];
      }
    } else {
      assert |xs| > size;
      var rest := xs[size..];
      assert Chunks(xs, size) == [xs[..size]] + Chunks(rest, size);
      ChunkAt(rest, size, k - 1);
      var lo := (k - 1) * size;
      NextMultiple(k - 1, size);
      NextMultiple(k, size);
      var hi := if k * size <= |rest| then k * size else |rest|;
      assert Chunks(rest, size)[k - 1] == rest[lo..hi];
      assert rest[lo..hi] == xs[lo + size..hi + size];
    }
  }

  lemma ConcatAppend<T>(a: seq<seq<T>>, b: seq<seq<T>>)
    ensures Concat(a + b) == Concat(a) + Concat(b)
  {
    if a != [] {
      assert (a + b)[1..] == a[1..] + b;
      ConcatAppend(a[1..], b);
    } else {
      assert a + b == b;
    }
  }

  lemma {:induction false} InConcat(cs: seq<seq<string>>, i: nat, x: string)
    requires i < |cs| && x in cs[i]
    ensures x in Concat(cs)
  {
    if i > 0 {
      InConcat(cs[1..], i - 1, x);
    }
  }

  predicate Distinct(xs: seq<string>) {
    forall i, j :: 0 <= i < j < |xs| ==> xs[i] != xs[j]
  }

  /** Cutting distinct IDs at `n` gives two distinct, disjoint halves. */
  lemma DistinctSplit(xs: seq<string>, n: nat)
    requires Distinct(xs) && n <= |xs|
    ensures Distinct(xs[..n]) && Distinct(xs[n..])
    ensures forall x :: x in xs[..n] ==> x !in xs[n..]
  {
    forall x | x in xs[..n] ensures x !in xs[n..] {
      var a :| 0 <= a < n && xs[..n][a] == x;
      forall b | 0 <= b < |xs| - n ensures xs[n..][b] != x {
        assert xs[a] != xs[n + b];
      }
    }
    forall i, j | 0 <= i < j < |xs| - n ensures xs[n..][i] != xs[n..][j] {
      assert xs[n..][i] == xs[n + i] && xs[n..][j] == xs[n + j];
    }
  }

  /** Distinct IDs give chunks that are each free of repeats and pairwise disjoint. */
  lemma {:induction false} ChunksDisjoint(xs: seq<string>, size: nat)
    requires size > 0 && Distinct(xs)
    ensures forall i :: 0 <= i < |Chunks(xs, size)| ==> Distinct(Chunks(xs, size)[i])
    ensures forall i, j, x :: 0 <= i < j < |Chunks(xs, size)| && x in Chunks(xs, size)[i] ==> x !in Chunks(xs, size)[j]
    decreases |xs|
  {
    if |xs| > size {
      var cs := Chunks(xs, size);
      var rest := xs[size..];
      var tail := Chunks(rest, size);
      assert cs == [xs[..size]] + tail;
      DistinctSplit(xs, size);
      ChunksDisjoint(rest, size);
      ChunksConcat(rest, size);
      forall j, x | 0 < j < |cs| && x in cs[0] ensures x !in cs[j] {
        if x in cs[j] {
          InConcat(tail, j - 1, x);
        }
      }
    }
  }

  /** How the IDs of one chunk travel: as a comma-joined `ids` query parameter, or as a JSON body. */
  datatype BatchShape = QueryIds(path: string, params: Params) | BodyIds(verb: Verb, path: string)

  /** The request submitted for one chunk. */
  function ChunkRequest(shape: BatchShape, chunk: seq<string>): (r: Request)
    ensures shape.QueryIds? ==>
      && r.verb == Get && r.path == shape.path && r.jsonIds.None?
      && Lookup(r.params, "ids") == Some(Str(Join(chunk, ',')))
      && forall k :: k != "ids" ==> Lookup(r.params, k) == Lookup(shape.params, k)
    ensures shape.BodyIds? ==> r.verb == shape.verb && r.path == shape.path && r.params == [] && r.jsonIds == Some(chunk)
  {
    match shape
    case QueryIds(path, params) => Request(Get, path, SetParam(params, "ids", Str(Join(chunk, ','))), None)
    case BodyIds(verb, path) => Request(verb, path, [], Some(chunk))
  }

  /** The joined `ids` parameter gives back exactly the chunk's IDs, provided no ID holds a comma. */
  lemma IdsParamRoundTrip(path: string, params: Params, chunk: seq<string>)
    requires |chunk| > 0 && forall id :: id in chunk ==> ',' !in id
    ensures var r := ChunkRequest(QueryIds(path, params), chunk);
      Lookup(r.params, "ids").Some? && Lookup(r.params, "ids").value.Str? &&
      Split(Lookup(r.params, "ids").value.s, ',') == chunk
  {
    SplitJoin(chunk, ',');
  }

  function ChunkRequests(shape: BatchShape, chunks: seq<seq<string>>): (rs: seq<Request>)
    ensures |rs| == |chunks| && forall i :: 0 <= i < |rs| ==> rs[i] == ChunkRequest(shape, chunks[i])
  {
    seq(|chunks|, i requires 0 <= i < |chunks| => ChunkRequest(shape, chunks[i]))
  }

  lemma ChunkRequestsStep<B>(get: Request -> Response<B>, shape: BatchShape, done: seq<seq<string>>, chunk: seq<string>)
    ensures Futures(get, ChunkRequests(shape, done + [chunk])) == Futures(get, ChunkRequests(shape, done)) + [get(ChunkRequest(shape, chunk))]
  {
    assert ChunkRequests(shape, done + [chunk]) == ChunkRequests(shape, done) + [ChunkRequest(shape, chunk)];
    FuturesAppend(get, ChunkRequests(shape, done), [ChunkRequest(shape, chunk)]);
  }

  lemma ChunksStep(ids: seq<string>, index: nat, size: nat)
    requires size > 0 && index < |ids|
    ensures var end := if index + size <= |ids| then index + size else |ids|;
      Chunks(ids[index..], size) == [ids[index..end]] + Chunks(ids[end..], size)
  {
    if index + size < |ids| {
      assert ids[index..][..size] == ids[index..index + size];
      assert ids[index..][size..] == ids[index + size..];
    } else {
      assert ids[index..|ids|] == ids[index..];
      assert ids[|ids|..] == [];
    }
  }

  /** The query parameters after the loop has assigned the `ids` of the chunks `done`. */
  function IdsParamsAfter(base: Params, done: seq<seq<string>>): Params {
    if done == [] then base else SetParam(base, "ids", Str(Join(done[|done| - 1], ',')))
  }

  lemma IdsParamsAfterStep(base: Params, done: seq<seq<string>>, chunk: seq<string>)
    ensures SetParam(IdsParamsAfter(base, done), "ids", Str(Join(chunk, ','))) == IdsParamsAfter(base, done + [chunk])
  {
    if done != [] {
      SetParamTwice(base, "ids", Str(Join(done[|done| - 1], ',')), Str(Join(chunk, ',')));
    }
  }

  /**
   * The submission loop `for index in range(0, len(ids), size)`: for query batches the
   * parameter dict persists and only its `ids` entry is reassigned; body batches send
   * `{"ids": chunk}`.
   */
  method SubmitChunks<B>(get: Request -> Response<B>, shape: BatchShape, ids: seq<string>, size: nat)
    returns (futures: seq<Response<B>>)
    requires size > 0
    ensures futures == Futures(get, ChunkRequests(shape, Chunks(ids, size)))
  {
    futures := [];
    var params := if shape.QueryIds? then shape.params else [];
    var index := 0;
    ghost var done: seq<seq<string>> := [];
    while index < |ids|
      invariant index <= |ids|
      invariant done + Chunks(ids[index..], size) == Chunks(ids, size)
      invariant shape.QueryIds? ==> params == IdsParamsAfter(shape.params, done)
      invariant futures == Futures(get, ChunkRequests(shape, done))
      decreases |ids| - index
    {
      var end := if index + size <= |ids| then index + size else |ids|;
      var chunk := ids[index..end];
      var request;
      if shape.QueryIds? {
        IdsParamsAfterStep(shape.params, done, chunk);
        params := SetParam(params, "ids", Str(Join(chunk, ',')));
        assert params == IdsParamsAfter(shape.params, done + [chunk]) == SetParam(shape.params, "ids", Str(Join(chunk, ',')));
        request := Request(Get, shape.path, params, None);
      } else {
        request := Request(shape.verb, shape.path, [], Some(chunk));
      }
      assert request == ChunkRequest(shape, chunk);
      ChunkRequestsStep(get, shape, done, chunk);
      futures := futures + [get(request)];
      ChunksStep(ids, index, size);
      assert Chunks(ids[index..], size) == [chunk] + Chunks(ids[end..], size);
      assert done + ([chunk] + Chunks(ids[end..], size)) == (done + [chunk]) + Chunks(ids[end..], size);
      done := done + [chunk];
      index := end;
    }
    assert ids[|ids|..] == [];
  }

  /** How many pairs `zip(keys, flags)` yields. */
  function ZipLength(keys: seq<string>, flags: seq<bool>): (n: nat)
    ensures n <= |keys| && n <= |flags| && (n == |keys| || n == |flags|)
  {
    if |keys| <= |flags| then |keys| else |flags|
  }

  /** `for id, exists in zip(keys, flags): result[id] = exists`. */
  function ZipInto(m: map<string, bool>, keys: seq<string>, flags: seq<bool>): (r: map<string, bool>)
    ensures forall k :: k in r <==> k in m || k in keys[..ZipLength(keys, flags)]
    decreases |flags|
  {
    if keys == [] || flags == [] then m
    else
      var r := ZipInto(m[keys[0] := flags[0]], keys[1..], flags[1..]);
      assert keys[..ZipLength(keys, flags)] == [keys[0]] + keys[1..][..ZipLength(keys[1..], flags[1..])];
      r
  }

  /** Zipping distinct keys with as many flags maps each key to its own flag and leaves other keys alone. */
  lemma {:induction false} ZipIntoDistinct(m: map<string, bool>, keys: seq<string>, flags: seq<bool>)
    requires Distinct(keys) && |flags| == |keys|
    ensures forall p :: 0 <= p < |keys| ==> ZipInto(m, keys, flags)[keys[p]] == flags[p]
    ensures forall k :: k in m && k !in keys ==> ZipInto(m, keys, flags)[k] == m[k]
    decreases |keys|
  {
    if keys != [] {
      assert Distinct(keys[1..]) by {
        forall i, j | 0 <= i < j < |keys| - 1 ensures keys[1..][i] != keys[1..][j] {
          assert keys[1..][i] == keys[i + 1] && keys[1..][j] == keys[j + 1];
        }
      }
      ZipIntoDistinct(m[keys[0] := flags[0]], keys[1..], flags[1..]);
      assert keys[0] !in keys[1..] by {
        forall b | 0 <= b < |keys| - 1 ensures keys[1..][b] != keys[0] {
          assert keys[b + 1] != keys[0];
        }
      }
      forall p | 1 <= p < |keys| ensures ZipInto(m, keys, flags)[keys[p]] == flags[p] {
        assert keys[p] == keys[1..][p - 1];
      }
    }
  }

  /**
   * The merge loop: replies taken in completion `order`; a non-200 reply raises `ResponseError`,
   * otherwise its flags are zipped with `keys[i]`, the keys the merge pairs with reply `i`.
   */
  function ZipAll(m: map<string, bool>, replies: seq<Response<seq<bool>>>, order: seq<nat>, keys: seq<seq<string>>)
    : Result<map<string, bool>, Error>
    requires InRange(order, |replies|) && |keys| == |replies|
    decreases |order|
  {
    if order == [] then Success(m)
    else
      var reply := replies[order[0]];
      if reply.status != 200 then Failure(ResponseError(ErrorDetail(reply)))
      else ZipAll(ZipInto(m, keys[order[0]], reply.body), replies, order[1..], keys)
  }

  /** The merge fails exactly when some reply is not 200, with the error of the first such reply to complete. */
  lemma {:induction false} ZipAllFailure(m: map<string, bool>, replies: seq<Response<seq<bool>>>, order: seq<nat>, keys: seq<seq<string>>)
    requires InRange(order, |replies|) && |keys| == |replies|
    ensures ZipAll(m, replies, order, keys).Failure? <==> FirstFailure(replies, order).Some?
    ensures ZipAll(m, replies, order, keys).Failure? ==> ZipAll(m, replies, order, keys).error == FirstFailure(replies, order).value
    decreases |order|
  {
    if order != [] && replies[order[0]].status == 200 {
      ZipAllFailure(ZipInto(m, keys[order[0]], replies[order[0]].body), replies, order[1..], keys);
    }
  }

  /** The same merge written as the nested loops of the source. */
  method MergeZipped(replies: seq<Response<seq<bool>>>, order: seq<nat>, keys: seq<seq<string>>)
    returns (r: Result<map<string, bool>, Error>)
    requires InRange(order, |replies|) && |keys| == |replies|
    ensures r == ZipAll(map[], replies, order, keys)
  {
    var result: map<string, bool> := map[];
    for k := 0 to |order|
      invariant ZipAll(map[], replies, order, keys) == ZipAll(result, replies, order[k..], keys)
    {
      assert order[k..][1..] == order[k + 1..];
      var reply := replies[order[k]];
      if reply.status != 200 {
        return Failure(ResponseError(ErrorDetail(reply)));
      }
      var ids := keys[order[k]];
      ghost var before := result;
      var j := 0;
      while j < |ids| && j < |reply.body|
        invariant 0 <= j <= |ids| && j <= |reply.body|
        invariant ZipInto(before, ids, reply.body) == ZipInto(result, ids[j..], reply.body[j..])
      {
        assert ids[j..][1..] == ids[j + 1..] && reply.body[j..][1..] == reply.body[j + 1..];
        result := result[ids[j] := reply.body[j]];
        j := j + 1;
      }
    }
    assert order[|order|..] == [];
    r := Success(result);
  }

  /**
   * Keys of different replies never collide when each reply is zipped with its own chunk of
   * distinct IDs: every chunk's IDs map to that reply's flags, whatever the completion order,
   * and keys of chunks not merged keep their earlier value.
   */
  lemma {:induction false} ZipAllPerChunk(m: map<string, bool>, replies: seq<Response<seq<bool>>>, order: seq<nat>, chunks: seq<seq<string>>)
    requires InRange(order, |replies|) && |chunks| == |replies|
    requires forall i, j :: 0 <= i < j < |order| ==> order[i] != order[j]
    requires forall i :: 0 <= i < |chunks| ==> Distinct(chunks[i]) && |replies[i].body| == |chunks[i]|
    requires forall i, j, x :: 0 <= i < |chunks| && 0 <= j < |chunks| && i != j && x in chunks[i] ==> x !in chunks[j]
    requires forall i :: 0 <= i < |replies| ==> replies[i].status == 200
    ensures ZipAll(m, replies, order, chunks).Success?
    ensures forall i, p :: i in order && 0 <= p < |chunks[i]| ==>
      chunks[i][p] in ZipAll(m, replies, order, chunks).value && ZipAll(m, replies, order, chunks).value[chunks[i][p]] == replies[i].body[p]
    ensures forall k :: (forall i :: i in order ==> k !in chunks[i]) ==>
      (k in ZipAll(m, replies, order, chunks).value <==> k in m) &&
      (k in m ==> ZipAll(m, replies, order, chunks).value[k] == m[k])
    decreases |order|
  {
    if order != [] {
      var o := order[0];
      var m1 := ZipInto(m, chunks[o], replies[o].body);
      ZipIntoDistinct(m, chunks[o], replies[o].body);
      assert chunks[o][..ZipLength(chunks[o], replies[o].body)] == chunks[o];
      var rest := order[1..];
      assert forall i, j :: 0 <= i < j < |rest| ==> rest[i] != rest[j] by {
        forall i, j | 0 <= i < j < |rest| ensures rest[i] != rest[j] {
          assert rest[i] == order[i + 1] && rest[j] == order[j + 1];
        }
      }
      assert o !in rest by {
        forall b | 0 <= b < |rest| ensures rest[b] != o {
          assert rest[b] == order[b + 1];
        }
      }
      ZipAllPerChunk(m1, replies, rest, chunks);
      assert forall i :: i in order <==> i == o || i in rest;
    }
  }

  /** Up to `size` IDs are one chunk, and gathering its single reply is fetching that one request. */
  lemma GatheredOneChunk<T>(get: Request -> Response<seq<T>>, complete: nat -> seq<nat>, shape: BatchShape, ids: seq<string>, size: nat)
    requires CompletionOrders(complete) && 0 < |ids| <= size
    ensures Chunks(ids, size) == [ids]
    ensures var futures := Futures(get, ChunkRequests(shape, [ids]));
      && |futures| == 1 && IsPermutation(complete(1), 1)
      && Gathered(futures, complete(1)) == Fetch(get, ChunkRequest(shape, ids))
  {
    var futures := Futures(get, ChunkRequests(shape, [ids]));
    assert futures == [get(ChunkRequest(shape, ids))];
    assert IsPermutation(complete(1), 1);
    GatheredSingle(futures, complete(1));
  }
}

=== FILE: client_credentials.dfy ===
/** wspotify/authorization/client_credentials.py: the client credentials flow. */
module ClientCredentialsFlow {
  import opened Wrappers
  import opened Tokens
  import opened Exceptions
  import opened TokenTransport

  class ClientCredentials {
    const clientId: string
    const clientSecret: string
    const tokenUrl: string
    var accessToken: Option<AccessToken>

    constructor(clientId: string, clientSecret: string)
      ensures this.clientId == clientId && this.clientSecret == clientSecret
      ensures tokenUrl == TokenUrl && accessToken == None
    {
      this.clientId := clientId;
      this.clientSecret := clientSecret;
      this.tokenUrl := TokenUrl;
      accessToken := None;
    }

    /** The only request of this flow: `grant_type=client_credentials`, authenticated with the client secret. */
    function AccessTokenRequest(): (req: TokenRequest)
      ensures req.url == tokenUrl && req.basicCredentials == Some(BasicCredentials(clientId, clientSecret))
      ensures req.form == [("grant_type", Some("client_credentials"))]
      ensures FormField(req.form, "grant_type") == Some(Some("client_credentials"))
    {
      TokenRequest(tokenUrl, Some(BasicCredentials(clientId, clientSecret)), [("grant_type", Some("client_credentials"))])
    }

    /** `get_access_token()` at `now`: one POST; the decoded reply becomes the stored token, or the error is raised. */
    method GetAccessToken(now: Instant, endpoint: TokenEndpoint) returns (r: Outcome<Error>)
      modifies this, endpoint
      ensures endpoint.sent == old(endpoint.sent) + [AccessTokenRequest()]
      ensures Settled(Exchange(endpoint.respond(AccessTokenRequest()), now), r, old(accessToken), accessToken)
    {
      var reply := endpoint.Post(AccessTokenRequest());
      var x := Exchange(reply, now);
      if x.Failure? {
        return Fail(x.error);
      }
      accessToken := Some(x.value);
      r := Pass;
    }

    /**
     * `refresh_access_token()`: this flow has no refresh token, so refreshing fetches a new token,
     * unconditionally, even when the stored one is still valid.
     */
    method RefreshAccessToken(now: Instant, endpoint: TokenEndpoint) returns (r: Outcome<Error>)
      modifies this, endpoint
      ensures endpoint.sent == old(endpoint.sent) + [AccessTokenRequest()]
      ensures Settled(Exchange(endpoint.respond(AccessTokenRequest()), now), r, old(accessToken), accessToken)
    {
      r := GetAccessToken(now, endpoint);
    }
  }
}

=== FILE: exceptions.dfy ===
/**
 * The errors the client raises (wspotify/exceptions.py and wspotify/authorization/exceptions.py),
 * as values, with the missing-scope computation of `IncompleteScopes`.
 */
module Exceptions {
  import opened Wrappers
  import opened Scopes

  datatype Error =
    /** A resource endpoint answered with a status other than 200. */
    | ResponseError(detail: string)
    /** The flow lacks required scopes; `missing` holds their enumeration names. */
    | IncompleteScopes(missing: seq<string>)
    /** A scope-gated call on a flow without scopes (client credentials). */
    | InvalidAuthorizationFlow
    /** The token endpoint answered with a status other than 200. */
    | AccessTokenError(reason: Option<string>)
    /** A refresh with neither a stored token nor an explicit refresh token. */
    | AccessTokenNotFound
    /** The redirect carries no `code`. */
    | AuthorizationFailed(reason: Option<string>)
    /** The redirect carries a `state` other than the flow's. */
    | InvalidState
    /** The redirect carries no `state` (caught by the flows). */
    | StateNotFound
    /** A bare `raise` with no active exception (Python's RuntimeError). */
    | NoActiveException
    /** An attribute read on a value that lacks it, such as None (Python's AttributeError). */
    | AttributeMissing
    /** A 200 token reply whose body is not a token (pydantic's ValidationError). */
    | InvalidTokenBody

  /** `[scope for scope in expected if scope not in found]`. */
  function MissingScopes(expected: seq<Scope>, found: seq<Scope>): (missing: seq<Scope>)
    ensures forall s :: s in missing <==> s in expected && s !in found
    ensures |missing| <= |expected|
  {
    if expected == [] then []
    else
      var rest := MissingScopes(expected[1..], found);
      assert expected == [expected[0]] + expected[1..];
      if expected[0] in found then rest else [expected[0]] + rest
  }

  /** The filter keeps order: the missing scopes of a concatenation are the concatenated missing scopes. */
  lemma {:induction false} MissingScopesAppend(a: seq<Scope>, b: seq<Scope>, found: seq<Scope>)
    ensures MissingScopes(a + b, found) == MissingScopes(a, found) + MissingScopes(b, found)
  {
    if a == [] {
      assert a + b == b;
    } else {
      assert (a + b)[0] == a[0] && (a + b)[1..] == a[1..] + b;
      MissingScopesAppend(a[1..], b, found);
    }
  }

  /** With nothing found, every expected scope is missing, in order. */
  lemma {:induction false} MissingScopesNoneFound(expected: seq<Scope>)
    ensures MissingScopes(expected, []) == expected
  {
    if expected != [] {
      MissingScopesNoneFound(expected[1..]);
      assert expected == [expected[0]] + expected[1..];
    }
  }

  /** The missing list is empty exactly when every expected scope was found. */
  lemma MissingScopesEmptyIff(expected: seq<Scope>, found: seq<Scope>)
    ensures MissingScopes(expected, found) == [] <==> forall s :: s in expected ==> s in found
  {
    var m := MissingScopes(expected, found);
    if m != [] {
      assert m[0] in m;
    }
  }

  /** The error `IncompleteScopes(expected, found)` raises: the names of the scopes not found. */
  function IncompleteScopesError(expected: seq<Scope>, found: seq<Scope>): (e: Error)
    ensures e.IncompleteScopes? && e.missing == Names(MissingScopes(expected, found))
  {
    IncompleteScopes(Names(MissingScopes(expected, found)))
  }

  const ResponseErrorPrefix: string := "Got the following errror while fetching a response: "

  /** The message of `ResponseError(error)`: a fixed prefix followed by the error text. */
  function ResponseErrorMessage(error: string): (msg: string)
    ensures |msg| == |ResponseErrorPrefix| + |error|
    ensures msg[..|ResponseErrorPrefix|] == ResponseErrorPrefix && msg[|ResponseErrorPrefix|..] == error
  {
    ResponseErrorPrefix + error
  }
}

=== FILE: fan_in.dfy ===
/**
 * The fan-in shared by every concurrent endpoint: futures are collected with `as_completed`,
 * the first non-200 response in completion order raises ResponseError, and the bodies of the
 * others are appended in completion order (nothing re-sorts them).
 */
module FanIn {
  import opened Wrappers
  import opened Exceptions
  import opened Http

  /** `0, 1, ..., n - 1` from `start` on. */
  function IndicesFrom(start: nat, n: nat): (s: seq<nat>)
    ensures |s| == if start <= n then n - start else 0
    ensures forall k :: 0 <= k < |s| ==> s[k] == start + k
  {
    if start >= n then [] else seq(n - start, k requires 0 <= k < n - start => start + k)
  }

  /**
   * The order in which `as_completed` yields `n` futures: each submission index exactly once.
   */
  predicate IsPermutation(order: seq<nat>, n: nat) {
    |order| == n && InRange(order, n) && multiset(order) == multiset(IndicesFrom(0, n))
  }

  /** The completion orders of the executor: for every number of futures, a permutation. */
  ghost predicate CompletionOrders(complete: nat -> seq<nat>) {
    forall n: nat :: IsPermutation(complete(n), n)
  }

  predicate InRange(order: seq<nat>, n: nat) {
    forall k :: 0 <= k < |order| ==> order[k] < n
  }

  lemma PermutationFacts(order: seq<nat>, n: nat)
    requires IsPermutation(order, n)
    ensures |order| == n && InRange(order, n)
    ensures forall i :: 0 <= i < n ==> i in order
  {
    var ix := IndicesFrom(0, n);
    forall i | 0 <= i < n ensures i in order {
      assert ix[i] == i;
      assert i in multiset(ix);
    }
  }

  lemma {:induction false} DistinctCountsAtMostOne(s: seq<nat>, x: nat)
    requires forall i, j :: 0 <= i < j < |s| ==> s[i] != s[j]
    ensures multiset(s)[x] <= 1
  {
    if s != [] {
      assert s == [s[0]] + s[1..];
      DistinctCountsAtMostOne(s[1..], x);
      if x == s[0] {
        assert x !in s[1..] by {
          forall b | 0 <= b < |s| - 1 ensures s[1..][b] != x {
            assert s[b + 1] != s[0];
          }
        }
      }
    }
  }

  /** A completion order yields no future twice. */
  lemma PermutationDistinct(order: seq<nat>, n: nat)
    requires IsPermutation(order, n)
    ensures forall i, j :: 0 <= i < j < |order| ==> order[i] != order[j]
  {
    forall i, j | 0 <= i < j < |order| ensures order[i] != order[j] {
      var x := order[j];
      DistinctCountsAtMostOne(IndicesFrom(0, n), x);
      assert order == order[..j] + [x] + order[j + 1..];
      assert multiset(order)[x] == multiset(order[..j])[x] + 1 + multiset(order[j + 1..])[x];
      assert order[..j][i] == order[i];
      assert multiset(order[..j])[order[i]] >= 1;
    }
  }

  /** `[submit(get, r) for r in reqs]`: one response per request, in submission order. */
  function Futures<B>(get: Request -> Response<B>, reqs: seq<Request>): (fs: seq<Response<B>>)
    ensures |fs| == |reqs| && forall i :: 0 <= i < |fs| ==> fs[i] == get(reqs[i])
  {
    seq(|reqs|, i requires 0 <= i < |reqs| => get(reqs[i]))
  }

  lemma FuturesAppend<B>(get: Request -> Response<B>, a: seq<Request>, b: seq<Request>)
    ensures Futures(get, a + b) == Futures(get, a) + Futures(get, b)
  {
  }

  /** The error raised by the first non-200 response in completion order, if any. */
  function FirstFailure<B>(futures: seq<Response<B>>, order: seq<nat>): (e: Option<Error>)
    requires InRange(order, |futures|)
  {
    if order == [] then None
    else if futures[order[0]].status != 200 then Some(ResponseError(ErrorDetail(futures[order[0]])))
    else FirstFailure(futures, order[1..])
  }

  /** The bodies of `futures`, concatenated in the order `order`. */
  function ConcatAt<T>(futures: seq<Response<seq<T>>>, order: seq<nat>): seq<T>
    requires InRange(order, |futures|)
  {
    if order == [] then [] else futures[order[0]].body + ConcatAt(futures, order[1..])
  }

  /** The bodies of `futures` in submission order, concatenated. */
  function Flatten<T>(futures: seq<Response<seq<T>>>): seq<T> {
    if futures == [] then [] else futures[0].body + Flatten(futures[1..])
  }

  /** The items of two or three responses number the sum of their lengths. */
  lemma FlattenLengths<T>(futures: seq<Response<seq<T>>>)
    requires 2 <= |futures| <= 3
    ensures |futures| == 2 ==> |Flatten(futures)| == |futures[0].body| + |futures[1].body|
    ensures |futures| == 3 ==> |Flatten(futures)| == |futures[0].body| + |futures[1].body| + |futures[2].body|
  {
    var rest := futures[1..];
    assert Flatten(futures) == futures[0].body + Flatten(rest);
    assert Flatten(rest) == rest[0].body + Flatten(rest[1..]);
    if |futures| == 3 {
      assert Flatten(rest[1..]) == rest[1..][0].body + Flatten(rest[1..][1..]);
      assert rest[1..][1..] == [];
    } else {
      assert rest[1..] == [];
    }
  }

  /** The merge of a list-valued fan-out: all-or-nothing, pages in completion order. */
  function Gathered<T>(futures: seq<Response<seq<T>>>, order: seq<nat>): Result<seq<T>, Error>
    requires InRange(order, |futures|)
  {
    match FirstFailure(futures, order)
    case Some(e) => Failure(e)
    case None => Success(ConcatAt(futures, order))
  }

  /** The merge loop of a list-valued fan-out (`for future in as_completed(futures): ... result.extend(...)`). */
  method Gather<T>(futures: seq<Response<seq<T>>>, order: seq<nat>) returns (r: Result<seq<T>, Error>)
    requires IsPermutation(order, |futures|)
    ensures r == Gathered(futures, order)
  {
    PermutationFacts(order, |futures|);
    var result: seq<T> := [];
    for k := 0 to |order|
      invariant FirstFailure(futures, order) == FirstFailure(futures, order[k..])
      invariant ConcatAt(futures, order) == result + ConcatAt(futures, order[k..])
    {
      assert order[k..][1..] == order[k + 1..];
      var response := futures[order[k]];
      if response.status != 200 {
        return Failure(ResponseError(ErrorDetail(response)));
      }
      result := result + response.body;
    }
    assert order[|order|..] == [];
    assert result + [] == result;
    return Success(result);
  }

  /** The status-only fan-in of save and remove: all-or-nothing. */
  /** The outcome of waiting on body-less requests: the first failure to complete, if any. */
  function Awaited<B>(futures: seq<Response<B>>, order: seq<nat>): Outcome<Error>
    requires InRange(order, |futures|)
  {
    match FirstFailure(futures, order)
    case Some(e) => Fail(e)
    case None => Pass
  }

  method AwaitAll<B>(futures: seq<Response<B>>, order: seq<nat>) returns (r: Outcome<Error>)
    requires IsPermutation(order, |futures|)
    ensures r == Awaited(futures, order)
    ensures r.Pass? <==> forall i :: 0 <= i < |futures| ==> futures[i].status == 200
    ensures r.Fail? ==> Some(r.error) == FirstFailure(futures, order)
  {
    PermutationFacts(order, |futures|);
    FirstFailureIff(futures, order);
    for k := 0 to |order|
      invariant FirstFailure(futures, order) == FirstFailure(futures, order[k..])
    {
      assert order[k..][1..] == order[k + 1..];
      var response := futures[order[k]];
      if response.status != 200 {
        return Fail(ResponseError(ErrorDetail(response)));
      }
    }
    assert order[|order|..] == [];
    return Pass;
  }

  /** The fan-out fails exactly when some response in the completion order is not 200. */
  lemma {:induction false} FirstFailureIffAt<B>(futures: seq<Response<B>>, order: seq<nat>)
    requires InRange(order, |futures|)
    ensures FirstFailure(futures, order).None? <==> forall k :: 0 <= k < |order| ==> futures[order[k]].status == 200
  {
    if order != [] {
      FirstFailureIffAt(futures, order[1..]);
      assert forall k :: 1 <= k < |order| ==> order[k] == order[1..][k - 1];
    }
  }

  /** Over a permutation: the fan-out fails exactly when some response is not 200. */
  lemma FirstFailureIff<B>(futures: seq<Response<B>>, order: seq<nat>)
    requires IsPermutation(order, |futures|)
    ensures InRange(order, |futures|)
    ensures FirstFailure(futures, order).None? <==> forall i :: 0 <= i < |futures| ==> futures[i].status == 200
  {
    PermutationFacts(order, |futures|);
    FirstFailureIffAt(futures, order);
    if FirstFailure(futures, order).None? {
      forall i | 0 <= i < |futures| ensures futures[i].status == 200 {
        assert i in order;
        var k :| 0 <= k < |order| && order[k] == i;
      }
    }
  }

  /** The error reported is that of a failing response, all responses completed before it being 200. */
  lemma {:induction false} FirstFailureIsEarliest<B>(futures: seq<Response<B>>, order: seq<nat>)
    requires InRange(order, |futures|)
    requires FirstFailure(futures, order).Some?
    ensures exists k :: (0 <= k < |order| && futures[order[k]].status != 200
      && (forall j :: 0 <= j < k ==> futures[order[j]].status == 200)
      && FirstFailure(futures, order).value == ResponseError(ErrorDetail(futures[order[k]])))
  {
    if futures[order[0]].status == 200 {
      FirstFailureIsEarliest(futures, order[1..]);
      var k :| 0 <= k < |order[1..]| && futures[order[1..][k]].status != 200
        && (forall j :: 0 <= j < k ==> futures[order[1..][j]].status == 200)
        && FirstFailure(futures, order[1..]).value == ResponseError(ErrorDetail(futures[order[1..][k]]));
      assert forall j :: 0 <= j < k ==> order[1..][j] == order[j + 1];
      assert futures[order[k + 1]].status != 200;
    } else {
      assert futures[order[0]].status != 200;
    }
  }

  lemma {:induction false} ConcatAtAppend<T>(futures: seq<Response<seq<T>>>, a: seq<nat>, b: seq<nat>)
    requires InRange(a, |futures|) && InRange(b, |futures|)
    ensures InRange(a + b, |futures|)
    ensures ConcatAt(futures, a + b) == ConcatAt(futures, a) + ConcatAt(futures, b)
  {
    if a == [] {
      assert a + b == b;
    } else {
      assert (a + b)[0] == a[0] && (a + b)[1..] == a[1..] + b;
      ConcatAtAppend(futures, a[1..], b);
    }
  }

  lemma RemoveMatching(a: seq<nat>, b: seq<nat>, j: nat)
    requires a != [] && j < |b| && b[j] == a[0] && multiset(a) == multiset(b)
    ensures multiset(a[1..]) == multiset(b[..j] + b[j + 1..])
  {
    var x := a[0];
    assert a == [x] + a[1..];
    assert b == b[..j] + [x] + b[j + 1..];
    assert multiset(a) == multiset{x} + multiset(a[1..]);
    assert multiset(b) == multiset(b[..j]) + multiset{x} + multiset(b[j + 1..]);
    assert multiset(b[..j] + b[j + 1..]) == multiset(b[..j]) + multiset(b[j + 1..]);
    forall y ensures multiset(a[1..])[y] == multiset(b[..j] + b[j + 1..])[y] {
      assert multiset(a)[y] == multiset(b)[y];
    }
  }

  /** Slicing out position `j`: the concatenation around it is what comes before and after. */
  lemma ConcatAtAround<T>(futures: seq<Response<seq<T>>>, b: seq<nat>, j: nat)
    requires InRange(b, |futures|) && j < |b|
    ensures InRange(b[..j], |futures|) && InRange(b[j + 1..], |futures|) && InRange(b[..j] + b[j + 1..], |futures|)
    ensures ConcatAt(futures, b) == ConcatAt(futures, b[..j]) + (futures[b[j]].body + ConcatAt(futures, b[j + 1..]))
    ensures ConcatAt(futures, b[..j] + b[j + 1..]) == ConcatAt(futures, b[..j]) + ConcatAt(futures, b[j + 1..])
  {
    var pre, post := b[..j], b[j + 1..];
    var mid := [b[j]] + post;
    forall k | 0 <= k < |pre| ensures pre[k] < |futures| {
      assert pre[k] == b[k];
    }
    forall k | 0 <= k < |post| ensures post[k] < |futures| {
      assert post[k] == b[j + 1 + k];
    }
    forall k | 0 <= k < |mid| ensures mid[k] < |futures| {
      assert mid[k] == b[j + k];
    }
    assert b == pre + mid;
    assert mid[0] == b[j] && mid[1..] == post;
    ConcatAtAppend(futures, pre, mid);
    ConcatAtAppend(futures, pre, post);
  }

  /** Taking index `b[j]` out of `b`: its body, plus the concatenation of the rest, counted with multiplicity. */
  lemma ConcatAtWithout<T>(futures: seq<Response<seq<T>>>, b: seq<nat>, j: nat)
    requires InRange(b, |futures|) && j < |b|
    ensures InRange(b[..j] + b[j + 1..], |futures|)
    ensures multiset(ConcatAt(futures, b)) == multiset(futures[b[j]].body) + multiset(ConcatAt(futures, b[..j] + b[j + 1..]))
  {
    ConcatAtAround(futures, b, j);
    var left, body, right := ConcatAt(futures, b[..j]), futures[b[j]].body, ConcatAt(futures, b[j + 1..]);
    assert multiset(left + (body + right)) == multiset(left) + (multiset(body) + multiset(right));
    assert multiset(left + right) == multiset(left) + multiset(right);
  }

  /** Concatenating in any order of the same indices gives the same items, counted with multiplicity. */
  lemma {:induction false} ConcatAtReorder<T>(futures: seq<Response<seq<T>>>, a: seq<nat>, b: seq<nat>)
    requires InRange(a, |futures|) && InRange(b, |futures|)
    requires multiset(a) == multiset(b)
    ensures multiset(ConcatAt(futures, a)) == multiset(ConcatAt(futures, b))
    decreases |a|
  {
    if a == [] {
      assert |multiset(b)| == 0;
    } else {
      assert a[0] in multiset(b);
      var j :| 0 <= j < |b| && b[j] == a[0];
      RemoveMatching(a, b, j);
      ConcatAtWithout(futures, b, j);
      assert InRange(a[1..], |futures|);
      ConcatAtReorder(futures, a[1..], b[..j] + b[j + 1..]);
    }
  }

  lemma {:induction false} ConcatAtIndices<T>(futures: seq<Response<seq<T>>>, start: nat)
    requires start <= |futures|
    ensures InRange(IndicesFrom(start, |futures|), |futures|)
    ensures ConcatAt(futures, IndicesFrom(start, |futures|)) == Flatten(futures[start..])
    decreases |futures| - start
  {
    var ix := IndicesFrom(start, |futures|);
    if start < |futures| {
      assert ix[1..] == IndicesFrom(start + 1, |futures|);
      ConcatAtIndices(futures, start + 1);
      assert futures[start..][1..] == futures[start + 1..];
    } else {
      assert futures[start..] == [];
    }
  }

  /**
   * A successful merge holds exactly the items of all responses, each as often as it occurs
   * in them, so its length is the sum of the page lengths, whatever the completion order.
   */
  lemma GatheredContents<T>(futures: seq<Response<seq<T>>>, order: seq<nat>)
    requires IsPermutation(order, |futures|)
    ensures InRange(order, |futures|)
    ensures Gathered(futures, order).Success? ==>
      multiset(Gathered(futures, order).value) == multiset(Flatten(futures))
      && |Gathered(futures, order).value| == |Flatten(futures)|
  {
    PermutationFacts(order, |futures|);
    ConcatAtIndices(futures, 0);
    assert futures[0..] == futures;
    ConcatAtReorder(futures, order, IndicesFrom(0, |futures|));
    var c := ConcatAt(futures, order);
    assert |multiset(c)| == |c|;
    assert |multiset(Flatten(futures))| == |Flatten(futures)|;
  }

  /** With a single future the merge is that response's list, in the API's order. */
  lemma GatheredSingle<T>(futures: seq<Response<seq<T>>>, order: seq<nat>)
    requires |futures| == 1 && IsPermutation(order, 1)
    ensures InRange(order, 1)
    ensures Gathered(futures, order) ==
      if futures[0].status == 200 then Success(futures[0].body)
      else Failure(ResponseError(ErrorDetail(futures[0])))
  {
    PermutationFacts(order, 1);
    assert 0 in order;
    assert order == [0];
    assert order[1..] == [];
    assert ConcatAt(futures, order) == futures[0].body + ConcatAt(futures, []);
    assert futures[0].body + [] == futures[0].body;
    assert FirstFailure(futures, order) ==
      if futures[0].status != 200 then Some(ResponseError(ErrorDetail(futures[0]))) else FirstFailure(futures, []);
  }

  /** With no futures the merge succeeds with no items. */
  lemma GatheredEmpty<T>(futures: seq<Response<seq<T>>>, order: seq<nat>)
    requires |futures| == 0 && IsPermutation(order, 0)
    ensures InRange(order, 0) && Gathered(futures, order) == Success([])
  {
    PermutationFacts(order, 0);
  }
}

=== FILE: flow_common.dfy ===
/** Logic shared, line for line, by the flows of wspotify/authorization/. */
module FlowCommon {
  import opened Wrappers
  import opened Tokens
  import opened Scopes
  import opened Text
  import opened Http

  /** What `refresh_access_token` does before it posts anything. */
  datatype RefreshStep =
    | NoTokenToRefresh        // raise AccessTokenNotFound
    | StillValid              // return without a request
    | Send(refreshToken: Option<string>)  // post a refresh form with this refresh_token field

  /**
   * `if access_token is None and refresh_token is None: raise AccessTokenNotFound`;
   * `if access_token and access_token.valid(): return`; otherwise post with the explicit refresh
   * token, or the stored token's one when none is given.
   */
  function RefreshDecision(stored: Option<AccessToken>, explicit: Option<string>, now: Instant): (step: RefreshStep)
    ensures step == NoTokenToRefresh <==> stored.None? && explicit.None?
    ensures step == StillValid <==> stored.Some? && Valid(stored.value, now)
    ensures step.Send? <==> (stored.None? && explicit.Some?) || (stored.Some? && !Valid(stored.value, now))
    ensures step.Send? && explicit.Some? ==> step.refreshToken == explicit
    ensures step.Send? && explicit.None? ==> step.refreshToken == stored.value.refreshToken
  {
    if stored.None? && explicit.None? then NoTokenToRefresh
    else if stored.Some? && Valid(stored.value, now) then StillValid
    else if explicit.None? then Send(stored.value.refreshToken)
    else Send(explicit)
  }

  /**
   * An explicit refresh token never forces a request for a stored token that is still valid: a token
   * that is valid at some instant is left alone, with no request, at every earlier instant.
   */
  lemma ValidTokenNeverRefreshed(t: AccessToken, explicit: Option<string>, now: Instant, later: Instant)
    requires now <= later && Valid(t, later)
    ensures RefreshDecision(Some(t), explicit, now) == StillValid
  {
    if !Valid(t, now) {
      InvalidStaysInvalid(t, now, later);
    }
  }

  /** Python truthiness of `self.state`: present and non-empty. */
  predicate StateIsSet(state: Option<string>) {
    state.Some? && state.value != ""
  }

  /**
   * The optional tail of the authorize query: `state` when it is truthy, then `scope`, the
   * scope values joined by single spaces, when the scope list is non-empty.
   */
  function OptionalAuthorizeParams(state: Option<string>, scopes: seq<Scope>): (ps: Params)
    ensures Lookup(ps, "state").Some? <==> StateIsSet(state)
    ensures StateIsSet(state) ==> Lookup(ps, "state") == Some(Str(state.value))
    ensures Lookup(ps, "scope").Some? <==> |scopes| > 0
    ensures |scopes| > 0 ==> Lookup(ps, "scope") == Some(Str(Join(Values(scopes), ' ')))
    ensures Keys(ps) <= {"state", "scope"}
  {
    var scope := Str(Join(Values(scopes), ' '));
    if StateIsSet(state) && |scopes| > 0 then
      var ps := [("state", Str(state.value)), ("scope", scope)];
      assert ps[1..] == [("scope", scope)] && ps[1..][1..] == [];
      assert Keys(ps[1..]) == {"scope"} + Keys(ps[1..][1..]);
      assert Keys(ps) == {"state"} + Keys(ps[1..]);
      ps
    else if StateIsSet(state) then [("state", Str(state.value))]
    else if |scopes| > 0 then [("scope", scope)]
    else []
  }

  /** The `scope` parameter splits back into the scope values, provided no value holds a space. */
  lemma ScopeParamRoundTrip(state: Option<string>, scopes: seq<Scope>)
    requires |scopes| > 0 && forall s :: s in scopes ==> ' ' !in s.value
    ensures Lookup(OptionalAuthorizeParams(state, scopes), "scope").Some?
    ensures Split(Lookup(OptionalAuthorizeParams(state, scopes), "scope").value.s, ' ') == Values(scopes)
  {
    forall v | v in Values(scopes) ensures ' ' !in v {
      var i :| 0 <= i < |Values(scopes)| && Values(scopes)[i] == v;
      assert scopes[i] in scopes;
    }
    SplitJoin(Values(scopes), ' ');
  }
}

=== FILE: http.dfy ===
/** Requests and responses of the REST transport, with URLs as a path and an ordered parameter list. */
module Http {
  import opened Wrappers
  import opened Exceptions

  /** A query-parameter value before `urlencode` renders it. */
  datatype Value = Str(s: string) | Int(n: int) | Bool(b: bool)

  /** A Python dict of query parameters: keys in insertion order, each key at most once. */
  type Params = seq<(string, Value)>

  /** A URL as a base address and its query parameters. */
  datatype Url = Url(base: string, params: Params)

  datatype Verb = Get | Put | Delete

  /** One call on the transport; `jsonIds` is the `{"ids": [...]}` body of PUT and DELETE. */
  datatype Request = Request(verb: Verb, path: string, params: Params, jsonIds: Option<seq<string>>)

  /** A decoded reply: its status, the `error` field of the JSON body if present, and the body. */
  datatype Response<B> = Response(status: int, error: Option<string>, body: B)

  /** The keys of a parameter list. */
  function Keys(params: Params): set<string>
  {
    if params == [] then {} else {params[0].0} + Keys(params[1..])
  }

  /** `params.get(key)`. */
  function Lookup(params: Params, key: string): (v: Option<Value>)
    ensures v.Some? <==> key in Keys(params)
  {
    if params == [] then None
    else if params[0].0 == key then Some(params[0].1)
    else Lookup(params[1..], key)
  }

  /** Looking up a key in two joined lists finds it in the first list when it is there. */
  lemma {:induction false} LookupAppend(a: Params, b: Params, key: string)
    ensures Lookup(a + b, key) == if Lookup(a, key).Some? then Lookup(a, key) else Lookup(b, key)
    ensures Keys(a + b) == Keys(a) + Keys(b)
  {
    if a == [] {
      assert a + b == b;
    } else {
      assert (a + b)[1..] == a[1..] + b;
      LookupAppend(a[1..], b, key);
    }
  }

  /** No key occurs twice (what a dict literal produces). */
  predicate DistinctKeys(params: Params) {
    forall i, j :: 0 <= i < j < |params| ==> params[i].0 != params[j].0
  }

  /** In a list without repeated keys, each entry is what its key looks up. */
  lemma {:induction false} LookupAt(params: Params, i: nat)
    requires DistinctKeys(params) && i < |params|
    ensures Lookup(params, params[i].0) == Some(params[i].1)
  {
    if i > 0 {
      assert params[0].0 != params[i].0;
      assert params[1..][i - 1] == params[i];
      LookupAt(params[1..], i - 1);
    }
  }

  /** The keys of a list are the first components of its entries. */
  lemma {:induction false} KeysAre(params: Params)
    ensures forall k :: k in Keys(params) <==> exists i :: 0 <= i < |params| && params[i].0 == k
  {
    if params != [] {
      KeysAre(params[1..]);
      forall k | k in Keys(params[1..]) ensures exists i :: 0 <= i < |params| && params[i].0 == k {
        var j :| 0 <= j < |params| - 1 && params[1..][j].0 == k;
        assert params[j + 1].0 == k;
      }
      forall k | (exists i :: 0 <= i < |params| && params[i].0 == k) ensures k in Keys(params) {
        var i :| 0 <= i < |params| && params[i].0 == k;
        if i > 0 {
          assert params[1..][i - 1].0 == k;
        }
      }
    }
  }

  /** `params[key] = v`: an existing key keeps its position, a new key goes last. */
  function SetParam(params: Params, key: string, v: Value): (r: Params)
    ensures Lookup(r, key) == Some(v)
    ensures forall k :: k != key ==> Lookup(r, k) == Lookup(params, k)
    ensures Keys(r) == Keys(params) + {key}
  {
    if params == [] then [(key, v)]
    else if params[0].0 == key then
      var r := [(key, v)] + params[1..];
      assert r[1..] == params[1..];
      r
    else
      var r := [params[0]] + SetParam(params[1..], key, v);
      assert r[1..] == SetParam(params[1..], key, v);
      r
  }

  /** Assigning the same key twice leaves only the second assignment. */
  lemma {:induction false} SetParamTwice(params: Params, key: string, v1: Value, v2: Value)
    ensures SetParam(SetParam(params, key, v1), key, v2) == SetParam(params, key, v2)
  {
    if params != [] && params[0].0 != key {
      SetParamTwice(params[1..], key, v1, v2);
    }
  }

  /** Python truthiness of an optional string such as `market`: present and non-empty. */
  predicate Present(s: Option<string>) {
    s.Some? && s.value != ""
  }

  /** `data.get("error", "unknown")` of a failed response. */
  function ErrorDetail<B>(r: Response<B>): (detail: string)
    ensures r.error.Some? ==> detail == r.error.value
    ensures r.error.None? ==> detail == "unknown"
  {
    r.error.GetOr("unknown")
  }

  /**
   * A single request: `response = client.get(url)`; a status other than 200 raises ResponseError
   * with the body's `error` field, or "unknown".
   */
  function Fetch<B>(get: Request -> Response<B>, request: Request): (r: Result<B, Error>)
    ensures r.Success? <==> get(request).status == 200
    ensures r.Success? ==> r.value == get(request).body
    ensures r.Failure? ==> r.error == ResponseError(ErrorDetail(get(request)))
  {
    var response := get(request);
    if response.status != 200 then Failure(ResponseError(ErrorDetail(response))) else Success(response.body)
  }

  /** `if value: params[key] = value` for an optional string parameter such as `market`. */
  function OptionalParam(key: string, value: Option<string>): (ps: Params)
    ensures Lookup(ps, key).Some? <==> Present(value)
    ensures Present(value) ==> Lookup(ps, key) == Some(Str(value.value))
    ensures Keys(ps) <= {key}
  {
    if Present(value) then [(key, Str(value.value))] else []
  }
}

=== FILE: pagination.dfy ===
/**
 * Offset pagination of wspotify/album.py and wspotify/artist.py: one probe page of at most 50
 * items, then, when more were asked for, one concurrent request per further offset 50, 100, ...
 */
module Pagination {
  import opened Wrappers
  import opened Exceptions
  import opened Http
  import opened FanIn

  /** The API's largest page. */
  const PageLimit: int := 50

  /** A decoded paging object: the page's items and the total number of items. */
  datatype Page<T> = Page(items: seq<T>, total: int)

  /** Python's `range(start, stop, 50)`: the page-sized steps from `start` up to and excluding `stop`. */
  function PageRange(start: int, stop: int): seq<int>
    decreases stop - start
  {
    if start >= stop then [] else [start] + PageRange(start + PageLimit, stop)
  }

  /** `range(start, stop, 50)` yields ceil((stop - start) / 50) values, 50 apart, all below `stop`. */
  lemma {:induction false} PageRangeShape(start: int, stop: int)
    ensures |PageRange(start, stop)| == if start >= stop then 0 else (stop - start + 49) / 50
    ensures forall i :: 0 <= i < |PageRange(start, stop)| ==>
      PageRange(start, stop)[i] == start + 50 * i && PageRange(start, stop)[i] < stop
    decreases stop - start
  {
    if start < stop {
      var rest := PageRange(start + 50, stop);
      PageRangeShape(start + 50, stop);
      forall i | 1 <= i < |PageRange(start, stop)|
        ensures PageRange(start, stop)[i] == start + 50 * i
      {
        assert PageRange(start, stop)[i] == rest[i - 1];
      }
    }
  }

  /** The values of `range(start, stop, 50)` are exactly those from `start` below `stop` on the 50 grid. */
  lemma {:induction false} PageRangeMembers(start: int, stop: int, x: int)
    ensures x in PageRange(start, stop) <==> start <= x < stop && (x - start) % 50 == 0
    decreases stop - start
  {
    if start < stop {
      PageRangeMembers(start + 50, stop, x);
      assert PageRange(start, stop) == [start] + PageRange(start + 50, stop);
    }
  }

  /** The probe's `limit` parameter: `50 if limit is None else min(limit, 50)`. */
  function ProbeLimit(limit: Option<int>): (l: int)
    ensures l <= PageLimit
    ensures limit.None? ==> l == PageLimit
    ensures limit.Some? ==> l <= limit.value && (l == limit.value || l == PageLimit)
  {
    if limit.None? then PageLimit
    else if limit.value < PageLimit then limit.value else PageLimit
  }

  /** The head of every paginated query: `{"limit": 50 if limit is None else min(limit, 50), "offset": offset}`. */
  function ProbeParams(limit: Option<int>, offset: int): (ps: Params)
    ensures Keys(ps) == {"limit", "offset"}
    ensures Lookup(ps, "limit") == Some(Int(ProbeLimit(limit))) && Lookup(ps, "offset") == Some(Int(offset))
  {
    var ps := [("limit", Int(ProbeLimit(limit))), ("offset", Int(offset))];
    assert ps[1..] == [("offset", Int(offset))] && ps[1..][1..] == [];
    assert Keys(ps[1..]) == {"offset"} + Keys(ps[1..][1..]);
    ps
  }

  /** The probe head followed by further entries: `limit` and `offset` come from the head, other keys from the rest. */
  lemma ProbeParamsThen(limit: Option<int>, offset: int, rest: Params)
    requires "limit" !in Keys(rest) && "offset" !in Keys(rest)
    ensures Lookup(ProbeParams(limit, offset) + rest, "limit") == Some(Int(ProbeLimit(limit)))
    ensures Lookup(ProbeParams(limit, offset) + rest, "offset") == Some(Int(offset))
    ensures forall k :: k != "limit" && k != "offset" ==> Lookup(ProbeParams(limit, offset) + rest, k) == Lookup(rest, k)
    ensures Keys(ProbeParams(limit, offset) + rest) == {"limit", "offset"} + Keys(rest)
  {
    forall k ensures Lookup(ProbeParams(limit, offset) + rest, k) ==
      if Lookup(ProbeParams(limit, offset), k).Some? then Lookup(ProbeParams(limit, offset), k) else Lookup(rest, k)
    {
      LookupAppend(ProbeParams(limit, offset), rest, k);
    }
  }

  /** `(limit is None or limit > 50) and total > 50`: whether follow-up pages are fetched. */
  predicate WantsFollowUps(limit: Option<int>, total: int) {
    (limit.None? || limit.value > PageLimit) && total > PageLimit
  }

  /** The follow-up offsets: `range(50, bound, 50)`. */
  function FollowUpOffsets(bound: int): seq<int> {
    PageRange(PageLimit, bound)
  }

  /**
   * The follow-up offsets are exactly the multiples of 50 from 50 up to and excluding `bound`:
   * none when `bound <= 50`, ceil((bound - 50) / 50) of them otherwise, in increasing order.
   */
  lemma FollowUpOffsetsExact(bound: int)
    ensures |FollowUpOffsets(bound)| == if bound <= PageLimit then 0 else (bound - PageLimit + 49) / PageLimit
    ensures forall i :: 0 <= i < |FollowUpOffsets(bound)| ==>
      FollowUpOffsets(bound)[i] == PageLimit * (i + 1) && FollowUpOffsets(bound)[i] < bound
    ensures forall o :: o in FollowUpOffsets(bound) <==> PageLimit <= o < bound && o % PageLimit == 0
  {
    PageRangeShape(PageLimit, bound);
    forall o ensures o in FollowUpOffsets(bound) <==> PageLimit <= o < bound && o % PageLimit == 0 {
      PageRangeMembers(PageLimit, bound, o);
    }
  }

  /** Bounds in (100, 150] take follow-ups at 50 and 100; bounds in (150, 200] also at 150. */
  lemma FewFollowUpOffsets(bound: int)
    requires 100 < bound <= 200
    ensures bound <= 150 ==> FollowUpOffsets(bound) == [50, 100]
    ensures bound > 150 ==> FollowUpOffsets(bound) == [50, 100, 150]
  {
    assert PageRange(200, bound) == [];
    assert PageRange(150, bound) == if bound > 150 then [150] else [];
    assert PageRange(100, bound) == [100] + PageRange(150, bound);
  }

  /** The request sent for offset `o`: the base request with its `offset` parameter set to `o`. */
  function AtOffset(base: Request, o: int): (r: Request)
    ensures r.verb == base.verb && r.path == base.path && r.jsonIds == base.jsonIds
    ensures Lookup(r.params, "offset") == Some(Int(o))
    ensures forall k :: k != "offset" ==> Lookup(r.params, k) == Lookup(base.params, k)
  {
    Request(base.verb, base.path, SetParam(base.params, "offset", Int(o)), base.jsonIds)
  }

  /** One request per offset, in offset order. */
  function OffsetRequests(base: Request, offsets: seq<int>): (rs: seq<Request>)
    ensures |rs| == |offsets| && forall i :: 0 <= i < |rs| ==> rs[i] == AtOffset(base, offsets[i])
  {
    seq(|offsets|, i requires 0 <= i < |offsets| => AtOffset(base, offsets[i]))
  }

  /** A page response seen as its list of items. */
  function ItemsOf<T>(rs: seq<Response<Page<T>>>): (ls: seq<Response<seq<T>>>)
    ensures |ls| == |rs|
    ensures forall i :: 0 <= i < |ls| ==> ls[i] == Response(rs[i].status, rs[i].error, rs[i].body.items)
  {
    seq(|rs|, i requires 0 <= i < |rs| => Response(rs[i].status, rs[i].error, rs[i].body.items))
  }

  lemma PageRangeStep(done: seq<int>, offset: int, stop: int)
    requires offset < stop
    ensures done + PageRange(offset, stop) == (done + [offset]) + PageRange(offset + PageLimit, stop)
  {
    assert PageRange(offset, stop) == [offset] + PageRange(offset + PageLimit, stop);
  }

  /** The parameter dict after the loop has assigned the offsets `done`, one after the other. */
  function ParamsAfter(base: Request, done: seq<int>): Params {
    if done == [] then base.params else SetParam(base.params, "offset", Int(done[|done| - 1]))
  }

  /** One more assignment leaves the parameters of the request for that offset. */
  lemma ParamsAfterStep(base: Request, done: seq<int>, o: int)
    ensures SetParam(ParamsAfter(base, done), "offset", Int(o)) == ParamsAfter(base, done + [o]) == AtOffset(base, o).params
  {
    if done != [] {
      SetParamTwice(base.params, "offset", Int(done[|done| - 1]), Int(o));
    }
  }

  /** Submitting one more offset appends its response to the futures. */
  lemma FuturesStep<B>(get: Request -> Response<B>, base: Request, done: seq<int>, o: int)
    ensures Futures(get, OffsetRequests(base, done + [o])) == Futures(get, OffsetRequests(base, done)) + [get(AtOffset(base, o))]
  {
    assert OffsetRequests(base, done + [o]) == OffsetRequests(base, done) + [AtOffset(base, o)];
    FuturesAppend(get, OffsetRequests(base, done), [AtOffset(base, o)]);
  }

  /**
   * The submission loop: `for offset in range(50, bound, 50): params["offset"] = offset;
   * futures.append(executor.submit(get, url?params))`, on a parameter dict that persists
   * across iterations.
   */
  method SubmitOffsets<B>(get: Request -> Response<B>, base: Request, bound: int) returns (futures: seq<Response<B>>)
    ensures futures == Futures(get, OffsetRequests(base, FollowUpOffsets(bound)))
  {
    var params := base.params;
    futures := [];
    var offset := PageLimit;
    ghost var done: seq<int> := [];
    while offset < bound
      invariant done + PageRange(offset, bound) == FollowUpOffsets(bound)
      invariant params == ParamsAfter(base, done)
      invariant futures == Futures(get, OffsetRequests(base, done))
      decreases bound - offset
    {
      ParamsAfterStep(base, done, offset);
      params := SetParam(params, "offset", Int(offset));
      var request := Request(base.verb, base.path, params, base.jsonIds);
      assert request == AtOffset(base, offset);
      FuturesStep(get, base, done, offset);
      futures := futures + [get(request)];
      PageRangeStep(done, offset, bound);
      done := done + [offset];
      offset := offset + PageLimit;
    }
  }

  /** The merged follow-up pages for the offsets below `bound`, in completion order. */
  function FollowUps<T>(get: Request -> Response<Page<T>>, complete: nat -> seq<nat>, base: Request, bound: int): Result<seq<T>, Error>
    requires CompletionOrders(complete)
  {
    var futures := ItemsOf(Futures(get, OffsetRequests(base, FollowUpOffsets(bound))));
    assert IsPermutation(complete(|futures|), |futures|);
    Gathered(futures, complete(|futures|))
  }

  /** The fan-out of the follow-up pages: submit every offset, then merge as they complete. */
  method FetchFollowUps<T>(get: Request -> Response<Page<T>>, complete: nat -> seq<nat>, base: Request, bound: int)
    returns (r: Result<seq<T>, Error>)
    requires CompletionOrders(complete)
    ensures r == FollowUps(get, complete, base, bound)
  {
    var pages := SubmitOffsets(get, base, bound);
    var futures := ItemsOf(pages);
    assert IsPermutation(complete(|futures|), |futures|);
    r := Gather(futures, complete(|futures|));
  }

  /**
   * A paginated call as the endpoints make it: the probe, then, when `WantsFollowUps`, the follow-up
   * pages up to `bound(total)`, appended after the probe's items.
   * `limitBounded` selects the bound: the caller's numeric limit (artist albums) or the total.
   */
  function FollowUpBound(limit: Option<int>, total: int, limitBounded: bool): (b: int)
    ensures limitBounded && limit.Some? ==> b == limit.value
    ensures !limitBounded || limit.None? ==> b == total
  {
    if limitBounded && limit.Some? then limit.value else total
  }

  function Paged<T>(get: Request -> Response<Page<T>>, complete: nat -> seq<nat>, probe: Request, followBase: Request,
                    limit: Option<int>, limitBounded: bool): Result<seq<T>, Error>
    requires CompletionOrders(complete)
  {
    var first := get(probe);
    if first.status != 200 then Failure(ResponseError(ErrorDetail(first)))
    else if !WantsFollowUps(limit, first.body.total) then Success(first.body.items)
    else
      match FollowUps(get, complete, followBase, FollowUpBound(limit, first.body.total, limitBounded))
      case Failure(e) => Failure(e)
      case Success(rest) => Success(first.body.items + rest)
  }

  /** The probe-and-follow-ups sequence of the paginated endpoints. */
  method FetchPaged<T>(get: Request -> Response<Page<T>>, complete: nat -> seq<nat>, probe: Request, followBase: Request,
                       limit: Option<int>, limitBounded: bool) returns (r: Result<seq<T>, Error>)
    requires CompletionOrders(complete)
    ensures r == Paged(get, complete, probe, followBase, limit, limitBounded)
  {
    var response := get(probe);
    if response.status != 200 {
      return Failure(ResponseError(ErrorDetail(response)));
    }
    var result := response.body.items;
    if WantsFollowUps(limit, response.body.total) {
      var bound := FollowUpBound(limit, response.body.total, limitBounded);
      var rest := FetchFollowUps(get, complete, followBase, bound);
      if rest.Failure? {
        return Failure(rest.error);
      }
      result := result + rest.value;
    }
    return Success(result);
  }

  /** A failed probe fails the call with its error detail. */
  lemma PagedProbeFailure<T>(get: Request -> Response<Page<T>>, complete: nat -> seq<nat>, probe: Request, followBase: Request,
                             limit: Option<int>, limitBounded: bool)
    requires CompletionOrders(complete) && get(probe).status != 200
    ensures Paged(get, complete, probe, followBase, limit, limitBounded) == Failure(ResponseError(ErrorDetail(get(probe))))
  {
  }

  /** Without follow-ups the result is exactly the probe page's items. */
  lemma PagedProbeOnly<T>(get: Request -> Response<Page<T>>, complete: nat -> seq<nat>, probe: Request, followBase: Request,
                          limit: Option<int>, limitBounded: bool)
    requires CompletionOrders(complete) && get(probe).status == 200
    requires !WantsFollowUps(limit, get(probe).body.total)
    ensures Paged(get, complete, probe, followBase, limit, limitBounded) == Success(get(probe).body.items)
  {
  }

  /**
   * With follow-ups, the call fails exactly when some follow-up page is not 200; on success the
   * probe's items come first, and the rest are the follow-up pages' items (each counted with its
   * multiplicity), so the length is the probe's count plus the follow-up page lengths.
   */
  lemma PagedWithFollowUps<T>(get: Request -> Response<Page<T>>, complete: nat -> seq<nat>, probe: Request, followBase: Request,
                              limit: Option<int>, limitBounded: bool)
    requires CompletionOrders(complete) && get(probe).status == 200
    requires WantsFollowUps(limit, get(probe).body.total)
    ensures var reqs := OffsetRequests(followBase, FollowUpOffsets(FollowUpBound(limit, get(probe).body.total, limitBounded)));
      var r := Paged(get, complete, probe, followBase, limit, limitBounded);
      && (r.Success? <==> forall i :: 0 <= i < |reqs| ==> get(reqs[i]).status == 200)
      && (r.Success? ==>
            var probeItems := get(probe).body.items;
            var pages := ItemsOf(Futures(get, reqs));
            && r.value[..|probeItems|] == probeItems
            && multiset(r.value[|probeItems|..]) == multiset(Flatten(pages))
            && |r.value| == |probeItems| + |Flatten(pages)|)
  {
    var bound := FollowUpBound(limit, get(probe).body.total, limitBounded);
    var reqs := OffsetRequests(followBase, FollowUpOffsets(bound));
    var pages := ItemsOf(Futures(get, reqs));
    var order := complete(|pages|);
    assert IsPermutation(order, |pages|);
    FirstFailureIff(pages, order);
    GatheredContents(pages, order);
    var r := Paged(get, complete, probe, followBase, limit, limitBounded);
    if r.Success? {
      var probeItems := get(probe).body.items;
      assert r.value == probeItems + ConcatAt(pages, order);
      assert r.value[..|probeItems|] == probeItems;
      assert r.value[|probeItems|..] == ConcatAt(pages, order);
    }
  }

  /**
   * When every follow-up page is served and together they hold `extra` items, the merged result
   * keeps the probe's items at the front and is `extra` items longer than the probe's page.
   */
  lemma PagedServed<T>(get: Request -> Response<Page<T>>, complete: nat -> seq<nat>, probe: Request, followBase: Request,
                       limit: Option<int>, limitBounded: bool, bound: int, extra: nat)
    requires CompletionOrders(complete) && get(probe).status == 200
    requires WantsFollowUps(limit, get(probe).body.total)
    requires bound == FollowUpBound(limit, get(probe).body.total, limitBounded)
    requires var reqs := OffsetRequests(followBase, FollowUpOffsets(bound));
      && (forall i :: 0 <= i < |reqs| ==> get(reqs[i]).status == 200)
      && |Flatten(ItemsOf(Futures(get, reqs)))| == extra
    ensures var r := Paged(get, complete, probe, followBase, limit, limitBounded);
      && r.Success?
      && |r.value| == |get(probe).body.items| + extra
      && r.value[..|get(probe).body.items|] == get(probe).body.items
  {
    PagedWithFollowUps(get, complete, probe, followBase, limit, limitBounded);
  }
}

=== FILE: pkce.dfy ===
/** wspotify/authorization/authorization_code_pkce.py: the authorization code flow with PKCE. */
module PkceFlow {
  import opened Wrappers
  import opened Tokens
  import opened Scopes
  import opened Text
  import opened Exceptions
  import opened Http
  import opened AuthUtils
  import opened TokenTransport
  import opened FlowCommon

  /** The length of the generated code verifier. */
  const VerifierLength: nat := 64

  /**
   * `_generate_code_challenge`: the urlsafe base64 of the SHA-256 digest of the verifier, with the
   * `=` padding removed. The digest-and-encode step is the parameter `sha256Base64`.
   */
  function CodeChallenge(verifier: string, sha256Base64: string -> string): (c: string)
    ensures '=' !in c
    ensures forall x :: x != '=' ==> multiset(c)[x] == multiset(sha256Base64(verifier))[x]
  {
    Remove(sha256Base64(verifier), '=')
  }

  /**
   * The challenge is the encoded digest exactly, character for character, with its trailing `=`
   * padding cut off (base64url text holds `=` only as padding).
   */
  lemma ChallengeIsUnpaddedDigest(verifier: string, sha256Base64: string -> string, text: string, padding: nat)
    requires '=' !in text && sha256Base64(verifier) == text + seq(padding, _ => '=')
    ensures CodeChallenge(verifier, sha256Base64) == text
  {
    RemovePadding(text, padding, '=');
  }

  /** The fixed head of the PKCE authorize query, in insertion order. */
  function AuthorizeHead(clientId: string, redirectUri: string, challenge: string): (ps: Params)
    ensures Keys(ps) == {"client_id", "response_type", "redirect_uri", "code_challenge_method", "code_challenge"}
    ensures Lookup(ps, "client_id") == Some(Str(clientId)) && Lookup(ps, "response_type") == Some(Str("code"))
    ensures Lookup(ps, "redirect_uri") == Some(Str(redirectUri))
    ensures Lookup(ps, "code_challenge_method") == Some(Str("S256")) && Lookup(ps, "code_challenge") == Some(Str(challenge))
  {
    var ps := [("client_id", Str(clientId)), ("response_type", Str("code")), ("redirect_uri", Str(redirectUri)),
               ("code_challenge_method", Str("S256")), ("code_challenge", Str(challenge))];
    LookupAt(ps, 0);
    LookupAt(ps, 1);
    LookupAt(ps, 2);
    LookupAt(ps, 3);
    LookupAt(ps, 4);
    KeysAre(ps);
    ps
  }

  class AuthorizationCodePkce {
    const clientId: string
    const redirectUri: string
    const state: Option<string>
    const scopes: seq<Scope>
    const codeVerifier: string
    const codeChallenge: string
    const tokenUrl: string
    /** The digest-and-encode step the challenge was derived with. */
    ghost const digest: string -> string
    var accessToken: Option<AccessToken>

    /**
     * What construction establishes for every instance: a 64-character alphanumeric verifier and
     * the challenge derived from it.
     */
    ghost predicate Consistent() {
      && codeChallenge == CodeChallenge(codeVerifier, digest)
      && |codeVerifier| == VerifierLength
      && forall i :: 0 <= i < |codeVerifier| ==> IsAlphanumeric(codeVerifier[i])
    }

    /**
     * The verifier is `generate_random_string(64)` (the draws are `draw`), and the challenge is
     * derived from it at construction.
     */
    constructor(clientId: string, redirectUri: string, state: Option<string>, scopes: seq<Scope>,
                draw: nat -> nat, sha256Base64: string -> string)
      ensures this.clientId == clientId && this.redirectUri == redirectUri
      ensures this.state == state && this.scopes == scopes
      ensures codeVerifier == GenerateRandomString(VerifierLength, draw)
      ensures codeChallenge == CodeChallenge(codeVerifier, sha256Base64)
      ensures tokenUrl == TokenUrl && accessToken == None
      ensures digest == sha256Base64 && Consistent()
    {
      this.clientId := clientId;
      this.redirectUri := redirectUri;
      this.state := state;
      this.scopes := scopes;
      var verifier := GenerateRandomString(VerifierLength, draw);
      this.codeVerifier := verifier;
      this.codeChallenge := CodeChallenge(verifier, sha256Base64);
      this.digest := sha256Base64;
      this.tokenUrl := TokenUrl;
      accessToken := None;
    }

    /**
     * `get_authorization_url`: like the plain code flow, but without `show_dialog` and with
     * `code_challenge_method=S256` and the code challenge.
     */
    function GetAuthorizationUrl(openInBrowser: bool): (u: Option<Url>)
      ensures u.None? <==> openInBrowser
      ensures u.Some? ==> u.value.base == AuthorizeUrl
      ensures u.Some? ==> (Lookup(u.value.params, "client_id") == Some(Str(clientId))
        && Lookup(u.value.params, "response_type") == Some(Str("code"))
        && Lookup(u.value.params, "redirect_uri") == Some(Str(redirectUri))
        && Lookup(u.value.params, "code_challenge_method") == Some(Str("S256"))
        && Lookup(u.value.params, "code_challenge") == Some(Str(codeChallenge)))
      ensures u.Some? ==> (Lookup(u.value.params, "state").Some? <==> StateIsSet(state))
      ensures u.Some? && StateIsSet(state) ==> Lookup(u.value.params, "state") == Some(Str(state.value))
      ensures u.Some? ==> (Lookup(u.value.params, "scope").Some? <==> |scopes| > 0)
      ensures u.Some? && |scopes| > 0 ==> Lookup(u.value.params, "scope") == Some(Str(Join(Values(scopes), ' ')))
      ensures u.Some? ==> "show_dialog" !in Keys(u.value.params)
    {
      if openInBrowser then None
      else
        var head := AuthorizeHead(clientId, redirectUri, codeChallenge);
        var tail := OptionalAuthorizeParams(state, scopes);
        LookupAppend(head, tail, "client_id");
        LookupAppend(head, tail, "response_type");
        LookupAppend(head, tail, "redirect_uri");
        LookupAppend(head, tail, "code_challenge_method");
        LookupAppend(head, tail, "code_challenge");
        LookupAppend(head, tail, "state");
        LookupAppend(head, tail, "scope");
        Some(Url(AuthorizeUrl, head + tail))
    }

    /** `parse_redirect_uri`: the same state check as the plain code flow. */
    function ParseRedirectUri(q: Query): (r: Result<string, Error>)
      ensures ParseCode(q).Failure? ==> r == ParseCode(q)
      ensures r.Success? ==> ParseCode(q) == Success(r.value)
      ensures r == Failure(InvalidState) <==>
        ParseCode(q).Success? && ParseState(q).Success? && Some(ParseState(q).value) != state
    {
      match ParseCode(q)
      case Failure(e) => Failure(e)
      case Success(code) =>
        match ParseState(q)
        case Failure(_) => Success(code)
        case Success(s) => if Some(s) != state then Failure(InvalidState) else Success(code)
    }

    /** The code exchange: no client secret, but the client ID and the code verifier in the form. */
    function AccessTokenRequest(code: string): (req: TokenRequest)
      ensures req.url == tokenUrl && req.basicCredentials.None?
      ensures FormField(req.form, "grant_type") == Some(Some("authorization_code"))
      ensures FormField(req.form, "code") == Some(Some(code))
      ensures FormField(req.form, "redirect_uri") == Some(Some(redirectUri))
      ensures FormField(req.form, "client_id") == Some(Some(clientId))
      ensures FormField(req.form, "code_verifier") == Some(Some(codeVerifier))
    {
      var form := [("code", Some(code)), ("redirect_uri", Some(redirectUri)), ("grant_type", Some("authorization_code")),
                   ("client_id", Some(clientId)), ("code_verifier", Some(codeVerifier))];
      FormFieldAt(form, 0);
      FormFieldAt(form, 1);
      FormFieldAt(form, 2);
      FormFieldAt(form, 3);
      FormFieldAt(form, 4);
      TokenRequest(tokenUrl, None, form)
    }

    /** The refresh request: no client secret, but the client ID in the form. */
    function RefreshRequest(refreshToken: Option<string>): (req: TokenRequest)
      ensures req.url == tokenUrl && req.basicCredentials.None?
      ensures FormField(req.form, "grant_type") == Some(Some("refresh_token"))
      ensures FormField(req.form, "refresh_token") == Some(refreshToken)
      ensures FormField(req.form, "client_id") == Some(Some(clientId))
    {
      var form := [("grant_type", Some("refresh_token")), ("refresh_token", refreshToken), ("client_id", Some(clientId))];
      FormFieldAt(form, 0);
      FormFieldAt(form, 1);
      FormFieldAt(form, 2);
      TokenRequest(tokenUrl, None, form)
    }

    /** What `refresh_access_token` would do at `now`: raise, return at once, or post this request. */
    function RefreshPlan(explicit: Option<string>, now: Instant): (plan: Result<Option<TokenRequest>, Error>)
      reads this
      ensures plan == Failure(AccessTokenNotFound) <==> accessToken.None? && explicit.None?
      ensures plan == Success(None) <==> accessToken.Some? && Valid(accessToken.value, now)
      ensures plan.Success? && plan.value.Some? ==> plan.value.value == RefreshRequest(RefreshDecision(accessToken, explicit, now).refreshToken)
    {
      match RefreshDecision(accessToken, explicit, now)
      case NoTokenToRefresh => Failure(AccessTokenNotFound)
      case StillValid => Success(None)
      case Send(t) => Success(Some(RefreshRequest(t)))
    }

    /** `get_access_token(code)` at `now`: one POST; the decoded reply becomes the stored token, or the error is raised. */
    method GetAccessToken(code: string, now: Instant, endpoint: TokenEndpoint) returns (r: Outcome<Error>)
      modifies this, endpoint
      ensures endpoint.sent == old(endpoint.sent) + [AccessTokenRequest(code)]
      ensures Settled(Exchange(endpoint.respond(AccessTokenRequest(code)), now), r, old(accessToken), accessToken)
    {
      var reply := endpoint.Post(AccessTokenRequest(code));
      var x := Exchange(reply, now);
      if x.Failure? {
        return Fail(x.error);
      }
      accessToken := Some(x.value);
      r := Pass;
    }

    /** `refresh_access_token(refresh_token=explicit)` at the instant `now`. */
    method RefreshAccessToken(explicit: Option<string>, now: Instant, endpoint: TokenEndpoint) returns (r: Outcome<Error>)
      modifies this, endpoint
      ensures match old(RefreshPlan(explicit, now))
        case Failure(e) => r == Fail(e) && accessToken == old(accessToken) && endpoint.sent == old(endpoint.sent)
        case Success(None) => r == Pass && accessToken == old(accessToken) && endpoint.sent == old(endpoint.sent)
        case Success(Some(req)) =>
          (endpoint.sent == old(endpoint.sent) + [req]
           && Settled(Exchange(endpoint.respond(req), now), r, old(accessToken), accessToken))
    {
      var plan := RefreshPlan(explicit, now);
      match plan
      case Failure(e) =>
        return Fail(e);
      case Success(None) =>
        return Pass;
      case Success(Some(req)) =>
        var reply := endpoint.Post(req);
        var x := Exchange(reply, now);
        if x.Failure? {
          return Fail(x.error);
        }
        accessToken := Some(x.value);
        r := Pass;
    }

    /**
     * The verifier the exchange proves possession of is the one the challenge in the authorize URL
     * was derived from, and it meets the 43-to-128 alphanumeric shape PKCE asks for.
     */
    lemma VerifierMatchesChallenge(code: string)
      requires Consistent()
      ensures var u := GetAuthorizationUrl(false);
        var f := FormField(AccessTokenRequest(code).form, "code_verifier");
        && f.Some? && f.value.Some?
        && Lookup(u.value.params, "code_challenge") == Some(Str(CodeChallenge(f.value.value, digest)))
        && 43 <= |f.value.value| <= 128
        && forall i :: 0 <= i < |f.value.value| ==> IsAlphanumeric(f.value.value[i])
    {
    }

    /** The redirect echoing the authorize URL's state parses to the code. */
    lemma RedirectRoundTrip(code: string)
      ensures var u := GetAuthorizationUrl(false);
        var echoed := if Lookup(u.value.params, "state").Some? then state else None;
        ParseRedirectUri(GrantedRedirect(code, echoed)) == Success(code)
    {
      ParseGrantedRedirect(code, if StateIsSet(state) then state else None);
    }
  }
}

=== FILE: schemas.dfy ===
/**
 * The decoded resource records of wspotify/schemas.py, reduced to the fields the endpoints
 * inspect or the tests look at; decoding itself is not part of this model.
 */
module Schemas {
  import opened Pagination

  datatype SimplifiedArtist = SimplifiedArtist(id: string, name: string)

  datatype ArtistData = ArtistData(id: string, name: string, genres: seq<string>, popularity: int)

  datatype SimplifiedTrack = SimplifiedTrack(id: string, name: string, artists: seq<SimplifiedArtist>, trackNumber: int)

  datatype Track = Track(id: string, name: string, artists: seq<SimplifiedArtist>, album: SimplifiedAlbum, popularity: int)

  datatype SimplifiedAlbum = SimplifiedAlbum(id: string, name: string, totalTracks: int, artists: seq<SimplifiedArtist>)

  /** `tracks: Tracks | list[SimplifiedTrack]`: a page as decoded, or the full list `get_album` puts back. */
  datatype AlbumTracks = TrackPage(page: Page<SimplifiedTrack>) | TrackList(items: seq<SimplifiedTrack>)

  datatype AlbumData = AlbumData(id: string, name: string, totalTracks: int, artists: seq<SimplifiedArtist>, tracks: AlbumTracks)

  datatype SavedAlbum = SavedAlbum(addedAt: string, album: AlbumData)
}

=== FILE: scopes.dfy ===
/** Authorization scopes (wspotify/authorization/scopes.py is not part of this model). */
module Scopes {

  /** An enumeration member: its `name` (e.g. USER_LIBRARY_READ) and its `value` (user-library-read). */
  datatype Scope = Scope(name: string, value: string)

  /** `[scope.value for scope in scopes]`. */
  function Values(scopes: seq<Scope>): (vs: seq<string>)
    ensures |vs| == |scopes| && forall k :: 0 <= k < |vs| ==> vs[k] == scopes[k].value
  {
    seq(|scopes|, k requires 0 <= k < |scopes| => scopes[k].value)
  }

  /** `[scope.name for scope in scopes]`. */
  function Names(scopes: seq<Scope>): (ns: seq<string>)
    ensures |ns| == |scopes| && forall k :: 0 <= k < |ns| ==> ns[k] == scopes[k].name
  {
    seq(|scopes|, k requires 0 <= k < |scopes| => scopes[k].name)
  }

  /** The two scopes the album endpoints require. */
  const UserLibraryRead: Scope := Scope("USER_LIBRARY_READ", "user-library-read")
  const UserLibraryModify: Scope := Scope("USER_LIBRARY_MODIFY", "user-library-modify")
}

=== FILE: text.dfy ===
/** Python string helpers the client relies on: `sep.join`, `str.split`, `str.replace(c, "")`. */
module Text {

  /** The position of the first `c` in `s`. */
  function IndexOf(s: string, c: char): (i: nat)
    requires c in s
    ensures i < |s| && s[i] == c && c !in s[..i]
  {
    if s[0] == c then 0
    else
      var j := IndexOf(s[1..], c);
      assert s[..j + 1] == [s[0]] + s[1..][..j];
      j + 1
  }

  /** `sep.join(xs)`: the elements of `xs` in order, one `sep` between neighbours. */
  function Join(xs: seq<string>, sep: char): (s: string)
  {
    if |xs| == 0 then ""
    else if |xs| == 1 then xs[0]
    else xs[0] + [sep] + Join(xs[1..], sep)
  }

  /** `s.split(sep)`: the maximal pieces of `s` between occurrences of `sep`. */
  function Split(s: string, sep: char): (parts: seq<string>)
    ensures |parts| >= 1
    ensures forall k :: 0 <= k < |parts| ==> sep !in parts[k]
    decreases |s|
  {
    if sep !in s then [s]
    else
      var i := IndexOf(s, sep);
      [s[..i]] + Split(s[i + 1..], sep)
  }

  lemma IndexOfAfterPrefix(a: string, c: char, b: string)
    requires c !in a
    ensures c in a + [c] + b && IndexOf(a + [c] + b, c) == |a|
  {
    var s := a + [c] + b;
    assert s[|a|] == c;
    assert s[..|a|] == a;
  }

  /** Splitting undoes joining when no element contains the separator. */
  lemma {:induction false} SplitJoin(xs: seq<string>, sep: char)
    requires |xs| >= 1
    requires forall k :: 0 <= k < |xs| ==> sep !in xs[k]
    ensures Split(Join(xs, sep), sep) == xs
  {
    if |xs| > 1 {
      var rest := Join(xs[1..], sep);
      var s := xs[0] + [sep] + rest;
      assert Join(xs, sep) == s;
      IndexOfAfterPrefix(xs[0], sep, rest);
      var i := |xs[0]|;
      assert s[..i] == xs[0];
      assert s[i + 1..] == rest;
      assert Split(s, sep) == [xs[0]] + Split(rest, sep);
      SplitJoin(xs[1..], sep);
      assert xs == [xs[0]] + xs[1..];
    }
  }

  /** `s.replace(c, "")`: `s` with every `c` removed, the other characters kept in order. */
  function Remove(s: string, c: char): (r: string)
    ensures c !in r
    ensures forall x :: x != c ==> multiset(r)[x] == multiset(s)[x]
    ensures |r| <= |s|
  {
    if s == [] then []
    else
      var rest := Remove(s[1..], c);
      assert s == [s[0]] + s[1..];
      if s[0] == c then rest else [s[0]] + rest
  }

  /** Removal works piece by piece, so the kept characters stay in their order. */
  lemma {:induction false} RemoveConcat(a: string, b: string, c: char)
    ensures Remove(a + b, c) == Remove(a, c) + Remove(b, c)
  {
    if a != [] {
      assert (a + b)[1..] == a[1..] + b;
      RemoveConcat(a[1..], b, c);
    } else {
      assert a + b == b;
    }
  }

  /** Stripping the trailing padding of a text free of the pad character gives that text back exactly. */
  lemma RemovePadding(s: string, n: nat, pad: char)
    requires pad !in s
    ensures Remove(s + seq(n, _ => pad), pad) == s
  {
    RemoveConcat(s, seq(n, _ => pad), pad);
    RemoveAbsent(s, pad);
    RemoveAll(n, pad);
  }

  /** A run of the removed character disappears entirely. */
  lemma {:induction false} RemoveAll(n: nat, c: char)
    ensures Remove(seq(n, _ => c), c) == []
  {
    if n > 0 {
      assert seq(n, _ => c)[1..] == seq(n - 1, _ => c);
      RemoveAll(n - 1, c);
    }
  }

  /** Removing a character that does not occur changes nothing. */
  lemma {:induction false} RemoveAbsent(s: string, c: char)
    requires c !in s
    ensures Remove(s, c) == s
  {
    if s != [] {
      RemoveAbsent(s[1..], c);
      assert s == [s[0]] + s[1..];
    }
  }
}

=== FILE: token_transport.dfy ===
/**
 * The accounts service the three authorization flows talk to: the token endpoint, as an object
 * that answers each posted form and keeps the log of what was posted.
 */
module TokenTransport {
  import opened Wrappers
  import opened Tokens
  import opened Exceptions

  /** `AuthorizationFlow.token_url`. */
  const TokenUrl: string := "https://accounts.spotify.com/api/token"

  /** The user-facing authorization page. */
  const AuthorizeUrl: string := "https://accounts.spotify.com/authorize"

  /** A form body, field by field in insertion order; a `None` value is a Python `None`. */
  type Form = seq<(string, Option<string>)>

  /**
   * A POST to the token endpoint. `basicCredentials` is the `client_id:client_secret` pair that the
   * `Authorization: Basic` header carries (before base64), when the flow sends that header.
   */
  datatype TokenRequest = TokenRequest(url: string, basicCredentials: Option<string>, form: Form)

  /** The endpoint's answer: its status, the `error` field of the body, and the token fields when present. */
  datatype TokenReply = TokenReply(status: int, error: Option<string>, grant: Option<TokenGrant>)

  /** `f"{client_id}:{client_secret}"`. */
  function BasicCredentials(clientId: string, clientSecret: string): (c: string)
    ensures |c| == |clientId| + 1 + |clientSecret| && c[|clientId|] == ':'
    ensures c[..|clientId|] == clientId && c[|clientId| + 1..] == clientSecret
  {
    clientId + ":" + clientSecret
  }

  /** The value a form assigns to `key`, if the form has that field. */
  function FormField(form: Form, key: string): Option<Option<string>> {
    if form == [] then None
    else if form[0].0 == key then Some(form[0].1)
    else FormField(form[1..], key)
  }

  /** In a form without repeated fields, each entry is what its field name finds. */
  lemma {:induction false} FormFieldAt(form: Form, i: nat)
    requires i < |form| && forall a, b :: 0 <= a < b < |form| ==> form[a].0 != form[b].0
    ensures FormField(form, form[i].0) == Some(form[i].1)
  {
    if i > 0 {
      assert form[0].0 != form[i].0;
      assert form[1..][i - 1] == form[i];
      FormFieldAt(form[1..], i - 1);
    }
  }

  /** The token endpoint: `respond` is its (fixed) behaviour, `sent` the log of posted requests. */
  class TokenEndpoint {
    const respond: TokenRequest -> TokenReply
    var sent: seq<TokenRequest>

    constructor(respond: TokenRequest -> TokenReply)
      ensures this.respond == respond && sent == []
    {
      this.respond := respond;
      sent := [];
    }

    /** `httpx.post(token_url, headers=..., data=form)`. */
    method Post(request: TokenRequest) returns (reply: TokenReply)
      modifies this
      ensures sent == old(sent) + [request]
      ensures reply == respond(request)
    {
      sent := sent + [request];
      reply := respond(request);
    }
  }

  /**
   * The common tail of every token request: a non-200 reply raises AccessTokenError with the
   * body's `error` field (None when absent); a 200 reply is decoded into an AccessToken with the
   * corrected `created_at` default (FromGrantAt: the fetch instant `now`), not the class-definition
   * instant the written default gives (FromGrant).
   */
  function Exchange(reply: TokenReply, now: Instant): (r: Result<AccessToken, Error>)
    ensures r.Success? <==> reply.status == 200 && reply.grant.Some?
    ensures reply.status != 200 ==> r.error == AccessTokenError(reply.error)
    ensures reply.status == 200 && reply.grant.None? ==> r == Failure(InvalidTokenBody)
    ensures r.Success? ==> (r.value.accessToken == reply.grant.value.accessToken
      && r.value.tokenType == reply.grant.value.tokenType && r.value.scope == reply.grant.value.scope
      && r.value.refreshToken == reply.grant.value.refreshToken && r.value.expiresIn == reply.grant.value.expiresIn
      && r.value.createdAt == reply.grant.value.createdAt.GetOr(now))
    ensures r.Success? && reply.grant.value.createdAt.None? && reply.grant.value.expiresIn >= 0 ==> Valid(r.value, now)
  {
    if reply.status != 200 then Failure(AccessTokenError(reply.error))
    else if reply.grant.None? then Failure(InvalidTokenBody)
    else Success(FromGrantAt(reply.grant.value, now))
  }

  /**
   * How a flow's stored token ends up after a token request: on success the decoded token
   * replaces it and the call returns normally; on failure the error is raised and the stored
   * token is left as it was.
   */
  predicate Settled(x: Result<AccessToken, Error>, r: Outcome<Error>, before: Option<AccessToken>, after: Option<AccessToken>) {
    match x
    case Success(t) => r == Pass && after == Some(t)
    case Failure(e) => r == Fail(e) && after == before
  }
}

=== FILE: tokens.dfy ===
/** The access-token record of wspotify/authorization/schemas.py. */
module Tokens {
  import opened Wrappers

  /** A wall-clock instant, in microseconds (the resolution of `datetime`). */
  type Instant = int

  const MicrosPerSecond: int := 1_000_000

  /** An OAuth2 access token as the flows store it; an absent `scope` or `refresh_token` is None. */
  datatype AccessToken = AccessToken(
    accessToken: string,
    tokenType: string,
    scope: Option<string>,
    createdAt: Instant,
    expiresIn: int,
    refreshToken: Option<string>)

  /** The fields of a successful token-endpoint reply (`created_at` is normally absent). */
  datatype TokenGrant = TokenGrant(
    accessToken: string,
    tokenType: string,
    scope: Option<string>,
    createdAt: Option<Instant>,
    expiresIn: int,
    refreshToken: Option<string>)

  /** `created_at + timedelta(seconds=expires_in)`. */
  function ExpiresAt(t: AccessToken): Instant {
    t.createdAt + t.expiresIn * MicrosPerSecond
  }

  /** `AccessToken.valid()` at the instant `now`. */
  predicate Valid(t: AccessToken, now: Instant) {
    !(now > ExpiresAt(t))
  }

  /** The token is valid up to and including its expiry instant and invalid strictly after. */
  lemma ValidIffNotPastExpiry(t: AccessToken, now: Instant)
    ensures Valid(t, now) <==> now <= t.createdAt + t.expiresIn * MicrosPerSecond
    ensures Valid(t, ExpiresAt(t)) && !Valid(t, ExpiresAt(t) + 1)
  {
  }

  /** Once a token is invalid it stays invalid. */
  lemma InvalidStaysInvalid(t: AccessToken, now: Instant, later: Instant)
    requires now <= later && !Valid(t, now)
    ensures !Valid(t, later)
  {
  }

  /** A token with a non-negative lifetime is valid at its own creation instant. */
  lemma ValidAtCreation(t: AccessToken)
    requires t.expiresIn >= 0
    ensures Valid(t, t.createdAt)
  {
  }

  /**
   * `AccessToken(**data)` as written: a missing `created_at` takes the class default, which Python
   * evaluated once, when the class was defined (`classDefinedAt`).
   */
  function FromGrant(g: TokenGrant, classDefinedAt: Instant): (t: AccessToken)
    ensures t.accessToken == g.accessToken && t.tokenType == g.tokenType && t.scope == g.scope
    ensures t.expiresIn == g.expiresIn && t.refreshToken == g.refreshToken
    ensures g.createdAt.None? ==> t.createdAt == classDefinedAt
    ensures g.createdAt.Some? ==> t.createdAt == g.createdAt.value
  {
    AccessToken(g.accessToken, g.tokenType, g.scope, g.createdAt.GetOr(classDefinedAt), g.expiresIn, g.refreshToken)
  }

  /**
   * The defect of the class-level default: a token fetched more than `expires_in` seconds after the
   * class was defined is already invalid at the moment it is fetched.
   */
  lemma FetchedTokenAlreadyExpired(g: TokenGrant, classDefinedAt: Instant, fetchedAt: Instant)
    requires g.createdAt.None?
    requires fetchedAt > classDefinedAt + g.expiresIn * MicrosPerSecond
    ensures !Valid(FromGrant(g, classDefinedAt), fetchedAt)
  {
  }

  /** The evidently intended construction: `created_at` defaults to the instant the token is built. */
  function FromGrantAt(g: TokenGrant, fetchedAt: Instant): (t: AccessToken)
    ensures g.createdAt.None? && g.expiresIn >= 0 ==> Valid(t, fetchedAt)
    ensures g.createdAt.None? ==> forall now :: Valid(t, now) <==> now <= fetchedAt + g.expiresIn * MicrosPerSecond
  {
    FromGrant(g, fetchedAt)
  }
}

=== FILE: wrappers.dfy ===
/** Failure-carrying values used for the client's exceptions. */
module Wrappers {

  /** A value that may be absent (Python's `None`). */
  datatype Option<+T> = None | Some(value: T) {
    /** The value, or `default` when absent (`x if x is not None else default`). */
    function GetOr(default: T): T {
      match this
      case Some(v) => v
      case None => default
    }
  }

  /** The result of a call that either returns a value or raises an error. */
  datatype Result<+T, +E> = Success(value: T) | Failure(error: E)

  /** The result of a call that returns nothing or raises an error. */
  datatype Outcome<+E> = Pass | Fail(error: E)
}
